=== FILE: README.md ===
# Chiller plant efficiency: a verified model of the calculation and rule layer

This project is a Dafny model of the back end of a chiller-plant efficiency platform, and proofs about it. The model covers:

- the sensor and configuration records;
- the thermodynamic metric calculator and its batch run;
- the synthetic data generator;
- the advanced engineering calculator: compressor lift, part-load ratio, the fan and pump cube law, and the tower penalty;
- the rule-based diagnostic engine;
- the manual audit calculator;
- the control logic: observe, decide, recommend, confirm, apply, and decide whether to revert;
- the digital twin, which simulates a control action, compares it with the live state and ranks a matrix of scenarios;
- the rule and statistics layer of the machine-learning engine.

There is one Dafny module per source file. Two more hold shared values:

- `Util` holds `Option`, `Result` and `Extended` (a float that may be the `float('inf')` fallback), plus Python truthiness of an optional float.
- `PlantStates` holds the plant-state dictionary. It has 26 optional keys that the control logic, the twin, the diagnostics and the advanced calculator read and write. Each key is an `Option` field.

How the source is mapped:

- Objects whose fields the source updates in place are classes: `ControlLogic.Controller`, `TwinSimulation.DigitalTwin` and `MachineLearning.MLEngine`.
- The loops of the source are methods with loop invariants. These are the batch run, the data generator, feature preparation, the recommendation stamping, the recommendation builders and the scenario evaluation and ranking. The audit's running power total, which adds each auxiliary in turn with three `if` statements, is a method too (`ManualAudit.AccumulateTotalPower`).
- Everything else is functions on values.
- The twin deep-copies the state before it changes it, so its state changes are functions from state to state.
- Every quantity is a `real`. Python's `round(...)` on output values is not modelled, so each property is stated on the unrounded value.

Where the code and its own documentation differ, the model follows the code:

- **ΔT of exactly 2 degrees.** The calculator's message says the ΔT "must be > 2". The check is `delta_t < 2.0`, so a ΔT of exactly 2 degrees is accepted (`Thermodynamics.Validate`).
- **Tower fan at its 100% cap.** An increase is still an action that requires confirmation, even though the recommended speed equals the current one (`ControlLogic.ConfirmationWithoutSpeedChange`).
- **Lift of exactly 10 degrees.** The two modules classify it differently. The advanced calculator calls it a warning (`lift < 10.0` is "good"). The diagnostic engine calls it acceptable (`lift <= 10.0`). Each module keeps its own rule.
- **Tower approach between 4 and 5 degrees.** The tower diagnostic's rules name only the bands 5–7 and above 7. The code rates approach below 4 as excellent and 4 to 5 as acceptable.
- **Missing manual-audit records.** The manual audit imports `ManualAuditInput` and `ManualAuditResult` from `models/sensor_data.py`, and that file does not define them. Their fields are reconstructed from the calculator's use of them (`ManualAudit.ManualAuditInput`, `ManualAudit.ManualAuditResult`).
- **Divisions by zero in the twin.** In the pump and fan simulations a current speed of 0 or a speed ratio of 0 divides by zero. In the source this raises `ZeroDivisionError`. The model makes it an error result (`TwinSimulation.SimulatePumpAdjustment`, `TwinSimulation.SimulateFanAdjustment`). A scenario matrix that meets one stops with that error.

## Model

| member | source | states |
|---|---|---|
| SensorData.NewConfig | backend/models/sensor_data.py:32-41 | a configuration is accepted exactly when every field lies within its declared bounds, and is then kept unchanged |
| SensorData.DefaultConfig | backend/models/sensor_data.py:34-41 | the all-defaults configuration satisfies every bound |
| SensorData.SetpointsUnordered | backend/models/sensor_data.py:36-37 | the bounds do not order the setpoints: a valid configuration may have its return setpoint below its supply setpoint |
| Thermodynamics.Validate | backend/services/thermodynamics.py:44-54 | no error exactly when ΔT ≥ 2, flow > 0 and chiller power > 0; each error code exactly when its check is the first to fail, in the order ΔT, flow, power |
| Thermodynamics.CoolingLoad | backend/services/thermodynamics.py:56-60 | a validated reading has a positive cooling load, so the load check after validation never fires |
| Thermodynamics.ChillerStatus | backend/services/thermodynamics.py:69-75 | excellent below 0.6 kW/TR, average from 0.6 to below 0.8, poor from 0.8; each band both ways |
| Thermodynamics.PlantStatus | backend/services/thermodynamics.py:107-113 | plant bands: excellent below 0.75, average from 0.75 to below 0.95, poor from 0.95 |
| Thermodynamics.TotalPlantPower | backend/services/thermodynamics.py:94-102 | skipping zero or absent auxiliaries gives the plain sum with absent powers as zero; with non-negative auxiliaries the total is at least the chiller power |
| Thermodynamics.SavingsPercent | backend/services/thermodynamics.py:122-135 | zero at or below the 0.85 baseline; above it strictly between 0 and 100 percent |
| Thermodynamics.HeatRejected | backend/services/thermodynamics.py:82-88 | present exactly when both condenser temperatures and the condenser flow are non-zero and the range is positive; then positive exactly when the flow is |
| Thermodynamics.TowerApproach | backend/services/thermodynamics.py:90-92 | present exactly when the condenser outlet is non-zero and a wet bulb is given; outlet = wet bulb + approach |
| Thermodynamics.Derive | backend/services/thermodynamics.py:56-135 | every derived value: ΔT and load as defined; capacity × 3.517 = load > 0; chiller kW/TR per ton and COP (0 at no power); its band; tower range, approach and heat rejected; total plant power, plant kW/TR per ton, plant COP and its band; cost and CO2 proportional to the total; savings percent zero at or below the baseline, in (0, 100) above; yearly savings zero at or below, (total − 0.85 × tons) × 16 × 300 × 8 > 0 above; with non-negative auxiliaries plant kW/TR ≥ chiller kW/TR |
| Thermodynamics.TowerRange | backend/services/thermodynamics.py:78-84 | present exactly when both condenser temperatures are non-zero; then outlet + range = inlet |
| Thermodynamics.PerTon | backend/services/thermodynamics.py:66 | a positive tonnage times the kW/TR gives back the power |
| Thermodynamics.CopOf | backend/services/thermodynamics.py:67 | with positive power, COP × power = load; otherwise 0 |
| Thermodynamics.YearlySavings | backend/services/thermodynamics.py:122-135 | zero at or below the 0.85 baseline; above it the excess power over the baseline × 16 h × 300 days × 8 rupees, positive |
| Thermodynamics.CalculateMetrics | backend/services/thermodynamics.py:28-161 | rejected exactly when a validation check fails, with that check's error; otherwise the record keeps the timestamp and ΔT, holds the cooling load of the reading (positive), capacity × 3.517 = load, kW/TR × capacity = chiller power, COP × chiller power = load, kW/TR × COP = 3.517, and the chiller band of its kW/TR |
| Thermodynamics.KwPerTrTimesCop | backend/services/thermodynamics.py:63-67 | kW/TR and COP are reciprocal up to the kW-per-ton constant |
| Thermodynamics.BatchCalculate | backend/services/thermodynamics.py:163-190 | one entry per reading in input order, valid exactly when the reading validates, holding the calculator's metrics or its error |
| SimulationEngine.TotalSteps | backend/services/simulation_engine.py:25 | floor division: n steps fit in the duration and n + 1 do not; between 1 and 10080 for a valid configuration |
| SimulationEngine.HourOfDay | backend/services/simulation_engine.py:28-29 | the hour of day lies in [0, 24) |
| SimulationEngine.BusinessHoursLoad | backend/services/simulation_engine.py:37-38 | from 8 to before 18 o'clock the load multiplier lies in [0.8, 1) × the load factor |
| SimulationEngine.OffHoursLoad | backend/services/simulation_engine.py:39-40 | outside business hours the load multiplier lies in [0.4, 0.5) × the load factor |
| SimulationEngine.FoulingFactor | backend/services/simulation_engine.py:42-46 | with fouling off the factor is 1 |
| SimulationEngine.FoulingNeverImproves | backend/services/simulation_engine.py:43-44 | the fouling factor never falls as the run goes on |
| SimulationEngine.FoulingBounded | backend/services/simulation_engine.py:43-46 | over a run the factor stays in [1, 1 + rate], and below 1 + rate when the rate is positive |
| SimulationEngine.StepReading | backend/services/simulation_engine.py:28-93 | each reading: supply = setpoint + noise; return = supply + max(3, setpoint ΔT × load multiplier); flows max(0, base × multiplier + noise) (condenser × 1.2); condenser inlet = ambient + approach + noise and outlet = inlet + 5 × multiplier + noise; chiller power the noisy base power, at least 0; the ambient cycle; humidity clamped to [30, 90]; no wet bulb or auxiliaries; never rejected for low ΔT |
| SimulationEngine.BasePower | backend/services/simulation_engine.py:65-75 | the chiller power before noise is at least 10 kW |
| SimulationEngine.QuietReadingIsAccepted | backend/services/simulation_engine.py:48-76 | without flow and power noise, a generated reading passes the metric calculator's validation |
| SimulationEngine.GenerateData | backend/services/simulation_engine.py:14-97 | exactly TotalSteps readings; the k-th is stamped k timesteps after the start and is the step reading built from the k-th draws |
| SimulationEngine.GenerateSingleReading | backend/services/simulation_engine.py:99-107 | refused exactly when the ambient base or the load factor is outside its configuration bounds; otherwise the first reading of a one-hour, 60-minute-step run |
| MachineLearning.UsableRecords | backend/services/ml_engine.py:41-43 | the kept records are all valid with positive kW/TR, and never more than were given |
| MachineLearning.UsableRecordsExactly | backend/services/ml_engine.py:41-43 | a record is kept exactly when it is in the data, valid and has positive kW/TR |
| MachineLearning.TargetsOf | backend/services/ml_engine.py:51 | one target per kept record, each positive |
| MachineLearning.PrepareFeatures | backend/services/ml_engine.py:33-53 | one feature row and one target per kept record, in order |
| MachineLearning.MeanOfPositives | backend/services/ml_engine.py:97-98 | the mean of the (positive) training targets is positive |
| MachineLearning.VarianceNonNegative | backend/services/ml_engine.py:99 | the variance whose square root is the stored deviation is never negative |
| MachineLearning.ZScoreOf | backend/services/ml_engine.py:186-189 | the z-score is never negative |
| MachineLearning.ZScoreBeyondThree | backend/services/ml_engine.py:186-192 | z > 3 exactly when the deviation is positive and kW/TR lies outside mean ± 3 deviations |
| MachineLearning.AtTheMeanNoZScore | backend/services/ml_engine.py:186-189 | a reading at the training mean has z-score 0 |
| MachineLearning.PredictedCop | backend/services/ml_engine.py:146-148 | COP is 0 when the predicted power is not positive |
| MachineLearning.PredictedCopInverse | backend/services/ml_engine.py:146-148 | with positive predicted power, COP × kW/TR = 3.517 |
| MachineLearning.AnomalyVerdict | backend/services/ml_engine.py:191-211 | anomaly exactly when the isolation forest flags it or z > 3; the method is z-score exactly when z > 3, isolation forest exactly when flagged with z ≤ 3, combined exactly when normal; the score is the magnitude of the isolation score |
| MachineLearning.PredictionResponse | backend/services/ml_engine.py:134-155 | the chosen model's output, name and confidence (0.85 or 0.80), and COP consistent with the predicted kW/TR |
| MachineLearning.MLEngine.constructor | backend/services/ml_engine.py:25-31 | a new engine is untrained and holds no statistics |
| MachineLearning.MLEngine.TrainModels | backend/services/ml_engine.py:55-114 | fails exactly when fewer than 20 records are usable, and then changes nothing; otherwise the engine is trained with the sample count, the mean (positive) and the deviation of the targets |
| MachineLearning.MLEngine.PredictEfficiency | backend/services/ml_engine.py:116-155 | fails with models-not-trained exactly when untrained; otherwise the prediction response |
| MachineLearning.MLEngine.DetectAnomalies | backend/services/ml_engine.py:157-211 | fails exactly when untrained; otherwise the anomaly verdict on the stored statistics, with a missing kW/TR read as 0 |
| MachineLearning.SupplyTemperatureAdvice | backend/services/ml_engine.py:222-236 | advised exactly when supply < 8 °C; target 8 °C, savings 2.5 % per degree raised, positive |
| MachineLearning.FlowAdvice | backend/services/ml_engine.py:238-252 | advised exactly when ΔT < 4, for the current flow; savings exactly 5 + (5 − ΔT) × 2, above 7 %; recommended flow × 5 = current flow × ΔT |
| MachineLearning.FlowAdviceKeepsCooling | backend/services/ml_engine.py:243 | the recommended flow times the 5-degree target ΔT equals the current flow times the current ΔT, and is below 80 % of the current flow |
| MachineLearning.EfficiencyAdvice | backend/services/ml_engine.py:254-262 | advised exactly when kW/TR (0 when absent) exceeds 0.8; target 0.65 |
| MachineLearning.EfficiencySavingsShare | backend/services/ml_engine.py:260 | the savings percentage is the share of kW/TR above 0.65, strictly between 18.75 and 100 |
| MachineLearning.AppendAdvice | backend/services/ml_engine.py:230-236 | appends the advice when there is one, and nothing otherwise |
| MachineLearning.GenerateOptimizationRecommendations | backend/services/ml_engine.py:213-264 | at most three recommendations in the order supply, flow, efficiency; each equals its rule's advice; a parameter is advised exactly when its rule fires |
| AdvancedCalculations.LiftStatusOf | backend/services/advanced_calculations.py:45-57 | excellent below 8, good 8 to below 10, warning 10 to below 12, critical from 12; each both ways |
| AdvancedCalculations.LiftRecommendationFor | backend/services/advanced_calculations.py:70-79 | urgent above 12, fan and flow check above 10, monitor above the 9-degree baseline, maintain otherwise |
| AdvancedCalculations.LiftPenaltyFactor | backend/services/advanced_calculations.py:39-40 | the penalty factor is at least 1, and exactly 1 when the lift is at or below the baseline |
| AdvancedCalculations.CalculateCompressorLift | backend/services/advanced_calculations.py:20-68 | lift = condenser − evaporator; the adjustment is 3 % per degree above the 9-degree baseline and 0 at or below it; status and advice as classified |
| AdvancedCalculations.LiftPenaltyMonotone | backend/services/advanced_calculations.py:34-40 | a warmer condenser never lowers the penalty factor |
| AdvancedCalculations.PlrStatusOf | backend/services/advanced_calculations.py:104-124 | critical below 0.40, underloaded to 0.55, optimal 0.65–0.80, overloaded above 0.90, acceptable in the two gaps; each both ways |
| AdvancedCalculations.EfficiencyModifier | backend/services/advanced_calculations.py:100-102 | the curve is 0.1 (PLR − 1.25)² + 0.99375, so it never drops below 0.99375 |
| AdvancedCalculations.EfficiencyModifierFalls | backend/services/advanced_calculations.py:100-102 | the modifier falls as the PLR rises up to 1.25 |
| AdvancedCalculations.CalculatePartLoadRatio | backend/services/advanced_calculations.py:81-135 | an error exactly when the rated load is not positive; otherwise PLR × rated = actual, with its modifier and status; at full load PLR is 1, the modifier 1 and the status overloaded |
| AdvancedCalculations.CalculateCubeLawAdjustment | backend/services/advanced_calculations.py:137-170 | an error exactly when the current speed is not positive; new power = power × ratio³; same speed saves nothing; with positive power, slowing down saves and speeding up costs |
| AdvancedCalculations.SavingsShare | backend/services/advanced_calculations.py:159-160 | the savings percentage is 100 × (1 − ratio³) |
| AdvancedCalculations.CubeLawRoundTrip | backend/services/advanced_calculations.py:156-157 | changing speed and changing back restores the original power |
| AdvancedCalculations.CalculateTowerPenalty | backend/services/advanced_calculations.py:172-212 | no penalty at or below 5 °C, 3 % to 7, 6 % to 9, 10 % above; each band both ways |
| AdvancedCalculations.TowerPenaltyMonotone | backend/services/advanced_calculations.py:185-204 | a larger approach never has a smaller penalty |
| AdvancedCalculations.CalculateComprehensiveMetrics | backend/services/advanced_calculations.py:214-243 | each result is present exactly when its keys are, and then equals its own calculation on the held values: the lift from supply and condenser inlet, the part-load ratio (its error exactly when the rating is not positive), the tower penalty from the approach |
| DiagnosticEngine.MoreSevere | backend/services/diagnostic_engine.py:315-321 | the more serious of two severities, and one of them |
| DiagnosticEngine.DiagnoseDeltaT | backend/services/diagnostic_engine.py:16-66 | critical below 4, acceptable from 4 to 6, excellent above 6, never a warning |
| DiagnosticEngine.RangeDiagnosisOf | backend/services/diagnostic_engine.py:132-139 | low range below 4, high above 8, normal between |
| DiagnosticEngine.DiagnoseCoolingTower | backend/services/diagnostic_engine.py:68-141 | excellent below 4, acceptable from 4 to below 5, warning 5 to 7, critical above 7; the range is diagnosed exactly when given |
| DiagnosticEngine.DiagnoseCompressorLift | backend/services/diagnostic_engine.py:143-202 | excellent below 8, acceptable to 10, warning to 12, critical above 12 |
| DiagnosticEngine.DiagnoseFlowPumping | backend/services/diagnostic_engine.py:204-261 | warning below 4 or above 7, excellent between; below 4 the savings estimate is 15 % of the pump power |
| DiagnosticEngine.DeltaTPart | backend/services/diagnostic_engine.py:280-285 | no finding without a delta-T; with one, exactly the delta-T diagnosis of the held value |
| DiagnosticEngine.TowerPart | backend/services/diagnostic_engine.py:287-293 | no finding without an approach; with one, exactly the tower diagnosis of the held approach and range |
| DiagnosticEngine.LiftPart | backend/services/diagnostic_engine.py:295-303 | no finding without a lift; with one, exactly the lift diagnosis of the held value |
| DiagnosticEngine.FlowPart | backend/services/diagnostic_engine.py:305-313 | no finding unless both delta-T and pump power are held; then exactly the flow diagnosis of the held values |
| DiagnosticEngine.ApplicableDiagnostics | backend/services/diagnostic_engine.py:280-313 | at most four findings; each parameter is mentioned exactly when its keys are present; every finding is its parameter's diagnosis of the held values; the order is delta-T, tower, lift, flow |
| DiagnosticEngine.LowDeltaTMakesPlantCritical | backend/services/diagnostic_engine.py:280-317 | a held delta-T below 4 makes the plant critical overall |
| DiagnosticEngine.IssuesExactlyTheConcerns | backend/services/diagnostic_engine.py:284-313 | the issues are exactly the findings that are warnings or critical |
| DiagnosticEngine.WorstIsMaximum | backend/services/diagnostic_engine.py:315-321 | the worst severity bounds every finding and is the severity of one of them; excellent when there are none |
| DiagnosticEngine.OverallStatusIsWorst | backend/services/diagnostic_engine.py:315-321 | the critical-then-warning-then-acceptable cascade equals the worst severity |
| DiagnosticEngine.RecordFinding | backend/services/diagnostic_engine.py:283-285 | appends the finding, and keeps the issues equal to the warning-or-critical findings |
| DiagnosticEngine.CollectFindings | backend/services/diagnostic_engine.py:273-313 | collects exactly the applicable findings in order, with their issues |
| DiagnosticEngine.RunComprehensiveDiagnostics | backend/services/diagnostic_engine.py:263-325 | the report holds the applicable findings, exactly the warning-or-critical ones as issues with their count, and the worst severity as the overall status |
| ManualAudit.ChillerBand | backend/services/manual_audit.py:46-51 | the chiller bands of the metric calculator, and poor at infinity |
| ManualAudit.PlantBand | backend/services/manual_audit.py:53-58 | the plant bands of the metric calculator, and poor at infinity |
| ManualAudit.DeltaTStatusOf | backend/services/manual_audit.py:60-66 | low below 4, healthy from 4 to 7, acceptable above 7 |
| ManualAudit.TowerStatusOf | backend/services/manual_audit.py:72-77 | critical above 6, warning above 4, excellent otherwise |
| ManualAudit.RatioOrInfinity | backend/services/manual_audit.py:30-42 | infinity exactly when the capacity is not positive; otherwise ratio × capacity = numerator |
| ManualAudit.RatioOrZero | backend/services/manual_audit.py:31-43 | zero when the divisor is not positive; otherwise ratio × divisor = numerator |
| ManualAudit.PlantBandAdvice | backend/services/manual_audit.py:98-126 | a savings estimate exactly when plant kW/TR exceeds 0.95; the recommendations are the band advice (see `ManualAudit.BandAdviceExactly`); the diagnostic parts are the band message: the high, world-class or good tag for its band first, the saving second exactly when there is a saving |
| ManualAudit.BandMessageExactly | backend/services/manual_audit.py:97-125 | each band writes its own tag first, about the plant kW/TR: high exactly above 0.95, world-class exactly below 0.75, good otherwise; a second part, the daily saving, exactly above 0.95 |
| ManualAudit.ChillerAndRangeAdvice | backend/services/manual_audit.py:128-136 | the recommendations are the advice that follows the band (see `ManualAudit.FollowingAdviceExactly`) |
| ManualAudit.HighBandAdviceExactly | backend/services/manual_audit.py:98-116 | above 0.95: flow advice exactly when ΔT < 4, a setpoint raise of exactly 7 − supply exactly when supply < 6, tower fill and fan advice exactly when approach > 4, and nothing else |
| ManualAudit.BandAdviceExactly | backend/services/manual_audit.py:98-126 | the band advice in every band, item by item both ways: the poor band's conditional items, the excellent band's two messages first, the good band's one, and only band items |
| ManualAudit.FollowingAdviceExactly | backend/services/manual_audit.py:128-136 | tube cleaning exactly when chiller kW/TR exceeds 0.8; refrigerant check exactly when COP < 4; range advice for that range exactly when it is outside 4–8; no band item |
| ManualAudit.AuditAdviceExactly | backend/services/manual_audit.py:98-136 | the whole audit list: every item exactly under its own condition, the excellent band's two messages first |
| ManualAudit.Advise | backend/services/manual_audit.py:91-138 | the recommendation list is the band advice followed by the chiller and range advice; the message is the band message of the plant kW/TR and daily saving (see `ManualAudit.BandMessageExactly`); the saving is reported exactly when above 0.95 and non-zero |
| ManualAudit.AccumulateTotalPower | backend/services/manual_audit.py:33-40 | chiller power plus each non-zero auxiliary |
| ManualAudit.CalculateAudit | backend/services/manual_audit.py:18-166 | every figure of the audit: load, capacity, kW/TR or infinity, COPs or zero, bands, tower figures, the energy, cost and CO2 chain, positive savings above 0.95, the diagnostic message as the band message, and the recommendations as the band advice followed by the chiller and range advice |
| ManualAudit.SavingsPositive | backend/services/manual_audit.py:113-116 | above the 0.95 band, with positive hours and tariff, the daily savings are positive |
| ManualAudit.SavingsReported | backend/services/manual_audit.py:113-116 | the reported savings figure is positive above 0.95 with positive tons, hours and tariff |
| ControlLogic.Observe | backend/services/control_logic.py:36-67 | each figure is the held value or 0 (load from the capacity key; PLR 0.75); the issues are low delta-T, poor tower, then under- or overloaded, each once and exactly when its threshold is crossed; a missing delta-T reads as 0 and so as low |
| ControlLogic.DecideChillerSequencing | backend/services/control_logic.py:69-114 | shutdown below 0.55, maintain 0.65–0.80, startup above 0.90, monitor in the gaps; on shutdown the expected PLR is PLR × n / max(1, n − 1) for every n (PLR × n with at most two running); PLR × n/(n + 1) and lower on startup; unchanged otherwise; confirmation exactly for shutdown and startup |
| ControlLogic.StartupShare | backend/services/control_logic.py:98 | sharing the load with one more chiller lowers the PLR |
| ControlLogic.DecideChwSupplyReset | backend/services/control_logic.py:116-158 | raise by 0.5 °C, saving 2 %, exactly when load < 60 % and ΔT is between 4 and 7; otherwise maintain; confirmation exactly when raising |
| ControlLogic.DecidePumpVfdAdjustment | backend/services/control_logic.py:160-207 | reduce by 5 (floor 50) below ΔT 4, increase by 5 (cap 100) above 7, maintain otherwise; confirmation exactly when not maintaining |
| ControlLogic.DecideTowerFanAdjustment | backend/services/control_logic.py:209-263 | +10 above 7 °C, +5 above 5, −5 (floor 50) below 3, maintain otherwise; never above 100; confirmation exactly when not maintaining |
| ControlLogic.ConfirmationWithoutSpeedChange | backend/services/control_logic.py:224-262 | at the 100 % cap an increase leaves the speed unchanged yet still requires confirmation |
| ControlLogic.SequencingRecommendation | backend/services/control_logic.py:281-286 | the sequencing decision for the held PLR (0.75 when absent) and one running chiller, as a sequencing recommendation; high priority exactly when it needs confirmation |
| ControlLogic.SupplyResetRecommendation | backend/services/control_logic.py:289-298 | the supply-reset decision for the held supply temperature, PLR × 100 as the load percentage and the held ΔT, as a supply-reset recommendation at medium priority |
| ControlLogic.PumpRecommendation | backend/services/control_logic.py:301-306 | the pump decision for the held ΔT and pump speed (75 % when absent), as a pump recommendation; high priority exactly when it needs confirmation |
| ControlLogic.FanRecommendation | backend/services/control_logic.py:309-314 | the fan decision for the held approach and fan speed (75 % when absent), as a fan recommendation; high priority exactly when it needs confirmation |
| ControlLogic.SequencingPart | backend/services/control_logic.py:281 | present exactly when the state holds a PLR or a capacity |
| ControlLogic.SupplyResetPart | backend/services/control_logic.py:289 | present exactly when the state holds a supply temperature and a delta-T |
| ControlLogic.PumpPart | backend/services/control_logic.py:301 | present exactly when the state holds a delta-T |
| ControlLogic.FanPart | backend/services/control_logic.py:309 | present exactly when the state holds a tower approach |
| ControlLogic.AssembleByRules | backend/services/control_logic.py:275-314 | the four parts, concatenated, are each made by their own rule and come in sequencing, supply-reset, pump, fan order |
| ControlLogic.UnstampedRecommendations | backend/services/control_logic.py:275-314 | at most four recommendations; each control type is covered exactly when its keys are present; each one is the rule for its control type applied to the state; they come in the order sequencing, supply reset, pump, fan; medium priority exactly for the supply reset |
| ControlLogic.Stamp | backend/services/control_logic.py:318-320 | pending confirmation exactly when confirmation is required, informational otherwise; nothing else changes |
| ControlLogic.BuildRecommendations | backend/services/control_logic.py:275-322 | the recommendations stamped in order; each one, unstamped, is the rule for its control type applied to the state; sequencing, supply reset, pump, fan order; every high-priority one is pending confirmation |
| ControlLogic.ValidateActionSafety | backend/services/control_logic.py:324-362 | unsafe exactly for a supply reset above 10 °C; the pump and fan warnings exactly at their thresholds; at most one warning |
| ControlLogic.WorseMetrics | backend/services/control_logic.py:422-444 | each metric is listed exactly when both states hold it and it worsened past its margin |
| ControlLogic.UnchangedStateNothingWorse | backend/services/control_logic.py:422-444 | a state compared with itself, with non-negative kW/TR, shows nothing worse |
| ControlLogic.DistinctWorse | backend/services/control_logic.py:422-446 | no metric is listed twice, so two entries are two different metrics |
| ControlLogic.Controller.constructor | backend/services/control_logic.py:32-34 | no remembered state and no applied actions |
| ControlLogic.Controller.GenerateComprehensiveRecommendations | backend/services/control_logic.py:265-322 | remembers the state, keeps the log, and returns the stamped recommendations: each the rule for its control type applied to the state, in the source order, high priority pending confirmation |
| ControlLogic.Controller.ApplyAction | backend/services/control_logic.py:364-406 | refused for want of confirmation exactly when unconfirmed and required; refused as unsafe exactly when confirmed-or-not-required and unsafe; otherwise appended to the log, which changes in no other case |
| ControlLogic.Controller.ShouldRevert | backend/services/control_logic.py:408-454 | revert exactly when a non-empty state is remembered, an action was applied and two or more distinct metrics worsened; in that comparison the worsened metrics are exactly those of the remembered state against the current one |
| TwinSimulation.DigitalTwin.constructor | backend/services/digital_twin.py:20-24 | a new twin is in live mode |
| TwinSimulation.DigitalTwin.SetMode | backend/services/digital_twin.py:26-30 | accepts exactly "live" and "twin"; a refused name leaves the mode unchanged |
| TwinSimulation.SimulateSequencing | backend/services/digital_twin.py:63-80 | shutdown: PLR × 1.5 capped at 1 and one chiller fewer; startup: PLR × 0.7 and one more; nothing else changes |
| TwinSimulation.SimulateSupplyReset | backend/services/digital_twin.py:82-111 | with both setpoints truthy: new supply, lift down by 0.6 per degree, power down by 1.8 % per degree; otherwise unchanged |
| TwinSimulation.SpeedRatio | backend/services/digital_twin.py:115-117 | ratio × current speed = new speed, or 1 when the current speed is not positive |
| TwinSimulation.SimulatePumpAdjustment | backend/services/digital_twin.py:113-133 | fails exactly on a zero ratio with a delta-T, with that error; pump power scaled by ratio³ and flow by the ratio, each only when held; new ΔT × ratio = old ΔT (unchanged at ratio 1), so flow × ΔT preserved; nothing else changes |
| TwinSimulation.InverseScaled | backend/services/digital_twin.py:130-131 | an absent ΔT stays absent; at ratio 1 it is unchanged; otherwise new × ratio = old |
| TwinSimulation.FlowTimesDeltaT | backend/services/digital_twin.py:125-131 | scaling the flow by the ratio and dividing ΔT by it keeps the cooling delivered |
| TwinSimulation.SimulateFanAdjustment | backend/services/digital_twin.py:135-165 | fails exactly on a zero current speed with an approach, with that error; fan power × ratio³ when held and absent otherwise; the new speed; approach = max(2, approach − 0.03 × speed change in %), so not worse when speeding up; condenser outlet = wet bulb + approach and inlet = that + range when their keys are held, each unchanged otherwise |
| TwinSimulation.ApproachSpeedChangePct | backend/services/digital_twin.py:151 | the speed change × current speed = 100 × (new − current) |
| TwinSimulation.FasterFanNoWorseApproach | backend/services/digital_twin.py:148-153 | speeding a running fan up cannot raise the approach above its floored value |
| TwinSimulation.RecalculateMetrics | backend/services/digital_twin.py:167-201 | total power always set; load and capacity from flow and temperatures when all are held; lift from supply and condenser inlet when held |
| TwinSimulation.RecalculateKeepsMeasurements | backend/services/digital_twin.py:167-201 | recalculation changes only the derived keys |
| TwinSimulation.RecalculatedEfficiency | backend/services/digital_twin.py:184-191 | kW/TR consistent with capacity when it is positive; COPs consistent with load and power when positive; otherwise the old values stay |
| TwinSimulation.RecalculateIdempotent | backend/services/digital_twin.py:167-201 | recalculating twice is recalculating once |
| TwinSimulation.SimulateControlAction | backend/services/digital_twin.py:32-61 | the recalculated effect of the action's control type: sequencing, supply reset, pump or fan, or the state itself for no type; fails exactly when the pump or fan simulation fails, with its error; a success is already recalculated and holds a total power |
| TwinSimulation.ImprovementsOf | backend/services/digital_twin.py:245-253 | each improvement is the signed difference of the two figures; percentages are relative to the live value, or 0 when it is not positive; identical figures give no improvement |
| TwinSimulation.VerdictOf | backend/services/digital_twin.py:256-262 | recommended exactly when power is saved and kW/TR falls; else not recommended exactly when power rises by more than 5 kW; else neutral |
| TwinSimulation.CompareLiveVsTwin | backend/services/digital_twin.py:203-264 | fails exactly when the simulation fails; otherwise the live and twin figures, their improvements and the verdict |
| TwinSimulation.NoChangeIsNeutral | backend/services/digital_twin.py:256-262 | a prediction identical to the live figures is neutral |
| TwinSimulation.Score | backend/services/digital_twin.py:283-290 | improvements in every weighted figure give a non-negative score; no change scores 0 |
| TwinSimulation.Evaluate | backend/services/digital_twin.py:279-297 | the unranked scenario of one action with its comparison and score |
| TwinSimulation.Evaluations | backend/services/digital_twin.py:279-297 | one scenario per action, in order |
| TwinSimulation.InsertByScore | backend/services/digital_twin.py:300 | inserting adds exactly the one scenario |
| TwinSimulation.InsertKeepsOrder | backend/services/digital_twin.py:300 | inserting into a list ordered by score keeps it ordered |
| TwinSimulation.SortByScore | backend/services/digital_twin.py:300 | a permutation ordered from the highest score down |
| TwinSimulation.EvaluateAll | backend/services/digital_twin.py:279-297 | fails exactly when some action cannot be simulated; otherwise every scenario in order |
| TwinSimulation.AssignRanks | backend/services/digital_twin.py:303-304 | the k-th scenario gets rank k + 1 and is otherwise unchanged |
| TwinSimulation.RankByScore | backend/services/digital_twin.py:299-304 | a permutation of the scenarios ordered by score and ranked 1, 2, ... |
| TwinSimulation.GenerateScenarioMatrix | backend/services/digital_twin.py:266-311 | fails exactly when some action cannot be simulated; otherwise all scenarios, ordered by score and ranked, with the best action the top scorer's, present exactly when there were actions |

## Left out

- Thermodynamics.CalculateMetrics: `SensorReading` (backend/models/sensor_data.py:5-18, which ignores extra fields) declares no wet bulb and no auxiliary powers, so as written the wet-bulb read at backend/services/thermodynamics.py:90 raises `AttributeError` whenever the condenser outlet is non-zero, the unconditional pump-power read at :97 always does, and the calculator never returns metrics for a real reading. The model reads them as optional fields that a reading may leave empty, which is the evident intent.
- Thermodynamics.BatchCalculate: the same undeclared reads make every entry of a real batch an error as written; the model follows the evident intent as for `CalculateMetrics`.
- Wall clocks: `datetime.now` and the timestamps and ISO strings derived from it. The generator's start time is a parameter in whole minutes.
- Randomness in the data generator: the per-step random draws and the sines of the hour angle are inputs, constrained only to their ranges. The model does not tie a sine to the step's hour.
- The fitted learners (XGBoost, random forest, isolation forest) and the feature scaler. Their predictions, R² scores and isolation labels and scores are inputs.
- Floating point and `round(...)`: quantities are exact reals, and every property is stated before rounding.
- TwinSimulation.VerdictOf: decided on the exact improvements, while backend/services/digital_twin.py:256-262 decides on the rounded ones (backend/services/digital_twin.py:246-252). A kW/TR change of −0.0004 rounds to 0, so with positive power savings the code says neutral where the model says recommended.
- TwinSimulation.Score: weighted from the exact improvements, while backend/services/digital_twin.py:288-292 weights the rounded ones and rounds the score. Scenarios whose scores differ only below the rounding can therefore rank differently.
- Human-readable strings (messages, rationales, impact texts, the joined audit message). Messages become datatype tags; interpolated numbers are carried as fields where the code computes them.
- HTTP routes, persistence and report generation (`server.py`, `report_generator.py`) are not part of this model.
- MachineLearning.MLEngine.TrainModels: the standard deviation is an input constrained by std² = variance of the targets, because the model has no square root.
- MachineLearning.MLEngine.DetectAnomalies: the five feature keys the isolation forest reads are not modelled, because the forest is an input.
- TwinSimulation.SortByScore: the stability of Python's sort (equal scores keep their input order) is not stated. The ordering and the permutation are.
- SimulationEngine.GenerateData: the noise-dependent claim that every generated reading passes validation is stated only for noise-free flow and power (`SimulationEngine.QuietReadingIsAccepted`). Normal noise can make a flow or a power zero.

=== FILE: advanced_calculations.dfy ===
/**
 * The advanced engineering calculator: compressor lift and its power penalty, part-load ratio and the
 * efficiency curve, the fan and pump cube law, the cooling tower penalty, and the combination of the
 * three that a plant-state record makes possible.
 */
module AdvancedCalculations {
  import opened Util
  import opened PlantStates

  const LiftPenaltyPerDegree: real := 0.03
  const BaselineLift: real := 9.0

  // ---------------------------------------------------------------- compressor lift

  datatype LiftStatus = LiftExcellent | LiftGood | LiftWarning | LiftCritical

  datatype LiftRecommendation = UrgentTowerAction | IncreaseFanCheckFlow | MonitorTower | MaintainLift

  datatype CompressorLift = CompressorLift(
    lift: real,
    baselineLift: real,
    deltaLift: real,
    penaltyFactor: real,
    powerAdjustmentPct: real,
    status: LiftStatus,
    recommendation: LiftRecommendation)

  /** Below 8 degrees is excellent, below 10 good, below 12 a warning, otherwise critical. */
  function LiftStatusOf(lift: real): (s: LiftStatus)
    ensures s == LiftExcellent <==> lift < 8.0
    ensures s == LiftGood <==> 8.0 <= lift < 10.0
    ensures s == LiftWarning <==> 10.0 <= lift < 12.0
    ensures s == LiftCritical <==> lift >= 12.0
  {
    if lift < 8.0 then LiftExcellent
    else if lift < 10.0 then LiftGood
    else if lift < 12.0 then LiftWarning
    else LiftCritical
  }

  /** Above 12 degrees urgent tower action, above 10 more fan and a flow check, above 9 monitoring, else nothing. */
  function LiftRecommendationFor(lift: real): (a: LiftRecommendation)
    ensures a == UrgentTowerAction <==> lift > 12.0
    ensures a == IncreaseFanCheckFlow <==> 10.0 < lift <= 12.0
    ensures a == MonitorTower <==> BaselineLift < lift <= 10.0
    ensures a == MaintainLift <==> lift <= BaselineLift
  {
    if lift > 12.0 then UrgentTowerAction
    else if lift > 10.0 then IncreaseFanCheckFlow
    else if lift > BaselineLift then MonitorTower
    else MaintainLift
  }

  /** Three percent more compressor power per degree of lift above the 9-degree design lift. */
  function LiftPenaltyFactor(lift: real): (f: real)
    ensures f >= 1.0
    ensures f == 1.0 <==> lift <= BaselineLift
  {
    var delta := lift - BaselineLift;
    if delta > 0.0 then 1.0 + LiftPenaltyPerDegree * delta else 1.0
  }

  /**
   * Lift is the condenser temperature less the evaporator temperature. The penalty never lowers the power,
   * applies only above the design lift, and is the adjustment percentage the result reports.
   */
  function CalculateCompressorLift(evaporatorTemp: real, condenserTemp: real): (r: CompressorLift)
    ensures r.lift == condenserTemp - evaporatorTemp
    ensures r.baselineLift == BaselineLift
    ensures r.deltaLift == r.lift - BaselineLift
    ensures r.penaltyFactor == LiftPenaltyFactor(r.lift)
    ensures r.powerAdjustmentPct >= 0.0
    ensures r.powerAdjustmentPct == 0.0 <==> r.lift <= BaselineLift
    ensures r.lift > BaselineLift ==> r.powerAdjustmentPct == 3.0 * r.deltaLift
    ensures r.status == LiftStatusOf(r.lift)
    ensures r.recommendation == LiftRecommendationFor(r.lift)
  {
    var lift := condenserTemp - evaporatorTemp;
    var factor := LiftPenaltyFactor(lift);
    CompressorLift(lift, BaselineLift, lift - BaselineLift, factor, (factor - 1.0) * 100.0,
                   LiftStatusOf(lift), LiftRecommendationFor(lift))
  }

  /** A warmer condenser never lowers the penalty. */
  lemma LiftPenaltyMonotone(evaporatorTemp: real, cond1: real, cond2: real)
    requires cond1 <= cond2
    ensures CalculateCompressorLift(evaporatorTemp, cond1).penaltyFactor
            <= CalculateCompressorLift(evaporatorTemp, cond2).penaltyFactor
  {
    var l1 := cond1 - evaporatorTemp;
    var l2 := cond2 - evaporatorTemp;
    assert l1 <= l2;
    if l1 > BaselineLift {
      assert LiftPenaltyPerDegree * (l1 - BaselineLift) <= LiftPenaltyPerDegree * (l2 - BaselineLift);
    }
  }

  // ---------------------------------------------------------------- part load ratio

  datatype PlrStatus = CriticalUnderload | Underloaded | OptimalLoad | Overloaded | AcceptableLoad

  datatype PartLoad = PartLoad(
    plr: real,
    plrPercent: real,
    actualLoadTr: real,
    ratedLoadTr: real,
    efficiencyModifier: real,
    status: PlrStatus)

  datatype PlrError = NonPositiveRatedLoad

  /**
   * The bands are checked in order: under 0.40, under 0.55, 0.65 to 0.80, over 0.90, and acceptable for
   * what is left (0.55 up to 0.65 and 0.80 up to 0.90).
   */
  function PlrStatusOf(plr: real): (s: PlrStatus)
    ensures s == CriticalUnderload <==> plr < 0.40
    ensures s == Underloaded <==> 0.40 <= plr < 0.55
    ensures s == OptimalLoad <==> 0.65 <= plr <= 0.80
    ensures s == Overloaded <==> plr > 0.90
    ensures s == AcceptableLoad <==> (0.55 <= plr < 0.65 || 0.80 < plr <= 0.90)
  {
    if plr < 0.40 then CriticalUnderload
    else if plr < 0.55 then Underloaded
    else if plr >= 0.65 && plr <= 0.80 then OptimalLoad
    else if plr > 0.90 then Overloaded
    else AcceptableLoad
  }

  /**
   * The efficiency curve 0.1 PLR^2 - 0.25 PLR + 1.15, a parabola whose least value 0.99375 is at
   * PLR 1.25, and which is exactly 1 at full load.
   */
  function EfficiencyModifier(plr: real): (m: real)
    ensures m == 0.1 * (plr - 1.25) * (plr - 1.25) + 0.99375
    ensures m >= 0.99375
  {
    0.1 * plr * plr + (-0.25 * plr) + 1.15
  }

  /** Between no load and 125% load the modifier falls as the load rises. */
  lemma EfficiencyModifierFalls(p: real, q: real)
    requires p <= q <= 1.25
    ensures EfficiencyModifier(q) <= EfficiencyModifier(p)
  {
    assert EfficiencyModifier(p) - EfficiencyModifier(q) == 0.1 * (q - p) * (2.5 - p - q);
    assert (q - p) * (2.5 - p - q) >= 0.0;
  }

  /** A non-positive rated load is refused; otherwise PLR is the share of the rated load being carried. */
  function CalculatePartLoadRatio(actualLoadTr: real, ratedLoadTr: real): (r: Result<PartLoad, PlrError>)
    ensures r.Failure? <==> ratedLoadTr <= 0.0
    ensures r.Success? ==>
              && r.value.plr * ratedLoadTr == actualLoadTr
              && r.value.plrPercent == 100.0 * r.value.plr
              && r.value.actualLoadTr == actualLoadTr
              && r.value.ratedLoadTr == ratedLoadTr
              && r.value.efficiencyModifier == EfficiencyModifier(r.value.plr)
              && r.value.status == PlrStatusOf(r.value.plr)
    ensures r.Success? && actualLoadTr == ratedLoadTr ==>
              r.value.plr == 1.0 && r.value.efficiencyModifier == 1.0 && r.value.status == Overloaded
  {
    if ratedLoadTr <= 0.0 then Failure(NonPositiveRatedLoad)
    else
      var plr := actualLoadTr / ratedLoadTr;
      assert actualLoadTr == ratedLoadTr ==> plr == 1.0 && EfficiencyModifier(plr) == 1.0;
      Success(PartLoad(plr, plr * 100.0, actualLoadTr, ratedLoadTr, EfficiencyModifier(plr), PlrStatusOf(plr)))
  }

  // ---------------------------------------------------------------- cube law

  datatype CubeLaw = CubeLaw(
    currentSpeedPct: real,
    newSpeedPct: real,
    speedRatio: real,
    currentPowerKw: real,
    newPowerKw: real,
    powerSavingsKw: real,
    powerSavingsPct: real)

  datatype CubeLawError = NonPositiveCurrentSpeed

  /**
   * Fan and pump affinity law: power scales with the cube of speed. A non-positive current speed is refused.
   * Slowing a machine that draws power saves power, speeding it up costs power, and the same speed changes
   * nothing.
   */
  function CalculateCubeLawAdjustment(currentSpeedPct: real, newSpeedPct: real, currentPowerKw: real)
    : (r: Result<CubeLaw, CubeLawError>)
    ensures r.Failure? <==> currentSpeedPct <= 0.0
    ensures r.Success? ==>
              && r.value.speedRatio * currentSpeedPct == newSpeedPct
              && r.value.newPowerKw * Cube(currentSpeedPct) == currentPowerKw * Cube(newSpeedPct)
              && r.value.powerSavingsKw == currentPowerKw - r.value.newPowerKw
              && (currentPowerKw <= 0.0 ==> r.value.powerSavingsPct == 0.0)
              && (currentPowerKw > 0.0 ==> r.value.powerSavingsPct == 100.0 * (1.0 - Cube(r.value.speedRatio)))
    ensures r.Success? && newSpeedPct == currentSpeedPct ==>
              r.value.newPowerKw == currentPowerKw && r.value.powerSavingsKw == 0.0 && r.value.powerSavingsPct == 0.0
    ensures r.Success? && newSpeedPct < currentSpeedPct && currentPowerKw > 0.0 ==>
              r.value.powerSavingsKw > 0.0 && r.value.powerSavingsPct > 0.0
    ensures r.Success? && newSpeedPct > currentSpeedPct && currentPowerKw > 0.0 ==>
              r.value.powerSavingsKw < 0.0 && r.value.powerSavingsPct < 0.0
  {
    if currentSpeedPct <= 0.0 then Failure(NonPositiveCurrentSpeed)
    else
      var ratio := newSpeedPct / currentSpeedPct;
      var newPower := currentPowerKw * Cube(ratio);
      var savings := currentPowerKw - newPower;
      var pct := if currentPowerKw > 0.0 then (savings / currentPowerKw) * 100.0 else 0.0;
      CubeOfQuotient(newSpeedPct, currentSpeedPct);
      if ratio < 1.0 then CubeBelowOne(ratio);
        SavingsShare(currentPowerKw, newPower, ratio);
        Success(CubeLaw(currentSpeedPct, newSpeedPct, ratio, currentPowerKw, newPower, savings, pct))
      else if ratio > 1.0 then CubeAboveOne(ratio);
        SavingsShare(currentPowerKw, newPower, ratio);
        Success(CubeLaw(currentSpeedPct, newSpeedPct, ratio, currentPowerKw, newPower, savings, pct))
      else
        SavingsShare(currentPowerKw, newPower, ratio);
        Success(CubeLaw(currentSpeedPct, newSpeedPct, ratio, currentPowerKw, newPower, savings, pct))
  }

  /** The saving as a share of the current power is one less the cube of the speed ratio. */
  lemma SavingsShare(power: real, newPower: real, ratio: real)
    requires newPower == power * Cube(ratio)
    ensures power > 0.0 ==> ((power - newPower) / power) * 100.0 == 100.0 * (1.0 - Cube(ratio))
    ensures power > 0.0 && Cube(ratio) < 1.0 ==> power - newPower > 0.0
    ensures power > 0.0 && Cube(ratio) > 1.0 ==> power - newPower < 0.0
  {
    if power > 0.0 {
      var keep := 1.0 - Cube(ratio);
      assert power - newPower == power * keep;
      assert (power * keep) / power == keep;
    }
  }

  /** Changing speed and changing back restores the original power. */
  lemma CubeLawRoundTrip(currentSpeedPct: real, newSpeedPct: real, currentPowerKw: real)
    requires currentSpeedPct > 0.0 && newSpeedPct > 0.0
    ensures var there := CalculateCubeLawAdjustment(currentSpeedPct, newSpeedPct, currentPowerKw);
            var back := CalculateCubeLawAdjustment(newSpeedPct, currentSpeedPct, there.value.newPowerKw);
            back.Success? && back.value.newPowerKw == currentPowerKw
  {
    var there := CalculateCubeLawAdjustment(currentSpeedPct, newSpeedPct, currentPowerKw);
    var back := CalculateCubeLawAdjustment(newSpeedPct, currentSpeedPct, there.value.newPowerKw);
    var c1 := Cube(currentSpeedPct);
    var c2 := Cube(newSpeedPct);
    CubePositive(currentSpeedPct);
    CubePositive(newSpeedPct);
    var p1 := there.value.newPowerKw;
    var p2 := back.value.newPowerKw;
    assert p1 * c1 == currentPowerKw * c2;
    assert p2 * c2 == p1 * c1;
    CancelPositive(p2, currentPowerKw, c2);
  }

  lemma CubePositive(x: real)
    requires x > 0.0
    ensures Cube(x) > 0.0
  {
    assert x * x > 0.0;
  }

  /** Equal products with the same positive factor have equal cofactors. */
  lemma CancelPositive(x: real, y: real, c: real)
    requires c > 0.0 && x * c == y * c
    ensures x == y
  {
    assert (x - y) * c == 0.0;
  }

  // ---------------------------------------------------------------- tower penalty

  datatype TowerPenaltyStatus = PenaltyExcellent | PenaltyWarning | PenaltyPoor | PenaltyCritical

  datatype TowerPenalty = TowerPenalty(approach: real, penaltyPct: real, status: TowerPenaltyStatus)

  /** Up to 5 degrees of approach no penalty, up to 7 three percent, up to 9 six percent, beyond that ten. */
  function CalculateTowerPenalty(approach: real): (r: TowerPenalty)
    ensures r.approach == approach
    ensures r.status == PenaltyExcellent <==> approach <= 5.0
    ensures r.status == PenaltyWarning <==> 5.0 < approach <= 7.0
    ensures r.status == PenaltyPoor <==> 7.0 < approach <= 9.0
    ensures r.status == PenaltyCritical <==> approach > 9.0
    ensures r.penaltyPct == 0.0 <==> approach <= 5.0
    ensures r.status == PenaltyWarning ==> r.penaltyPct == 3.0
    ensures r.status == PenaltyPoor ==> r.penaltyPct == 6.0
    ensures r.status == PenaltyCritical ==> r.penaltyPct == 10.0
  {
    if approach <= 5.0 then TowerPenalty(approach, 0.0, PenaltyExcellent)
    else if approach <= 7.0 then TowerPenalty(approach, 3.0, PenaltyWarning)
    else if approach <= 9.0 then TowerPenalty(approach, 6.0, PenaltyPoor)
    else TowerPenalty(approach, 10.0, PenaltyCritical)
  }

  /** A worse approach never carries a smaller penalty. */
  lemma TowerPenaltyMonotone(a1: real, a2: real)
    requires a1 <= a2
    ensures CalculateTowerPenalty(a1).penaltyPct <= CalculateTowerPenalty(a2).penaltyPct
  {
  }

  // ---------------------------------------------------------------- comprehensive

  /** Each calculation appears exactly when the plant state holds the keys it needs. */
  datatype AdvancedMetrics = AdvancedMetrics(
    compressorLift: Option<CompressorLift>,
    partLoadRatio: Option<Result<PartLoad, PlrError>>,
    towerPenalty: Option<TowerPenalty>)

  /**
   * The lift from the supply and condenser inlet temperatures, the part-load ratio from the capacity and
   * the rated capacity, and the tower penalty from the approach, each when its keys are present.
   */
  function CalculateComprehensiveMetrics(s: PlantState): (r: AdvancedMetrics)
    ensures r.compressorLift.Some? <==> s.chwSupplyTemp.Some? && s.condInletTemp.Some?
    ensures r.compressorLift.Some? ==> r.compressorLift.value.lift == s.condInletTemp.value - s.chwSupplyTemp.value
    ensures r.partLoadRatio.Some? <==> s.coolingCapacityTr.Some? && s.ratedCapacityTr.Some?
    ensures r.partLoadRatio.Some? ==>
              (r.partLoadRatio.value.Failure? <==> s.ratedCapacityTr.value <= 0.0)
              && (r.partLoadRatio.value.Success? ==>
                    r.partLoadRatio.value.value.plr * s.ratedCapacityTr.value == s.coolingCapacityTr.value)
    ensures r.towerPenalty.Some? <==> s.towerApproach.Some?
    ensures r.towerPenalty.Some? ==> r.towerPenalty.value.approach == s.towerApproach.value
    ensures r.compressorLift.Some? ==>
              r.compressorLift.value == CalculateCompressorLift(s.chwSupplyTemp.value, s.condInletTemp.value)
    ensures r.partLoadRatio.Some? ==>
              r.partLoadRatio.value == CalculatePartLoadRatio(s.coolingCapacityTr.value, s.ratedCapacityTr.value)
    ensures r.towerPenalty.Some? ==> r.towerPenalty.value == CalculateTowerPenalty(s.towerApproach.value)
  {
    AdvancedMetrics(
      if s.chwSupplyTemp.Some? && s.condInletTemp.Some?
      then Some(CalculateCompressorLift(s.chwSupplyTemp.value, s.condInletTemp.value)) else None,
      if s.coolingCapacityTr.Some? && s.ratedCapacityTr.Some?
      then Some(CalculatePartLoadRatio(s.coolingCapacityTr.value, s.ratedCapacityTr.value)) else None,
      if s.towerApproach.Some? then Some(CalculateTowerPenalty(s.towerApproach.value)) else None)
  }
}

=== FILE: control_logic.dfy ===
/**
 * The control recommendation layer: observe the plant, decide chiller sequencing, chilled-water supply reset,
 * pump speed and tower fan speed, stamp the recommendations, check an action's safety, apply it (in simulation
 * only) and decide whether to revert it.
 */
module ControlLogic {
  import opened Util
  import opened PlantStates

  const PlrLow: real := 0.55
  const PlrOptimalMin: real := 0.65
  const PlrOptimalMax: real := 0.80
  const PlrHigh: real := 0.90
  const DeltaTLow: real := 4.0
  const DeltaTHigh: real := 7.0
  const ApproachWarning: real := 5.0
  const ApproachCritical: real := 7.0
  /** The part-load ratio assumed when the plant state does not carry one. */
  const DefaultPlr: real := 0.75
  /** The pump or fan speed assumed when the plant state does not carry one. */
  const DefaultSpeedPct: real := 75.0

  datatype ActionTag = ShutdownUnit | StartupUnit | Maintain | Monitor | IncreaseSetpoint | ReduceSpeed | IncreaseSpeed

  datatype ControlType = ChillerSequencing | ChwSupplyReset | PumpVfd | TowerFan

  datatype Priority = High | Medium | Low

  datatype RecommendationStatus = PendingConfirmation | Informational

  /**
   * A control recommendation or a proposed action, as the dictionary the decisions build and the API passes
   * back: every key is optional. A tag or control type the model does not know reads as absent.
   */
  datatype ControlAction = ControlAction(
    action: Option<ActionTag>,
    controlType: Option<ControlType>,
    currentPlr: Option<real>,
    expectedPlrAfter: Option<real>,
    numChillersRunning: Option<int>,
    currentSetpoint: Option<real>,
    recommendedSetpoint: Option<real>,
    estimatedSavingsPct: Option<real>,
    currentSpeedPct: Option<real>,
    recommendedSpeedPct: Option<real>,
    speedAdjustment: Option<real>,
    estimatedPowerSavingsPct: Option<real>,
    requiresConfirmation: Option<bool>,
    priority: Option<Priority>,
    status: Option<RecommendationStatus>)

  const NoKeys: ControlAction :=
    ControlAction(None, None, None, None, None, None, None, None, None, None, None, None, None, None, None)

  /** The action needs the operator's confirmation: the key is present and true. */
  predicate NeedsConfirmation(a: ControlAction) {
    a.requiresConfirmation == Some(true)
  }

  // ---------------------------------------------------------------- observe

  datatype ObservedIssue = LowDeltaT | PoorTowerPerformance | UnderloadedChiller | OverloadedChiller

  datatype Observation = Observation(
    coolingLoadTr: real,
    plantKwPerTr: real,
    deltaT: real,
    towerApproach: real,
    chwSupplyTemp: real,
    plr: real,
    issuesDetected: seq<ObservedIssue>)

  /**
   * A summary of the plant with missing values read as zero (the part-load ratio as 0.75), and the issues
   * those values show. A missing delta-T therefore reads as low delta-T.
   */
  function Observe(s: PlantState): (o: Observation)
    ensures o.deltaT == s.deltaT.GetOr(0.0) && o.towerApproach == s.towerApproach.GetOr(0.0)
    ensures o.plr == s.plr.GetOr(DefaultPlr)
    ensures LowDeltaT in o.issuesDetected <==> o.deltaT < DeltaTLow
    ensures PoorTowerPerformance in o.issuesDetected <==> o.towerApproach > ApproachWarning
    ensures UnderloadedChiller in o.issuesDetected <==> o.plr < PlrLow
    ensures OverloadedChiller in o.issuesDetected <==> o.plr > PlrHigh
    ensures s.deltaT.None? ==> LowDeltaT in o.issuesDetected
    ensures |o.issuesDetected| <= 3
    ensures o.coolingLoadTr == s.coolingCapacityTr.GetOr(0.0) && o.plantKwPerTr == s.plantKwPerTr.GetOr(0.0)
            && o.chwSupplyTemp == s.chwSupplyTemp.GetOr(0.0)
    ensures o.issuesDetected
            == (if o.deltaT < DeltaTLow then [LowDeltaT] else [])
               + (if o.towerApproach > ApproachWarning then [PoorTowerPerformance] else [])
               + (if o.plr < PlrLow then [UnderloadedChiller] else if o.plr > PlrHigh then [OverloadedChiller] else [])
  {
    var deltaT := s.deltaT.GetOr(0.0);
    var approach := s.towerApproach.GetOr(0.0);
    var plr := s.plr.GetOr(DefaultPlr);
    var issues :=
      (if deltaT < DeltaTLow then [LowDeltaT] else [])
      + (if approach > ApproachWarning then [PoorTowerPerformance] else [])
      + (if plr < PlrLow then [UnderloadedChiller] else if plr > PlrHigh then [OverloadedChiller] else []);
    Observation(s.coolingCapacityTr.GetOr(0.0), s.plantKwPerTr.GetOr(0.0), deltaT, approach,
                s.chwSupplyTemp.GetOr(0.0), plr, issues)
  }

  // ---------------------------------------------------------------- decisions

  /**
   * Below 0.55 shut a unit down, 0.65 to 0.80 maintain, above 0.90 start a unit, otherwise monitor. The
   * expected ratio after a change spreads the same load over one unit fewer (at least one) or one more.
   */
  function DecideChillerSequencing(plr: real, numChillersRunning: nat): (r: ControlAction)
    ensures r.action == Some(ShutdownUnit) <==> plr < PlrLow
    ensures r.action == Some(Maintain) <==> PlrOptimalMin <= plr <= PlrOptimalMax
    ensures r.action == Some(StartupUnit) <==> plr > PlrHigh
    ensures r.action == Some(Monitor) <==> (PlrLow <= plr < PlrOptimalMin || PlrOptimalMax < plr <= PlrHigh)
    ensures r.currentPlr == Some(plr) && r.numChillersRunning == Some(numChillersRunning)
    ensures r.expectedPlrAfter.Some?
    ensures r.action == Some(ShutdownUnit) && numChillersRunning >= 2 ==>
              r.expectedPlrAfter.value * (numChillersRunning - 1) as real == plr * numChillersRunning as real
    ensures r.action == Some(ShutdownUnit) && numChillersRunning <= 2 ==>
              r.expectedPlrAfter.value == plr * numChillersRunning as real
    ensures r.action == Some(StartupUnit) ==>
              r.expectedPlrAfter.value * (numChillersRunning + 1) as real == plr * numChillersRunning as real
    ensures r.action == Some(StartupUnit) ==> r.expectedPlrAfter.value < plr
    ensures r.action != Some(ShutdownUnit) && r.action != Some(StartupUnit) ==> r.expectedPlrAfter == Some(plr)
    ensures r.requiresConfirmation == Some(r.action == Some(ShutdownUnit) || r.action == Some(StartupUnit))
  {
    var n := numChillersRunning as real;
    if plr < PlrLow then
      var remaining := if numChillersRunning - 1 > 1 then (numChillersRunning - 1) as real else 1.0;
      Sequencing(ShutdownUnit, plr, numChillersRunning, plr * n / remaining)
    else if plr >= PlrOptimalMin && plr <= PlrOptimalMax then
      Sequencing(Maintain, plr, numChillersRunning, plr)
    else if plr > PlrHigh then
      StartupShare(plr, n);
      Sequencing(StartupUnit, plr, numChillersRunning, plr * n / (n + 1.0))
    else
      Sequencing(Monitor, plr, numChillersRunning, plr)
  }

  function Sequencing(action: ActionTag, plr: real, numChillersRunning: nat, expected: real): ControlAction {
    NoKeys.(action := Some(action), currentPlr := Some(plr), expectedPlrAfter := Some(expected),
            numChillersRunning := Some(numChillersRunning),
            requiresConfirmation := Some(action == ShutdownUnit || action == StartupUnit))
  }

  /** Sharing a positive load among one more unit lowers each unit's share. */
  lemma StartupShare(plr: real, n: real)
    requires plr > 0.0 && n >= 0.0
    ensures plr * n / (n + 1.0) < plr
    ensures (plr * n / (n + 1.0)) * (n + 1.0) == plr * n
  {
    var share := plr * n / (n + 1.0);
    assert share * (n + 1.0) == plr * n;
    assert plr * n < plr * (n + 1.0);
  }

  /**
   * Raise the supply setpoint by half a degree when the load is under 60% and delta-T is stable (4 to 7
   * degrees); otherwise keep it.
   */
  function DecideChwSupplyReset(currentTemp: real, loadPct: real, deltaT: real): (r: ControlAction)
    ensures r.action == Some(IncreaseSetpoint) <==> loadPct < 60.0 && DeltaTLow <= deltaT <= DeltaTHigh
    ensures r.action.Some? && (r.action.value == IncreaseSetpoint || r.action.value == Maintain)
    ensures r.currentSetpoint == Some(currentTemp)
    ensures r.recommendedSetpoint == Some(if r.action == Some(IncreaseSetpoint) then currentTemp + 0.5 else currentTemp)
    ensures r.estimatedSavingsPct == Some(if r.action == Some(IncreaseSetpoint) then 2.0 else 0.0)
    ensures r.requiresConfirmation == Some(r.action == Some(IncreaseSetpoint))
  {
    var raise := loadPct < 60.0 && deltaT >= DeltaTLow && deltaT <= DeltaTHigh;
    NoKeys.(action := Some(if raise then IncreaseSetpoint else Maintain),
            currentSetpoint := Some(currentTemp),
            recommendedSetpoint := Some(if raise then currentTemp + 0.5 else currentTemp),
            estimatedSavingsPct := Some(if raise then 2.0 else 0.0),
            requiresConfirmation := Some(raise))
  }

  /**
   * Below 4 degrees of delta-T slow the pump by 5 points (not below 50%), above 7 speed it up by 5 points
   * (not above 100%), otherwise keep the speed.
   */
  function DecidePumpVfdAdjustment(deltaT: real, currentSpeedPct: real): (r: ControlAction)
    ensures r.action == Some(ReduceSpeed) <==> deltaT < DeltaTLow
    ensures r.action == Some(IncreaseSpeed) <==> deltaT > DeltaTHigh
    ensures r.action == Some(Maintain) <==> DeltaTLow <= deltaT <= DeltaTHigh
    ensures r.currentSpeedPct == Some(currentSpeedPct) && r.recommendedSpeedPct.Some?
    ensures r.action == Some(ReduceSpeed) ==>
              r.recommendedSpeedPct.value == Max(50.0, currentSpeedPct - 5.0) && r.recommendedSpeedPct.value >= 50.0
              && r.speedAdjustment == Some(-5.0) && r.estimatedPowerSavingsPct == Some(15.0)
    ensures r.action == Some(IncreaseSpeed) ==>
              r.recommendedSpeedPct.value == Min(100.0, currentSpeedPct + 5.0) && r.recommendedSpeedPct.value <= 100.0
              && r.speedAdjustment == Some(5.0) && r.estimatedPowerSavingsPct == Some(-15.0)
    ensures r.action == Some(Maintain) ==>
              r.recommendedSpeedPct == Some(currentSpeedPct) && r.speedAdjustment == Some(0.0)
              && r.estimatedPowerSavingsPct == Some(0.0)
    ensures r.requiresConfirmation == Some(r.action != Some(Maintain))
  {
    if deltaT < DeltaTLow then
      SpeedChange(ReduceSpeed, currentSpeedPct, -5.0, Max(50.0, currentSpeedPct - 5.0))
        .(estimatedPowerSavingsPct := Some(15.0))
    else if deltaT > DeltaTHigh then
      SpeedChange(IncreaseSpeed, currentSpeedPct, 5.0, Min(100.0, currentSpeedPct + 5.0))
        .(estimatedPowerSavingsPct := Some(-15.0))
    else
      SpeedChange(Maintain, currentSpeedPct, 0.0, currentSpeedPct).(estimatedPowerSavingsPct := Some(0.0))
  }

  function SpeedChange(action: ActionTag, current: real, adjustment: real, recommended: real): ControlAction {
    NoKeys.(action := Some(action), currentSpeedPct := Some(current), recommendedSpeedPct := Some(recommended),
            speedAdjustment := Some(adjustment), requiresConfirmation := Some(action != Maintain))
  }

  /**
   * Above 7 degrees of approach speed the fan up by 10 points, above 5 by 5 points (not above 100%); below 3
   * slow it by 5 points (not below 50%); otherwise keep it. Confirmation is asked for every change of
   * action, even one the speed limit turns into no change of speed.
   */
  function DecideTowerFanAdjustment(approach: real, currentFanSpeedPct: real): (r: ControlAction)
    ensures r.action == Some(IncreaseSpeed) <==> approach > ApproachWarning
    ensures r.action == Some(ReduceSpeed) <==> approach < 3.0
    ensures r.action == Some(Maintain) <==> 3.0 <= approach <= ApproachWarning
    ensures r.currentSpeedPct == Some(currentFanSpeedPct) && r.recommendedSpeedPct.Some?
    ensures approach > ApproachCritical ==>
              r.speedAdjustment == Some(10.0) && r.recommendedSpeedPct.value == Min(100.0, currentFanSpeedPct + 10.0)
    ensures ApproachWarning < approach <= ApproachCritical ==>
              r.speedAdjustment == Some(5.0) && r.recommendedSpeedPct.value == Min(100.0, currentFanSpeedPct + 5.0)
    ensures r.action == Some(IncreaseSpeed) ==> r.recommendedSpeedPct.value <= 100.0
    ensures r.action == Some(ReduceSpeed) ==>
              r.speedAdjustment == Some(-5.0) && r.recommendedSpeedPct.value == Max(50.0, currentFanSpeedPct - 5.0)
              && r.recommendedSpeedPct.value >= 50.0
    ensures r.action == Some(Maintain) ==> r.recommendedSpeedPct == Some(currentFanSpeedPct)
    ensures r.requiresConfirmation == Some(r.action != Some(Maintain))
  {
    if approach > ApproachCritical then
      SpeedChange(IncreaseSpeed, currentFanSpeedPct, 10.0, Min(100.0, currentFanSpeedPct + 10.0))
    else if approach > ApproachWarning then
      SpeedChange(IncreaseSpeed, currentFanSpeedPct, 5.0, Min(100.0, currentFanSpeedPct + 5.0))
    else if approach < 3.0 then
      SpeedChange(ReduceSpeed, currentFanSpeedPct, -5.0, Max(50.0, currentFanSpeedPct - 5.0))
    else
      SpeedChange(Maintain, currentFanSpeedPct, 0.0, currentFanSpeedPct)
  }

  /**
   * A fan already at full speed with a high approach is told to speed up, needs confirmation, and yet its
   * recommended speed is the speed it already runs at.
   */
  lemma ConfirmationWithoutSpeedChange()
    ensures var r := DecideTowerFanAdjustment(6.0, 100.0);
            NeedsConfirmation(r) && r.recommendedSpeedPct == r.currentSpeedPct
  {
    var r := DecideTowerFanAdjustment(6.0, 100.0);
    assert r.recommendedSpeedPct.value == Min(100.0, 105.0);
  }

  // ---------------------------------------------------------------- comprehensive recommendations

  /**
   * A recommendation as the comprehensive run makes it: it says whether it needs confirmation, is not yet
   * stamped, and its priority is high only when it needs confirmation and low only when it does not.
   */
  predicate WellFormed(r: ControlAction) {
    && r.requiresConfirmation.Some?
    && r.status.None?
    && (r.priority == Some(High) ==> NeedsConfirmation(r))
    && (r.priority == Some(Low) ==> !NeedsConfirmation(r))
  }

  /** Sequencing is decided when the state has a part-load ratio or a capacity, for one running chiller. */
  function SequencingRecommendation(s: PlantState): (r: ControlAction)
    ensures r.(controlType := None, priority := None) == DecideChillerSequencing(s.plr.GetOr(DefaultPlr), 1)
    ensures r.controlType == Some(ChillerSequencing) && WellFormed(r)
    ensures r.priority == Some(if NeedsConfirmation(r) then High else Low)
  {
    var rec := DecideChillerSequencing(s.plr.GetOr(DefaultPlr), 1);
    rec.(controlType := Some(ChillerSequencing), priority := Some(if NeedsConfirmation(rec) then High else Low))
  }

  /** The supply reset reads the load as the part-load ratio in percent. */
  function SupplyResetRecommendation(s: PlantState): (r: ControlAction)
    requires s.chwSupplyTemp.Some? && s.deltaT.Some?
    ensures r.(controlType := None, priority := None)
            == DecideChwSupplyReset(s.chwSupplyTemp.value, s.plr.GetOr(DefaultPlr) * 100.0, s.deltaT.value)
    ensures r.controlType == Some(ChwSupplyReset) && r.priority == Some(Medium) && WellFormed(r)
  {
    DecideChwSupplyReset(s.chwSupplyTemp.value, s.plr.GetOr(DefaultPlr) * 100.0, s.deltaT.value)
      .(controlType := Some(ChwSupplyReset), priority := Some(Medium))
  }

  function PumpRecommendation(s: PlantState): (r: ControlAction)
    requires s.deltaT.Some?
    ensures r.(controlType := None, priority := None)
            == DecidePumpVfdAdjustment(s.deltaT.value, s.chwPumpSpeedPct.GetOr(DefaultSpeedPct))
    ensures r.controlType == Some(PumpVfd) && WellFormed(r)
    ensures r.priority == Some(if NeedsConfirmation(r) then High else Low)
  {
    var rec := DecidePumpVfdAdjustment(s.deltaT.value, s.chwPumpSpeedPct.GetOr(DefaultSpeedPct));
    rec.(controlType := Some(PumpVfd), priority := Some(if rec.action != Some(Maintain) then High else Low))
  }

  function FanRecommendation(s: PlantState): (r: ControlAction)
    requires s.towerApproach.Some?
    ensures r.(controlType := None, priority := None)
            == DecideTowerFanAdjustment(s.towerApproach.value, s.towerFanSpeed.GetOr(DefaultSpeedPct))
    ensures r.controlType == Some(TowerFan) && WellFormed(r)
    ensures r.priority == Some(if NeedsConfirmation(r) then High else Low)
  {
    var rec := DecideTowerFanAdjustment(s.towerApproach.value, s.towerFanSpeed.GetOr(DefaultSpeedPct));
    rec.(controlType := Some(TowerFan), priority := Some(if rec.action != Some(Maintain) then High else Low))
  }

  predicate Covers(rs: seq<ControlAction>, t: ControlType) {
    exists k :: 0 <= k < |rs| && rs[k].controlType == Some(t)
  }

  predicate AllWellFormed(rs: seq<ControlAction>) {
    forall k :: 0 <= k < |rs| ==> WellFormed(rs[k])
  }

  /** The recommendation, if one was made, as a list of zero or one elements. */
  function Present(r: Option<ControlAction>): seq<ControlAction> {
    if r.Some? then [r.value] else []
  }

  predicate Supplies(r: Option<ControlAction>, t: ControlType) {
    r.Some? && r.value.controlType == Some(t)
  }

  /** The recommendations that were made, in the order given. */
  function Assemble(r1: Option<ControlAction>, r2: Option<ControlAction>, r3: Option<ControlAction>,
                    r4: Option<ControlAction>): seq<ControlAction> {
    Present(r1) + Present(r2) + Present(r3) + Present(r4)
  }

  /** A control type is covered by the assembled list exactly when one of the recommendations made has it. */
  lemma AssembleCovers(r1: Option<ControlAction>, r2: Option<ControlAction>, r3: Option<ControlAction>,
                       r4: Option<ControlAction>, t: ControlType)
    ensures Covers(Assemble(r1, r2, r3, r4), t) <==> Supplies(r1, t) || Supplies(r2, t) || Supplies(r3, t) || Supplies(r4, t)
  {
    var p1, p2, p3, p4 := Present(r1), Present(r2), Present(r3), Present(r4);
    CoversConcat(p1, p2, t);
    CoversConcat(p1 + p2, p3, t);
    CoversConcat(p1 + p2 + p3, p4, t);
    CoversPresent(r1, t);
    CoversPresent(r2, t);
    CoversPresent(r3, t);
    CoversPresent(r4, t);
  }

  /** A control type is covered by a concatenation exactly when one of the parts covers it. */
  lemma CoversConcat(a: seq<ControlAction>, b: seq<ControlAction>, t: ControlType)
    ensures Covers(a + b, t) <==> Covers(a, t) || Covers(b, t)
  {
    if Covers(a + b, t) {
      var k :| 0 <= k < |a + b| && (a + b)[k].controlType == Some(t);
      if k >= |a| {
        assert b[k - |a|] == (a + b)[k];
      }
    }
    if Covers(a, t) {
      var k :| 0 <= k < |a| && a[k].controlType == Some(t);
      assert (a + b)[k] == a[k];
    }
    if Covers(b, t) {
      var k :| 0 <= k < |b| && b[k].controlType == Some(t);
      assert (a + b)[|a| + k] == b[k];
    }
  }

  /** A recommendation list of zero or one elements covers the control type of its element, if any. */
  lemma CoversPresent(r: Option<ControlAction>, t: ControlType)
    ensures Covers(Present(r), t) <==> Supplies(r, t)
  {
    if r.Some? {
      assert Present(r)[0] == r.value;
    }
  }

  /** The assembled list holds only well-formed recommendations when each one made is well formed. */
  lemma AssembleWellFormed(r1: Option<ControlAction>, r2: Option<ControlAction>, r3: Option<ControlAction>,
                           r4: Option<ControlAction>)
    requires r1.Some? ==> WellFormed(r1.value)
    requires r2.Some? ==> WellFormed(r2.value)
    requires r3.Some? ==> WellFormed(r3.value)
    requires r4.Some? ==> WellFormed(r4.value)
    ensures AllWellFormed(Assemble(r1, r2, r3, r4))
  {
  }

  function SequencingPart(s: PlantState): (r: Option<ControlAction>)
    ensures r.Some? <==> s.plr.Some? || s.coolingCapacityTr.Some?
    ensures r.Some? ==> r.value.controlType == Some(ChillerSequencing) && WellFormed(r.value)
    ensures r.Some? ==> r.value.priority != Some(Medium)
  {
    if s.plr.Some? || s.coolingCapacityTr.Some? then Some(SequencingRecommendation(s)) else None
  }

  function SupplyResetPart(s: PlantState): (r: Option<ControlAction>)
    ensures r.Some? <==> s.chwSupplyTemp.Some? && s.deltaT.Some?
    ensures r.Some? ==> r.value.controlType == Some(ChwSupplyReset) && WellFormed(r.value)
    ensures r.Some? ==> r.value.priority == Some(Medium)
  {
    if s.chwSupplyTemp.Some? && s.deltaT.Some? then Some(SupplyResetRecommendation(s)) else None
  }

  function PumpPart(s: PlantState): (r: Option<ControlAction>)
    ensures r.Some? <==> s.deltaT.Some?
    ensures r.Some? ==> r.value.controlType == Some(PumpVfd) && WellFormed(r.value)
    ensures r.Some? ==> r.value.priority != Some(Medium)
  {
    if s.deltaT.Some? then Some(PumpRecommendation(s)) else None
  }

  function FanPart(s: PlantState): (r: Option<ControlAction>)
    ensures r.Some? <==> s.towerApproach.Some?
    ensures r.Some? ==> r.value.controlType == Some(TowerFan) && WellFormed(r.value)
    ensures r.Some? ==> r.value.priority != Some(Medium)
  {
    if s.towerApproach.Some? then Some(FanRecommendation(s)) else None
  }

  /** The place of each control type in the comprehensive run. */
  function Slot(t: ControlType): nat {
    match t
    case ChillerSequencing => 0
    case ChwSupplyReset => 1
    case PumpVfd => 2
    case TowerFan => 3
  }

  /** The place of a recommendation's control type; -1 when it has none. */
  function SlotOf(r: ControlAction): int {
    if r.controlType.Some? then Slot(r.controlType.value) else -1
  }

  /** The recommendation the comprehensive run makes for a control type, when the state holds its keys. */
  function RuleFor(s: PlantState, t: ControlType): Option<ControlAction> {
    match t
    case ChillerSequencing => SequencingPart(s)
    case ChwSupplyReset => SupplyResetPart(s)
    case PumpVfd => PumpPart(s)
    case TowerFan => FanPart(s)
  }

  /**
   * The recommendation has a control type and is exactly what that type's rule makes of the state; its
   * priority is medium exactly when it is the supply reset.
   */
  predicate FromRule(s: PlantState, r: ControlAction) {
    && r.controlType.Some?
    && RuleFor(s, r.controlType.value) == Some(r)
    && (r.priority == Some(Medium) <==> r.controlType == Some(ChwSupplyReset))
  }

  predicate MadeByRules(s: PlantState, rs: seq<ControlAction>) {
    forall k :: 0 <= k < |rs| ==> FromRule(s, rs[k])
  }

  /** The control types come in strictly increasing place order, so none appears twice. */
  predicate InSlotOrder(rs: seq<ControlAction>) {
    forall i, j :: 0 <= i < j < |rs| ==> SlotOf(rs[i]) < SlotOf(rs[j])
  }

  predicate SlotsWithin(rs: seq<ControlAction>, lo: int, hi: int) {
    forall k :: 0 <= k < |rs| ==> lo <= SlotOf(rs[k]) < hi
  }

  /** Two ordered lists whose places do not overlap concatenate into an ordered list. */
  lemma OrderedConcat(a: seq<ControlAction>, b: seq<ControlAction>, lo: int, mid: int, hi: int)
    requires lo <= mid <= hi
    requires InSlotOrder(a) && InSlotOrder(b) && SlotsWithin(a, lo, mid) && SlotsWithin(b, mid, hi)
    ensures InSlotOrder(a + b) && SlotsWithin(a + b, lo, hi)
  {
    forall i, j | 0 <= i < j < |a + b|
      ensures SlotOf((a + b)[i]) < SlotOf((a + b)[j])
    {
      if j < |a| {
        assert (a + b)[i] == a[i] && (a + b)[j] == a[j];
      } else if i < |a| {
        assert (a + b)[i] == a[i] && (a + b)[j] == b[j - |a|];
      } else {
        assert (a + b)[i] == b[i - |a|] && (a + b)[j] == b[j - |a|];
      }
    }
    forall k | 0 <= k < |a + b|
      ensures lo <= SlotOf((a + b)[k]) < hi
    {
      if k < |a| {
        assert (a + b)[k] == a[k];
      } else {
        assert (a + b)[k] == b[k - |a|];
      }
    }
  }

  lemma MadeConcat(s: PlantState, a: seq<ControlAction>, b: seq<ControlAction>)
    requires MadeByRules(s, a) && MadeByRules(s, b)
    ensures MadeByRules(s, a + b)
  {
    forall k | 0 <= k < |a + b|
      ensures FromRule(s, (a + b)[k])
    {
      if k < |a| {
        assert (a + b)[k] == a[k];
      } else {
        assert (a + b)[k] == b[k - |a|];
      }
    }
  }

  /** The list of zero or one recommendations a rule makes is made by the rules and sits at its type's place. */
  lemma PresentRule(s: PlantState, t: ControlType)
    ensures var p := Present(RuleFor(s, t));
            MadeByRules(s, p) && InSlotOrder(p) && SlotsWithin(p, Slot(t), Slot(t) + 1)
  {
    var r := RuleFor(s, t);
    if r.Some? {
      assert r.value.controlType == Some(t);
      assert Present(r)[0] == r.value;
    }
  }

  /**
   * The recommendations before stamping, in the order sequencing, supply reset, pump, fan; each is made
   * exactly when the keys it needs are present, and is what its rule decides from the state. Every
   * recommendation says whether it needs confirmation, and only the supply reset has medium priority;
   * otherwise high priority is exactly the need to confirm.
   */
  function UnstampedRecommendations(s: PlantState): (rs: seq<ControlAction>)
    ensures |rs| <= 4
    ensures Covers(rs, ChillerSequencing) <==> s.plr.Some? || s.coolingCapacityTr.Some?
    ensures Covers(rs, ChwSupplyReset) <==> s.chwSupplyTemp.Some? && s.deltaT.Some?
    ensures Covers(rs, PumpVfd) <==> s.deltaT.Some?
    ensures Covers(rs, TowerFan) <==> s.towerApproach.Some?
    ensures AllWellFormed(rs)
    ensures MadeByRules(s, rs)
    ensures InSlotOrder(rs)
    ensures forall k :: 0 <= k < |rs| ==> (rs[k].priority == Some(Medium) <==> rs[k].controlType == Some(ChwSupplyReset))
  {
    var r1, r2, r3, r4 := SequencingPart(s), SupplyResetPart(s), PumpPart(s), FanPart(s);
    AssembleCovers(r1, r2, r3, r4, ChillerSequencing);
    AssembleCovers(r1, r2, r3, r4, ChwSupplyReset);
    AssembleCovers(r1, r2, r3, r4, PumpVfd);
    AssembleCovers(r1, r2, r3, r4, TowerFan);
    AssembleWellFormed(r1, r2, r3, r4);
    AssembleByRules(s);
    Assemble(r1, r2, r3, r4)
  }

  /** The assembled list is made by the rules, in place order. */
  lemma AssembleByRules(s: PlantState)
    ensures var rs := Assemble(SequencingPart(s), SupplyResetPart(s), PumpPart(s), FanPart(s));
            MadeByRules(s, rs) && InSlotOrder(rs)
  {
    var p1, p2 := Present(RuleFor(s, ChillerSequencing)), Present(RuleFor(s, ChwSupplyReset));
    var p3, p4 := Present(RuleFor(s, PumpVfd)), Present(RuleFor(s, TowerFan));
    PresentRule(s, ChillerSequencing);
    PresentRule(s, ChwSupplyReset);
    PresentRule(s, PumpVfd);
    PresentRule(s, TowerFan);
    OrderedConcat(p1, p2, 0, 1, 2);
    OrderedConcat(p1 + p2, p3, 0, 2, 3);
    OrderedConcat(p1 + p2 + p3, p4, 0, 3, 4);
    MadeConcat(s, p1, p2);
    MadeConcat(s, p1 + p2, p3);
    MadeConcat(s, p1 + p2 + p3, p4);
  }

  /** Marks a recommendation as waiting for confirmation or as informational. */
  function Stamp(r: ControlAction): (stamped: ControlAction)
    ensures stamped.status == Some(if NeedsConfirmation(r) then PendingConfirmation else Informational)
    ensures stamped.(status := r.status) == r
  {
    r.(status := Some(if NeedsConfirmation(r) then PendingConfirmation else Informational))
  }

  /**
   * The recommendations for one plant state: decided, then stamped one by one. A recommendation is pending
   * confirmation exactly when it needs confirmation, and every high-priority one is pending.
   */
  method BuildRecommendations(s: PlantState) returns (recs: seq<ControlAction>)
    ensures |recs| == |UnstampedRecommendations(s)|
    ensures forall k :: 0 <= k < |recs| ==> recs[k] == Stamp(UnstampedRecommendations(s)[k])
    ensures forall k :: 0 <= k < |recs| ==>
              recs[k].controlType.Some? && RuleFor(s, recs[k].controlType.value) == Some(recs[k].(status := None))
    ensures InSlotOrder(recs)
    ensures forall k :: 0 <= k < |recs| ==>
              (recs[k].priority == Some(Medium) <==> recs[k].controlType == Some(ChwSupplyReset))
    ensures forall k :: 0 <= k < |recs| ==>
              (recs[k].status == Some(PendingConfirmation) <==> NeedsConfirmation(recs[k]))
    ensures forall k :: 0 <= k < |recs| && recs[k].priority == Some(High) ==>
              recs[k].status == Some(PendingConfirmation)
  {
    recs := UnstampedRecommendations(s);
    ghost var unstamped := recs;
    for i := 0 to |recs|
      invariant |recs| == |unstamped|
      invariant forall k :: 0 <= k < i ==> recs[k] == Stamp(unstamped[k])
      invariant forall k :: i <= k < |recs| ==> recs[k] == unstamped[k]
    {
      recs := recs[i := Stamp(recs[i])];
    }
  }

  // ---------------------------------------------------------------- safety

  datatype SafetyWarning = PumpBelowMinimum | PumpNearMaximum | FanAtMaximum | SupplyTooWarm

  datatype SafetyCheck = SafetyCheck(isSafe: bool, warnings: seq<SafetyWarning>, canProceed: bool)

  /**
   * Warns about a pump speed under 50% or over 95% and a fan speed over 95% (a missing speed reads as 0),
   * and blocks a supply reset to more than 10 degrees, which is the only thing that blocks an action.
   */
  function ValidateActionSafety(a: ControlAction): (c: SafetyCheck)
    ensures c.canProceed == c.isSafe
    ensures !c.canProceed <==> a.controlType == Some(ChwSupplyReset) && a.recommendedSetpoint.GetOr(0.0) > 10.0
    ensures |c.warnings| <= 1
    ensures PumpBelowMinimum in c.warnings <==> a.controlType == Some(PumpVfd) && a.recommendedSpeedPct.GetOr(0.0) < 50.0
    ensures PumpNearMaximum in c.warnings <==> a.controlType == Some(PumpVfd) && a.recommendedSpeedPct.GetOr(0.0) > 95.0
    ensures FanAtMaximum in c.warnings <==> a.controlType == Some(TowerFan) && a.recommendedSpeedPct.GetOr(0.0) > 95.0
    ensures SupplyTooWarm in c.warnings <==> !c.canProceed
  {
    var speed := a.recommendedSpeedPct.GetOr(0.0);
    var setpoint := a.recommendedSetpoint.GetOr(0.0);
    var pumpWarnings :=
      if a.controlType == Some(PumpVfd) then
        (if speed < 50.0 then [PumpBelowMinimum] else if speed > 95.0 then [PumpNearMaximum] else [])
      else [];
    var fanWarnings := if a.controlType == Some(TowerFan) && speed > 95.0 then [FanAtMaximum] else [];
    var blocked := a.controlType == Some(ChwSupplyReset) && setpoint > 10.0;
    var resetWarnings := if blocked then [SupplyTooWarm] else [];
    SafetyCheck(!blocked, pumpWarnings + fanWarnings + resetWarnings, !blocked)
  }

  // ---------------------------------------------------------------- revert

  datatype WorseMetric = DeltaTDecreased | LiftIncreased | ApproachIncreased | KwPerTrIncreased

  /**
   * The metrics that worsened between two states, each compared only when both states carry it: delta-T
   * down by more than half a degree, lift or approach up by more than half a degree, plant kW/TR up by more
   * than 2%.
   */
  function WorseMetrics(previous: PlantState, current: PlantState): (w: seq<WorseMetric>)
    ensures DeltaTDecreased in w <==>
              previous.deltaT.Some? && current.deltaT.Some? && current.deltaT.value < previous.deltaT.value - 0.5
    ensures LiftIncreased in w <==>
              previous.compressorLift.Some? && current.compressorLift.Some?
              && current.compressorLift.value > previous.compressorLift.value + 0.5
    ensures ApproachIncreased in w <==>
              previous.towerApproach.Some? && current.towerApproach.Some?
              && current.towerApproach.value > previous.towerApproach.value + 0.5
    ensures KwPerTrIncreased in w <==>
              previous.plantKwPerTr.Some? && current.plantKwPerTr.Some?
              && current.plantKwPerTr.value > previous.plantKwPerTr.value * 1.02
    ensures |w| <= 4
  {
    Flag(previous.deltaT.Some? && current.deltaT.Some? && current.deltaT.value < previous.deltaT.value - 0.5,
         DeltaTDecreased)
    + Flag(previous.compressorLift.Some? && current.compressorLift.Some?
           && current.compressorLift.value > previous.compressorLift.value + 0.5,
           LiftIncreased)
    + Flag(previous.towerApproach.Some? && current.towerApproach.Some?
           && current.towerApproach.value > previous.towerApproach.value + 0.5,
           ApproachIncreased)
    + Flag(previous.plantKwPerTr.Some? && current.plantKwPerTr.Some?
           && current.plantKwPerTr.value > previous.plantKwPerTr.value * 1.02,
           KwPerTrIncreased)
  }

  /** The one metric when its check fired, nothing otherwise. */
  function Flag(fired: bool, m: WorseMetric): seq<WorseMetric> {
    if fired then [m] else []
  }

  /** A state compared with itself shows nothing worse, as long as its kW/TR is not negative. */
  lemma UnchangedStateNothingWorse(s: PlantState)
    requires s.plantKwPerTr.GetOr(0.0) >= 0.0
    ensures WorseMetrics(s, s) == []
  {
    if s.plantKwPerTr.Some? {
      assert s.plantKwPerTr.value <= s.plantKwPerTr.value * 1.02;
    }
  }

  datatype RevertDecision = RevertDecision(shouldRevert: bool, metricsWorse: seq<WorseMetric>)

  /** What applying an action did: refused for want of confirmation, refused as unsafe, or applied. */
  datatype ApplyOutcome =
    | ConfirmationRequired(action: ControlAction)
    | FailedSafetyValidation(safety: SafetyCheck, action: ControlAction)
    | Applied(action: ControlAction, safety: SafetyCheck)

  // ---------------------------------------------------------------- the controller

  /**
   * The controller remembers the plant state it last made recommendations for and every action it applied.
   */
  class Controller {
    var previousState: Option<PlantState>
    var appliedActions: seq<ApplyOutcome>

    /** Every entry of the log is an applied action. */
    ghost predicate Valid()
      reads this
    {
      forall k :: 0 <= k < |appliedActions| ==> appliedActions[k].Applied?
    }

    constructor()
      ensures Valid()
      ensures previousState == None && appliedActions == []
    {
      previousState := None;
      appliedActions := [];
    }

    /** Remembers the state (for a later revert decision) and returns the stamped recommendations. */
    method GenerateComprehensiveRecommendations(s: PlantState) returns (recs: seq<ControlAction>)
      modifies this
      ensures previousState == Some(s)
      ensures appliedActions == old(appliedActions)
      ensures |recs| == |UnstampedRecommendations(s)|
      ensures forall k :: 0 <= k < |recs| ==> recs[k] == Stamp(UnstampedRecommendations(s)[k])
      ensures forall k :: 0 <= k < |recs| ==>
                recs[k].controlType.Some? && RuleFor(s, recs[k].controlType.value) == Some(recs[k].(status := None))
      ensures InSlotOrder(recs)
      ensures forall k :: 0 <= k < |recs| ==>
                (recs[k].priority == Some(Medium) <==> recs[k].controlType == Some(ChwSupplyReset))
    {
      recs := [];
      previousState := Some(s);
      recs := BuildRecommendations(s);
    }

    /**
     * Refuses an action that needs confirmation and has not got it, then one that fails the safety check;
     * otherwise records it as applied. Only an applied action is logged, and nothing else changes.
     */
    method ApplyAction(a: ControlAction, confirmed: bool) returns (outcome: ApplyOutcome)
      requires Valid()
      modifies this
      ensures Valid()
      ensures previousState == old(previousState)
      ensures !confirmed && NeedsConfirmation(a) <==> outcome.ConfirmationRequired?
      ensures outcome.FailedSafetyValidation? <==>
                (confirmed || !NeedsConfirmation(a)) && !ValidateActionSafety(a).canProceed
      ensures outcome.Applied? ==>
                outcome == Applied(a, ValidateActionSafety(a)) && appliedActions == old(appliedActions) + [outcome]
      ensures !outcome.Applied? ==> appliedActions == old(appliedActions)
    {
      if !confirmed && NeedsConfirmation(a) {
        return ConfirmationRequired(a);
      }
      var safety := ValidateActionSafety(a);
      if !safety.canProceed {
        return FailedSafetyValidation(safety, a);
      }
      outcome := Applied(a, safety);
      appliedActions := appliedActions + [outcome];
    }

    /**
     * Revert when two or more metrics worsened since the remembered state; never when no state is
     * remembered, the remembered state is empty, or no action was applied.
     */
    function ShouldRevert(current: PlantState): (d: RevertDecision)
      reads this
      ensures previousState.None? || previousState == Some(EmptyState()) || appliedActions == [] ==>
                !d.shouldRevert && d.metricsWorse == []
      ensures d.shouldRevert <==>
                previousState.Some? && previousState.value != EmptyState() && appliedActions != []
                && |WorseMetrics(previousState.value, current)| >= 2
      ensures d.shouldRevert ==> exists m1, m2 :: m1 != m2 && m1 in d.metricsWorse && m2 in d.metricsWorse
      ensures previousState.Some? && previousState.value != EmptyState() && appliedActions != [] ==>
                d.metricsWorse == WorseMetrics(previousState.value, current)
    {
      if previousState.None? || previousState.value == EmptyState() || appliedActions == [] then
        RevertDecision(false, [])
      else
        var worse := WorseMetrics(previousState.value, current);
        var decision := RevertDecision(|worse| >= 2, worse);
        if |worse| >= 2 then
          assert worse[0] in worse && worse[1] in worse;
          DistinctWorse(previousState.value, current);
          decision
        else
          decision
    }
  }

  /** No metric is listed twice. */
  lemma DistinctWorse(previous: PlantState, current: PlantState)
    ensures var w := WorseMetrics(previous, current);
            forall i, j :: 0 <= i < j < |w| ==> w[i] != w[j]
  {
    FlagsDistinct(
      previous.deltaT.Some? && current.deltaT.Some? && current.deltaT.value < previous.deltaT.value - 0.5,
      previous.compressorLift.Some? && current.compressorLift.Some?
      && current.compressorLift.value > previous.compressorLift.value + 0.5,
      previous.towerApproach.Some? && current.towerApproach.Some?
      && current.towerApproach.value > previous.towerApproach.value + 0.5,
      previous.plantKwPerTr.Some? && current.plantKwPerTr.Some?
      && current.plantKwPerTr.value > previous.plantKwPerTr.value * 1.02);
  }

  /** Whichever checks fire, the flags of the four metrics, in check order, name no metric twice. */
  lemma FlagsDistinct(b1: bool, b2: bool, b3: bool, b4: bool)
    ensures var w := Flag(b1, DeltaTDecreased) + Flag(b2, LiftIncreased) + Flag(b3, ApproachIncreased)
                     + Flag(b4, KwPerTrIncreased);
            forall i, j :: 0 <= i < j < |w| ==> w[i] != w[j]
  {
    var f1, f2, f3, f4 :=
      Flag(b1, DeltaTDecreased), Flag(b2, LiftIncreased), Flag(b3, ApproachIncreased), Flag(b4, KwPerTrIncreased);
    AscendingThenFlag([], f1, DeltaTDecreased);
    assert [] + f1 == f1;
    AscendingThenFlag(f1, f2, LiftIncreased);
    AscendingThenFlag(f1 + f2, f3, ApproachIncreased);
    AscendingThenFlag(f1 + f2 + f3, f4, KwPerTrIncreased);
  }

  /** The order in which the revert check looks at the metrics. */
  function MetricOrder(m: WorseMetric): nat {
    match m
    case DeltaTDecreased => 0
    case LiftIncreased => 1
    case ApproachIncreased => 2
    case KwPerTrIncreased => 3
  }

  predicate Ascending(w: seq<WorseMetric>) {
    forall i, j :: 0 <= i < j < |w| ==> MetricOrder(w[i]) < MetricOrder(w[j])
  }

  /** Appending a flag for a later metric to an ascending list keeps it ascending. */
  lemma AscendingThenFlag(w: seq<WorseMetric>, f: seq<WorseMetric>, m: WorseMetric)
    requires Ascending(w) && forall x :: x in w ==> MetricOrder(x) < MetricOrder(m)
    requires f == [] || f == [m]
    ensures Ascending(w + f) && forall x :: x in w + f ==> MetricOrder(x) <= MetricOrder(m)
  {
    forall i, j | 0 <= i < j < |w + f|
      ensures MetricOrder((w + f)[i]) < MetricOrder((w + f)[j])
    {
      if j < |w| {
        assert (w + f)[i] == w[i] && (w + f)[j] == w[j];
      } else {
        assert (w + f)[i] == w[i] && (w + f)[j] == f[0];
        assert w[i] in w && f[0] in f;
      }
    }
  }
}

=== FILE: diagnostic_engine.dfy ===
/**
 * The rule-based diagnostic engine: four classifiers (chilled-water delta-T, cooling tower, compressor lift,
 * flow and pumping) and the comprehensive run that applies every classifier whose inputs the plant state
 * holds, collects the issues and rates the plant by its worst finding.
 */
module DiagnosticEngine {
  import opened Util
  import opened PlantStates

  datatype Severity = Excellent | Acceptable | Warning | Critical

  /** Severities in increasing order of concern. */
  function Rank(s: Severity): nat {
    match s
    case Excellent => 0
    case Acceptable => 1
    case Warning => 2
    case Critical => 3
  }

  /** The more serious of two severities. */
  function MoreSevere(a: Severity, b: Severity): (s: Severity)
    ensures Rank(s) == if Rank(a) >= Rank(b) then Rank(a) else Rank(b)
    ensures s == a || s == b
  {
    if Rank(a) >= Rank(b) then a else b
  }

  /** A finding is an issue when it is a warning or critical. */
  predicate IsIssue(s: Severity) {
    s == Warning || s == Critical
  }

  datatype Parameter = DeltaTParameter | TowerApproachParameter | CompressorLiftParameter | FlowPumpingParameter

  datatype RangeDiagnosis = LowRange | HighRange | NormalRange

  /**
   * One finding. The tower finding carries the range diagnosis when a range was given; the flow finding
   * carries the pump power and, when over-pumping, the power a 5% speed cut is expected to save.
   */
  datatype Diagnostic = Diagnostic(
    parameter: Parameter,
    value: real,
    severity: Severity,
    rangeDiagnosis: Option<RangeDiagnosis>,
    rangeValue: Option<real>,
    pumpPowerKw: Option<real>,
    estimatedSavingsKw: Option<real>)

  /** Below 4 degrees is low delta-T syndrome (critical), 4 to 6 acceptable, above 6 efficient. */
  function DiagnoseDeltaT(deltaT: real): (d: Diagnostic)
    ensures d.parameter == DeltaTParameter && d.value == deltaT
    ensures d.severity == Critical <==> deltaT < 4.0
    ensures d.severity == Acceptable <==> 4.0 <= deltaT <= 6.0
    ensures d.severity == Excellent <==> deltaT > 6.0
    ensures d.severity != Warning
  {
    var severity := if deltaT < 4.0 then Critical
                    else if deltaT >= 4.0 && deltaT <= 6.0 then Acceptable
                    else Excellent;
    Diagnostic(DeltaTParameter, deltaT, severity, None, None, None, None)
  }

  /** Below 4 degrees a low range, above 8 a high range, otherwise normal. */
  function RangeDiagnosisOf(range: real): (r: RangeDiagnosis)
    ensures r == LowRange <==> range < 4.0
    ensures r == HighRange <==> range > 8.0
    ensures r == NormalRange <==> 4.0 <= range <= 8.0
  {
    if range < 4.0 then LowRange else if range > 8.0 then HighRange else NormalRange
  }

  /**
   * Approach below 4 degrees is excellent, 5 to 7 a warning, above 7 critical, and the gap from 4 up to 5
   * acceptable. The range is diagnosed exactly when one is given.
   */
  function DiagnoseCoolingTower(approach: real, towerRange: Option<real>): (d: Diagnostic)
    ensures d.parameter == TowerApproachParameter && d.value == approach
    ensures d.severity == Excellent <==> approach < 4.0
    ensures d.severity == Acceptable <==> 4.0 <= approach < 5.0
    ensures d.severity == Warning <==> 5.0 <= approach <= 7.0
    ensures d.severity == Critical <==> approach > 7.0
    ensures d.rangeDiagnosis.Some? <==> towerRange.Some?
    ensures d.rangeValue == towerRange
    ensures towerRange.Some? ==> d.rangeDiagnosis.value == RangeDiagnosisOf(towerRange.value)
  {
    var severity := if approach < 4.0 then Excellent
                    else if approach >= 5.0 && approach <= 7.0 then Warning
                    else if approach > 7.0 then Critical
                    else Acceptable;
    var rangeDiagnosis := if towerRange.Some? then Some(RangeDiagnosisOf(towerRange.value)) else None;
    Diagnostic(TowerApproachParameter, approach, severity, rangeDiagnosis, towerRange, None, None)
  }

  /** Below 8 degrees is excellent, up to 10 acceptable, up to 12 a warning, above 12 critical. */
  function DiagnoseCompressorLift(lift: real): (d: Diagnostic)
    ensures d.parameter == CompressorLiftParameter && d.value == lift
    ensures d.severity == Excellent <==> lift < 8.0
    ensures d.severity == Acceptable <==> 8.0 <= lift <= 10.0
    ensures d.severity == Warning <==> 10.0 < lift <= 12.0
    ensures d.severity == Critical <==> lift > 12.0
  {
    var severity := if lift < 8.0 then Excellent
                    else if lift <= 10.0 then Acceptable
                    else if lift <= 12.0 then Warning
                    else Critical;
    Diagnostic(CompressorLiftParameter, lift, severity, None, None, None, None)
  }

  const SuggestedSpeedReductionPct: real := 5.0

  /**
   * Below 4 degrees of delta-T the pumps over-pump: a warning, with the saving of a 5% speed cut estimated
   * as 15% of the pump power. Above 7 degrees possible under-flow, also a warning. In between, optimal.
   */
  function DiagnoseFlowPumping(deltaT: real, chwPumpPower: real): (d: Diagnostic)
    ensures d.parameter == FlowPumpingParameter && d.value == deltaT
    ensures d.pumpPowerKw == Some(chwPumpPower)
    ensures d.severity == Warning <==> deltaT < 4.0 || deltaT > 7.0
    ensures d.severity == Excellent <==> 4.0 <= deltaT <= 7.0
    ensures d.estimatedSavingsKw.Some? <==> deltaT < 4.0
    ensures d.estimatedSavingsKw.Some? ==> d.estimatedSavingsKw.value * 100.0 == 15.0 * chwPumpPower
  {
    if deltaT < 4.0 then
      var savingsPct := 3.0 * SuggestedSpeedReductionPct;
      Diagnostic(FlowPumpingParameter, deltaT, Warning, None, None, Some(chwPumpPower),
                 Some(chwPumpPower * (savingsPct / 100.0)))
    else if deltaT > 7.0 then
      Diagnostic(FlowPumpingParameter, deltaT, Warning, None, None, Some(chwPumpPower), None)
    else
      Diagnostic(FlowPumpingParameter, deltaT, Excellent, None, None, Some(chwPumpPower), None)
  }

  // ---------------------------------------------------------------- comprehensive run

  datatype DiagnosticReport = DiagnosticReport(
    overallStatus: Severity,
    issuesFound: seq<Diagnostic>,
    allDiagnostics: seq<Diagnostic>,
    issuesCount: nat)

  function When(present: bool, d: Diagnostic): seq<Diagnostic> {
    if present then [d] else []
  }

  predicate Mentions(ds: seq<Diagnostic>, p: Parameter) {
    exists k :: 0 <= k < |ds| && ds[k].parameter == p
  }

  /** The place of each parameter in the comprehensive run. */
  function Place(p: Parameter): nat {
    match p
    case DeltaTParameter => 0
    case TowerApproachParameter => 1
    case CompressorLiftParameter => 2
    case FlowPumpingParameter => 3
  }

  /**
   * The finding the comprehensive run makes about a parameter, from the values the state holds (an absent
   * value reads as zero, but the run only makes the finding when its values are present).
   */
  function FindingFor(s: PlantState, p: Parameter): Diagnostic {
    match p
    case DeltaTParameter => DiagnoseDeltaT(s.deltaT.GetOr(0.0))
    case TowerApproachParameter => DiagnoseCoolingTower(s.towerApproach.GetOr(0.0), s.towerRange)
    case CompressorLiftParameter => DiagnoseCompressorLift(s.compressorLift.GetOr(0.0))
    case FlowPumpingParameter => DiagnoseFlowPumping(s.deltaT.GetOr(0.0), s.chwPumpPower.GetOr(0.0))
  }

  /** Every finding is its parameter's classifier applied to the state's values. */
  predicate Classified(s: PlantState, ds: seq<Diagnostic>) {
    forall k :: 0 <= k < |ds| ==> ds[k] == FindingFor(s, ds[k].parameter)
  }

  /** The parameters come in strictly increasing place order, so none appears twice. */
  predicate InPlaceOrder(ds: seq<Diagnostic>) {
    forall i, j :: 0 <= i < j < |ds| ==> Place(ds[i].parameter) < Place(ds[j].parameter)
  }

  predicate PlacesWithin(ds: seq<Diagnostic>, lo: int, hi: int) {
    forall k :: 0 <= k < |ds| ==> lo <= Place(ds[k].parameter) < hi
  }

  /** A finding about `p`, made when `present` holds: it mentions `p` alone, in `p`'s place. */
  lemma WhenFinding(s: PlantState, present: bool, p: Parameter)
    ensures var ds := When(present, FindingFor(s, p));
            && Classified(s, ds) && InPlaceOrder(ds) && PlacesWithin(ds, Place(p), Place(p) + 1)
  {
    var d := FindingFor(s, p);
    assert d.parameter == p;
    if present {
      assert When(present, d)[0] == d;
    }
  }

  lemma FindingsConcat(s: PlantState, a: seq<Diagnostic>, b: seq<Diagnostic>, lo: int, mid: int, hi: int)
    requires lo <= mid <= hi
    requires Classified(s, a) && Classified(s, b)
    requires InPlaceOrder(a) && InPlaceOrder(b) && PlacesWithin(a, lo, mid) && PlacesWithin(b, mid, hi)
    ensures forall p :: Mentions(a + b, p) <==> Mentions(a, p) || Mentions(b, p)
    ensures Classified(s, a + b) && InPlaceOrder(a + b) && PlacesWithin(a + b, lo, hi)
  {
    forall p | Mentions(a + b, p)
      ensures Mentions(a, p) || Mentions(b, p)
    {
      var k :| 0 <= k < |a + b| && (a + b)[k].parameter == p;
      if k >= |a| {
        assert b[k - |a|] == (a + b)[k];
      }
    }
    forall p | Mentions(a, p)
      ensures Mentions(a + b, p)
    {
      var k :| 0 <= k < |a| && a[k].parameter == p;
      assert (a + b)[k] == a[k];
    }
    forall p | Mentions(b, p)
      ensures Mentions(a + b, p)
    {
      var k :| 0 <= k < |b| && b[k].parameter == p;
      assert (a + b)[|a| + k] == b[k];
    }
    forall k | 0 <= k < |a + b|
      ensures (a + b)[k] == FindingFor(s, (a + b)[k].parameter)
      ensures lo <= Place((a + b)[k].parameter) < hi
    {
      if k < |a| {
        assert (a + b)[k] == a[k];
      } else {
        assert (a + b)[k] == b[k - |a|];
      }
    }
    forall i, j | 0 <= i < j < |a + b|
      ensures Place((a + b)[i].parameter) < Place((a + b)[j].parameter)
    {
      if j < |a| {
        assert (a + b)[i] == a[i] && (a + b)[j] == a[j];
      } else if i < |a| {
        assert (a + b)[i] == a[i] && (a + b)[j] == b[j - |a|];
      } else {
        assert (a + b)[i] == b[i - |a|] && (a + b)[j] == b[j - |a|];
      }
    }
  }

  /** The delta-T finding, made when the state holds a delta-T. */
  function DeltaTPart(s: PlantState): (ds: seq<Diagnostic>)
    ensures |ds| <= 1
    ensures s.deltaT.None? ==> ds == []
    ensures s.deltaT.Some? ==> ds == [DiagnoseDeltaT(s.deltaT.value)]
    ensures Classified(s, ds) && InPlaceOrder(ds) && PlacesWithin(ds, 0, 1)
  {
    WhenFinding(s, s.deltaT.Some?, DeltaTParameter);
    When(s.deltaT.Some?, FindingFor(s, DeltaTParameter))
  }

  /** The tower finding, made when the state holds an approach; it diagnoses the range when one is held. */
  function TowerPart(s: PlantState): (ds: seq<Diagnostic>)
    ensures |ds| <= 1
    ensures s.towerApproach.None? ==> ds == []
    ensures s.towerApproach.Some? ==> ds == [DiagnoseCoolingTower(s.towerApproach.value, s.towerRange)]
    ensures Classified(s, ds) && InPlaceOrder(ds) && PlacesWithin(ds, 1, 2)
  {
    WhenFinding(s, s.towerApproach.Some?, TowerApproachParameter);
    When(s.towerApproach.Some?, FindingFor(s, TowerApproachParameter))
  }

  /** The lift finding, made when the state holds a compressor lift. */
  function LiftPart(s: PlantState): (ds: seq<Diagnostic>)
    ensures |ds| <= 1
    ensures s.compressorLift.None? ==> ds == []
    ensures s.compressorLift.Some? ==> ds == [DiagnoseCompressorLift(s.compressorLift.value)]
    ensures Classified(s, ds) && InPlaceOrder(ds) && PlacesWithin(ds, 2, 3)
  {
    WhenFinding(s, s.compressorLift.Some?, CompressorLiftParameter);
    When(s.compressorLift.Some?, FindingFor(s, CompressorLiftParameter))
  }

  /** The flow finding, made when the state holds both a delta-T and a pump power. */
  function FlowPart(s: PlantState): (ds: seq<Diagnostic>)
    ensures |ds| <= 1
    ensures !(s.deltaT.Some? && s.chwPumpPower.Some?) ==> ds == []
    ensures s.deltaT.Some? && s.chwPumpPower.Some? ==>
              ds == [DiagnoseFlowPumping(s.deltaT.value, s.chwPumpPower.value)]
    ensures Classified(s, ds) && InPlaceOrder(ds) && PlacesWithin(ds, 3, 4)
  {
    WhenFinding(s, s.deltaT.Some? && s.chwPumpPower.Some?, FlowPumpingParameter);
    When(s.deltaT.Some? && s.chwPumpPower.Some?, FindingFor(s, FlowPumpingParameter))
  }

  /**
   * The findings a comprehensive run makes, in order: delta-T, tower, lift, flow. Each is made exactly when
   * its keys are present (the flow finding needs both delta-T and the pump power), and each is its
   * classifier applied to the state's values.
   */
  function ApplicableDiagnostics(s: PlantState): (ds: seq<Diagnostic>)
    ensures |ds| <= 4
    ensures Mentions(ds, DeltaTParameter) <==> s.deltaT.Some?
    ensures Mentions(ds, TowerApproachParameter) <==> s.towerApproach.Some?
    ensures Mentions(ds, CompressorLiftParameter) <==> s.compressorLift.Some?
    ensures Mentions(ds, FlowPumpingParameter) <==> s.deltaT.Some? && s.chwPumpPower.Some?
    ensures Classified(s, ds)
    ensures InPlaceOrder(ds)
  {
    var d1, d2, d3, d4 := DeltaTPart(s), TowerPart(s), LiftPart(s), FlowPart(s);
    FindingsCombine(s, d1, d2, d3, d4);
    MentionsByPart(d1, d2, d3, d4, DeltaTParameter);
    MentionsByPart(d1, d2, d3, d4, TowerApproachParameter);
    MentionsByPart(d1, d2, d3, d4, CompressorLiftParameter);
    MentionsByPart(d1, d2, d3, d4, FlowPumpingParameter);
    d1 + d2 + d3 + d4
  }

  /** Four classified parts in consecutive places concatenate into a classified list in place order. */
  lemma FindingsCombine(s: PlantState, d1: seq<Diagnostic>, d2: seq<Diagnostic>, d3: seq<Diagnostic>,
                        d4: seq<Diagnostic>)
    requires Classified(s, d1) && InPlaceOrder(d1) && PlacesWithin(d1, 0, 1)
    requires Classified(s, d2) && InPlaceOrder(d2) && PlacesWithin(d2, 1, 2)
    requires Classified(s, d3) && InPlaceOrder(d3) && PlacesWithin(d3, 2, 3)
    requires Classified(s, d4) && InPlaceOrder(d4) && PlacesWithin(d4, 3, 4)
    ensures Classified(s, d1 + d2 + d3 + d4) && InPlaceOrder(d1 + d2 + d3 + d4)
  {
    FindingsConcat(s, d1, d2, 0, 1, 2);
    FindingsConcat(s, d1 + d2, d3, 0, 2, 3);
    FindingsConcat(s, d1 + d2 + d3, d4, 0, 3, 4);
  }

  /**
   * With the four parts in their places, a parameter is mentioned exactly when the part in its place holds a
   * finding.
   */
  lemma MentionsByPart(a: seq<Diagnostic>, b: seq<Diagnostic>, c: seq<Diagnostic>, d: seq<Diagnostic>, p: Parameter)
    requires PlacesWithin(a, 0, 1) && PlacesWithin(b, 1, 2) && PlacesWithin(c, 2, 3) && PlacesWithin(d, 3, 4)
    ensures Mentions(a + b + c + d, p) <==> [a, b, c, d][Place(p)] != []
  {
    MentionsConcat(a, b, p);
    MentionsConcat(a + b, c, p);
    MentionsConcat(a + b + c, d, p);
    MentionsInPlace(a, 0, p);
    MentionsInPlace(b, 1, p);
    MentionsInPlace(c, 2, p);
    MentionsInPlace(d, 3, p);
  }

  lemma MentionsConcat(x: seq<Diagnostic>, y: seq<Diagnostic>, p: Parameter)
    ensures Mentions(x + y, p) <==> Mentions(x, p) || Mentions(y, p)
  {
    if Mentions(x + y, p) {
      var k :| 0 <= k < |x + y| && (x + y)[k].parameter == p;
      if k >= |x| {
        assert y[k - |x|] == (x + y)[k];
      }
    }
    if Mentions(x, p) {
      var k :| 0 <= k < |x| && x[k].parameter == p;
      assert (x + y)[k] == x[k];
    }
    if Mentions(y, p) {
      var k :| 0 <= k < |y| && y[k].parameter == p;
      assert (x + y)[|x| + k] == y[k];
    }
  }

  /** A list whose findings all sit in one place mentions exactly that place's parameter, when non-empty. */
  lemma MentionsInPlace(x: seq<Diagnostic>, i: int, p: Parameter)
    requires PlacesWithin(x, i, i + 1)
    ensures Mentions(x, p) <==> x != [] && Place(p) == i
  {
    if x != [] && Place(p) == i {
      PlaceInjective(x[0].parameter, p);
    }
  }

  lemma PlaceInjective(p: Parameter, q: Parameter)
    requires Place(p) == Place(q)
    ensures p == q
  {
  }

  /** A held delta-T below 4 degrees makes the whole plant critical, whatever the other findings are. */
  lemma LowDeltaTMakesPlantCritical(s: PlantState)
    requires s.deltaT.Some? && s.deltaT.value < 4.0
    ensures Worst(ApplicableDiagnostics(s)) == Critical
  {
    var ds := ApplicableDiagnostics(s);
    var k :| 0 <= k < |ds| && ds[k].parameter == DeltaTParameter;
    assert ds[k].severity == Critical;
    WorstIsMaximum(ds);
  }

  /** The findings that are warnings or critical, in their original order. */
  function Issues(ds: seq<Diagnostic>): (issues: seq<Diagnostic>)
    ensures |issues| <= |ds|
  {
    if ds == [] then []
    else
      var last := ds[|ds| - 1];
      Issues(ds[..|ds| - 1]) + (if IsIssue(last.severity) then [last] else [])
  }

  /** The worst severity among the findings; excellent when there are none. */
  function Worst(ds: seq<Diagnostic>): Severity {
    if ds == [] then Excellent else MoreSevere(Worst(ds[..|ds| - 1]), ds[|ds| - 1].severity)
  }

  lemma IssuesAppend(ds: seq<Diagnostic>, d: Diagnostic)
    ensures Issues(ds + [d]) == Issues(ds) + (if IsIssue(d.severity) then [d] else [])
  {
    assert (ds + [d])[..|ds|] == ds;
  }

  /** The issues are exactly the findings that are warnings or critical. */
  lemma {:induction false} IssuesExactlyTheConcerns(ds: seq<Diagnostic>)
    ensures forall d :: d in Issues(ds) <==> d in ds && IsIssue(d.severity)
  {
    if ds != [] {
      var front := ds[..|ds| - 1];
      IssuesExactlyTheConcerns(front);
      assert ds == front + [ds[|ds| - 1]];
    }
  }

  /** The worst severity bounds every finding and is the severity of one of them, unless there are none. */
  lemma {:induction false} WorstIsMaximum(ds: seq<Diagnostic>)
    ensures forall k :: 0 <= k < |ds| ==> Rank(ds[k].severity) <= Rank(Worst(ds))
    ensures ds == [] ==> Worst(ds) == Excellent
    ensures ds != [] ==> exists k :: 0 <= k < |ds| && ds[k].severity == Worst(ds)
  {
    if ds != [] {
      var front := ds[..|ds| - 1];
      WorstIsMaximum(front);
      assert forall k :: 0 <= k < |front| ==> ds[k] == front[k];
      if Worst(ds) != ds[|ds| - 1].severity {
        assert front != [];
        var k :| 0 <= k < |front| && front[k].severity == Worst(front);
        assert ds[k].severity == Worst(ds);
      }
    }
  }

  predicate AnyWithSeverity(ds: seq<Diagnostic>, s: Severity) {
    exists k :: 0 <= k < |ds| && ds[k].severity == s
  }

  /**
   * The first of critical, warning and acceptable that some finding has, in that order; excellent otherwise.
   * This is the worst severity among the findings.
   */
  lemma OverallStatusIsWorst(ds: seq<Diagnostic>)
    ensures Worst(ds) == (if AnyWithSeverity(ds, Critical) then Critical
                          else if AnyWithSeverity(ds, Warning) then Warning
                          else if AnyWithSeverity(ds, Acceptable) then Acceptable
                          else Excellent)
  {
    WorstIsMaximum(ds);
    if ds != [] {
      var k :| 0 <= k < |ds| && ds[k].severity == Worst(ds);
    }
  }

  /** Adds one finding to the report, and to the issues when it is a warning or critical. */
  method RecordFinding(all: seq<Diagnostic>, issues: seq<Diagnostic>, d: Diagnostic)
    returns (all': seq<Diagnostic>, issues': seq<Diagnostic>)
    requires issues == Issues(all)
    ensures all' == all + [d]
    ensures issues' == Issues(all')
  {
    IssuesAppend(all, d);
    all' := all + [d];
    issues' := issues;
    if IsIssue(d.severity) {
      issues' := issues' + [d];
    }
  }

  /**
   * Applies each classifier whose keys the plant state holds, in the order delta-T, tower, lift, flow,
   * collecting each warning or critical finding as an issue.
   */
  method CollectFindings(s: PlantState) returns (all: seq<Diagnostic>, issues: seq<Diagnostic>)
    ensures all == ApplicableDiagnostics(s)
    ensures issues == Issues(all)
  {
    all := [];
    issues := [];
    ghost var w1 := When(s.deltaT.Some?, FindingFor(s, DeltaTParameter));
    ghost var w2 := When(s.towerApproach.Some?, FindingFor(s, TowerApproachParameter));
    ghost var w3 := When(s.compressorLift.Some?, FindingFor(s, CompressorLiftParameter));
    ghost var w4 := When(s.deltaT.Some? && s.chwPumpPower.Some?, FindingFor(s, FlowPumpingParameter));

    if s.deltaT.Some? {
      all, issues := RecordFinding(all, issues, DiagnoseDeltaT(s.deltaT.value));
    }
    assert all == w1;
    ghost var upTo1 := all;
    if s.towerApproach.Some? {
      all, issues := RecordFinding(all, issues, DiagnoseCoolingTower(s.towerApproach.value, s.towerRange));
    }
    assert all == upTo1 + w2;
    ghost var upTo2 := all;
    if s.compressorLift.Some? {
      all, issues := RecordFinding(all, issues, DiagnoseCompressorLift(s.compressorLift.value));
    }
    assert all == upTo2 + w3;
    ghost var upTo3 := all;
    if s.deltaT.Some? && s.chwPumpPower.Some? {
      all, issues := RecordFinding(all, issues, DiagnoseFlowPumping(s.deltaT.value, s.chwPumpPower.value));
    }
    assert all == upTo3 + w4;
    ApplicableByParts(s);
  }

  /** The comprehensive findings are the four conditional findings, concatenated in place order. */
  lemma ApplicableByParts(s: PlantState)
    ensures ApplicableDiagnostics(s)
            == When(s.deltaT.Some?, FindingFor(s, DeltaTParameter))
               + When(s.towerApproach.Some?, FindingFor(s, TowerApproachParameter))
               + When(s.compressorLift.Some?, FindingFor(s, CompressorLiftParameter))
               + When(s.deltaT.Some? && s.chwPumpPower.Some?, FindingFor(s, FlowPumpingParameter))
  {
  }

  /**
   * The comprehensive run: every applicable finding, the issues among them, and the overall status, which
   * is critical if any finding is, else warning if any is, else acceptable if any is, else excellent.
   */
  method RunComprehensiveDiagnostics(s: PlantState) returns (report: DiagnosticReport)
    ensures report.allDiagnostics == ApplicableDiagnostics(s)
    ensures report.issuesFound == Issues(report.allDiagnostics)
    ensures forall d :: d in report.issuesFound <==> d in report.allDiagnostics && IsIssue(d.severity)
    ensures report.issuesCount == |report.issuesFound|
    ensures report.overallStatus == Worst(report.allDiagnostics)
    ensures forall k :: 0 <= k < |report.allDiagnostics| ==>
              Rank(report.allDiagnostics[k].severity) <= Rank(report.overallStatus)
  {
    var all, issues := CollectFindings(s);

    var overall := Excellent;
    if exists k | 0 <= k < |all| :: all[k].severity == Critical {
      overall := Critical;
    } else if exists k | 0 <= k < |all| :: all[k].severity == Warning {
      overall := Warning;
    } else if exists k | 0 <= k < |all| :: all[k].severity == Acceptable {
      overall := Acceptable;
    }
    OverallStatusIsWorst(all);
    WorstIsMaximum(all);
    IssuesExactlyTheConcerns(all);

    report := DiagnosticReport(overall, issues, all, |issues|);
  }
}

=== FILE: digital_twin.dfy ===
/**
 * The digital twin: predicts the plant state a control action would lead to, compares it with the live state,
 * and ranks a set of candidate actions by a weighted score. Nothing is applied to the plant.
 */
module TwinSimulation {
  import opened Util
  import opened PlantStates
  import opened ControlLogic
  import AdvancedCalculations

  datatype Mode = Live | Twin

  datatype ModeError = UnknownMode

  /**
   * The simulations divide by a speed ratio or a current speed that the source does not guard everywhere:
   * these are the cases where it would stop with a division by zero.
   */
  datatype TwinError = PumpSpeedRatioZero | FanCurrentSpeedZero

  class DigitalTwin {
    var mode: Mode

    constructor()
      ensures mode == Live
    {
      mode := Live;
    }

    /** Accepts exactly "live" and "twin"; any other name is refused and leaves the mode as it was. */
    method SetMode(name: string) returns (r: Result<Mode, ModeError>)
      modifies this
      ensures r.Success? <==> name == "live" || name == "twin"
      ensures r.Success? ==> mode == r.value && (r.value == Live <==> name == "live")
      ensures r.Failure? ==> mode == old(mode)
    {
      if name == "live" {
        mode := Live;
        r := Success(Live);
      } else if name == "twin" {
        mode := Twin;
        r := Success(Twin);
      } else {
        r := Failure(UnknownMode);
      }
    }
  }

  // ---------------------------------------------------------------- action effects

  /**
   * Shutting a unit down raises the part-load ratio by half (capped at full load) and runs one chiller fewer;
   * starting one lowers it to 70% and runs one more. The ratio is read from the action (0.75 if absent) and
   * the chiller count from the state (1 if absent). Nothing else changes.
   */
  function SimulateSequencing(s: PlantState, a: ControlAction): (r: PlantState)
    ensures r.(plr := s.plr, numChillersRunning := s.numChillersRunning) == s
    ensures a.action == Some(ShutdownUnit) ==>
              r.plr == Some(Min(1.0, a.currentPlr.GetOr(DefaultPlr) * 1.5)) && r.plr.value <= 1.0
              && r.numChillersRunning == Some(s.numChillersRunning.GetOr(1) - 1)
    ensures a.action == Some(StartupUnit) ==>
              r.plr == Some(a.currentPlr.GetOr(DefaultPlr) * 0.7)
              && r.numChillersRunning == Some(s.numChillersRunning.GetOr(1) + 1)
    ensures a.action != Some(ShutdownUnit) && a.action != Some(StartupUnit) ==> r == s
  {
    var plr := a.currentPlr.GetOr(DefaultPlr);
    if a.action == Some(ShutdownUnit) then
      s.(plr := Some(Min(1.0, plr * 1.5)), numChillersRunning := Some(s.numChillersRunning.GetOr(1) - 1))
    else if a.action == Some(StartupUnit) then
      s.(plr := Some(plr * 0.7), numChillersRunning := Some(s.numChillersRunning.GetOr(1) + 1))
    else s
  }

  /**
   * When both setpoints of the action are present and non-zero, the supply temperature becomes the new
   * setpoint, the lift falls by 0.6 degrees per degree of reset, and chiller power by 3% per degree of lift.
   */
  function SimulateSupplyReset(s: PlantState, a: ControlAction): (r: PlantState)
    ensures r.(chwSupplyTemp := s.chwSupplyTemp, compressorLift := s.compressorLift, chillerPower := s.chillerPower) == s
    ensures !(Truthy(a.recommendedSetpoint) && Truthy(a.currentSetpoint)) ==> r == s
    ensures Truthy(a.recommendedSetpoint) && Truthy(a.currentSetpoint) ==>
              var raise := a.recommendedSetpoint.value - a.currentSetpoint.value;
              && r.chwSupplyTemp == a.recommendedSetpoint
              && r.compressorLift.Some? == s.compressorLift.Some?
              && (s.compressorLift.Some? ==> r.compressorLift.value == s.compressorLift.value - 0.6 * raise)
              && r.chillerPower.Some? == s.chillerPower.Some?
              && (s.chillerPower.Some? ==>
                    r.chillerPower.value == s.chillerPower.value * (1.0 - 0.018 * raise)
                    && (s.chillerPower.value > 0.0 && raise > 0.0 ==> r.chillerPower.value < s.chillerPower.value))
  {
    if Truthy(a.recommendedSetpoint) && Truthy(a.currentSetpoint) then
      var raise := a.recommendedSetpoint.value - a.currentSetpoint.value;
      var lift := if s.compressorLift.Some? then Some(s.compressorLift.value - raise * 0.6) else None;
      var power := if s.chillerPower.Some? then Some(s.chillerPower.value * (1.0 - raise * 0.6 * 0.03)) else None;
      s.(chwSupplyTemp := a.recommendedSetpoint, compressorLift := lift, chillerPower := power)
    else s
  }

  /** The ratio of the action's new speed to its current one (75% each when absent), 1 if the current is not positive. */
  function SpeedRatio(a: ControlAction): (ratio: real)
    ensures a.currentSpeedPct.GetOr(75.0) > 0.0 ==> ratio * a.currentSpeedPct.GetOr(75.0) == a.recommendedSpeedPct.GetOr(75.0)
    ensures a.currentSpeedPct.GetOr(75.0) <= 0.0 ==> ratio == 1.0
  {
    var current := a.currentSpeedPct.GetOr(75.0);
    var next := a.recommendedSpeedPct.GetOr(75.0);
    if current > 0.0 then next / current else 1.0
  }

  /**
   * Pump power follows the cube of the speed ratio and flow the ratio itself; delta-T moves inversely with
   * flow, so the flow times delta-T (the load carried) is what it was. A ratio of zero with a delta-T
   * present is a division by zero.
   */
  function SimulatePumpAdjustment(s: PlantState, a: ControlAction): (r: Result<PlantState, TwinError>)
    ensures r.Failure? <==> s.deltaT.Some? && SpeedRatio(a) == 0.0
    ensures r.Failure? ==> r.error == PumpSpeedRatioZero
    ensures r.Success? ==>
              var t := r.value;
              && t.(chwPumpPower := s.chwPumpPower, chwFlowRate := s.chwFlowRate, deltaT := s.deltaT) == s
              && t.chwPumpPower == Scaled(s.chwPumpPower, Cube(SpeedRatio(a)))
              && t.chwFlowRate == Scaled(s.chwFlowRate, SpeedRatio(a))
              && t.deltaT == InverseScaled(s.deltaT, SpeedRatio(a))
              && (s.chwFlowRate.Some? && s.deltaT.Some? ==>
                    t.chwFlowRate.value * t.deltaT.value == s.chwFlowRate.value * s.deltaT.value)
  {
    var ratio := SpeedRatio(a);
    var pump := Scaled(s.chwPumpPower, Cube(ratio));
    var flow := Scaled(s.chwFlowRate, ratio);
    if s.deltaT.Some? && ratio != 1.0 && ratio == 0.0 then Failure(PumpSpeedRatioZero)
    else
      var deltaT := InverseScaled(s.deltaT, ratio);
      FlowTimesDeltaT(s.chwFlowRate, s.deltaT, ratio);
      Success(s.(chwPumpPower := pump, chwFlowRate := flow, deltaT := deltaT))
  }

  /** A held value multiplied by a factor; nothing when nothing is held. */
  function Scaled(x: Option<real>, k: real): (y: Option<real>)
    ensures y.Some? == x.Some?
    ensures x.Some? ==> y.value == x.value * k
  {
    if x.Some? then Some(x.value * k) else None
  }

  /** A delta-T divided by the speed ratio, unchanged when the ratio is 1. */
  function InverseScaled(deltaT: Option<real>, ratio: real): (d: Option<real>)
    requires deltaT.Some? ==> ratio != 0.0
    ensures d.Some? == deltaT.Some?
    ensures deltaT.Some? && ratio != 1.0 ==> d.value * ratio == deltaT.value
    ensures ratio == 1.0 ==> d == deltaT
  {
    if deltaT.Some? && ratio != 1.0 then Some(deltaT.value / ratio) else deltaT
  }

  lemma FlowTimesDeltaT(flow: Option<real>, deltaT: Option<real>, ratio: real)
    requires deltaT.Some? ==> ratio != 0.0
    ensures flow.Some? && deltaT.Some? ==>
              Scaled(flow, ratio).value * InverseScaled(deltaT, ratio).value == flow.value * deltaT.value
  {
    if flow.Some? && deltaT.Some? && ratio != 1.0 {
      var q := InverseScaled(deltaT, ratio).value;
      assert q * ratio == deltaT.value;
      calc {
        (flow.value * ratio) * q;
        flow.value * (q * ratio);
        flow.value * deltaT.value;
      }
    }
  }

  /**
   * Fan power follows the cube of the speed ratio and the fan speed becomes the new one. The approach moves
   * by 0.03 degrees per percent of speed change, never below 2 degrees; the condenser outlet follows the
   * wet bulb plus the approach and the inlet adds the range. A current speed of zero with an approach
   * present is a division by zero.
   */
  function SimulateFanAdjustment(s: PlantState, a: ControlAction): (r: Result<PlantState, TwinError>)
    ensures r.Failure? <==> s.towerApproach.Some? && a.currentSpeedPct.GetOr(75.0) == 0.0
    ensures r.Failure? ==> r.error == FanCurrentSpeedZero
    ensures r.Success? ==>
              var t := r.value;
              && t.(towerFanPower := s.towerFanPower, towerFanSpeed := s.towerFanSpeed, towerApproach := s.towerApproach,
                    condOutletTemp := s.condOutletTemp, condInletTemp := s.condInletTemp) == s
              && t.towerFanSpeed == Some(a.recommendedSpeedPct.GetOr(75.0))
              && (s.towerFanPower.Some? ==> t.towerFanPower == Some(s.towerFanPower.value * Cube(SpeedRatio(a))))
              && (s.towerFanPower.None? ==> t.towerFanPower == None)
              && t.towerApproach.Some? == s.towerApproach.Some?
              && (s.towerApproach.Some? ==>
                    t.towerApproach.value == Max(2.0, s.towerApproach.value - 0.03 * ApproachSpeedChangePct(a)))
              && (s.towerApproach.Some? && a.recommendedSpeedPct.GetOr(75.0) >= a.currentSpeedPct.GetOr(75.0) > 0.0 ==>
                    t.towerApproach.value <= Max(2.0, s.towerApproach.value))
              && (s.towerApproach.Some? && s.wetBulbTemp.Some? && s.condOutletTemp.Some? ==>
                    t.condOutletTemp == Some(s.wetBulbTemp.value + t.towerApproach.value))
              && (s.towerApproach.Some? && s.wetBulbTemp.Some? && s.towerRange.Some? ==>
                    t.condInletTemp == Some(s.wetBulbTemp.value + t.towerApproach.value + s.towerRange.value))
              && (!(s.towerApproach.Some? && s.wetBulbTemp.Some? && s.condOutletTemp.Some?) ==>
                    t.condOutletTemp == s.condOutletTemp)
              && (!(s.towerApproach.Some? && s.wetBulbTemp.Some? && s.towerRange.Some?) ==>
                    t.condInletTemp == s.condInletTemp)
  {
    var current := a.currentSpeedPct.GetOr(75.0);
    var next := a.recommendedSpeedPct.GetOr(75.0);
    var fanPower := if s.towerFanPower.Some? then Some(s.towerFanPower.value * Cube(SpeedRatio(a))) else None;
    if s.towerApproach.Some? && current == 0.0 then Failure(FanCurrentSpeedZero)
    else
      var approach :=
        if s.towerApproach.Some? then
          var change := ApproachSpeedChangePct(a);
          FasterFanNoWorseApproach(current, next, s.towerApproach.value);
          Some(Max(2.0, s.towerApproach.value - 0.03 * change))
        else None;
      var follows := approach.Some? && s.wetBulbTemp.Some?;
      var condOut := if follows then s.wetBulbTemp.value + approach.value else 0.0;
      var outlet := if follows && s.condOutletTemp.Some? then Some(condOut) else s.condOutletTemp;
      var inlet := if follows && s.towerRange.Some? then Some(condOut + s.towerRange.value) else s.condInletTemp;
      Success(s.(towerFanPower := fanPower, towerFanSpeed := Some(next), towerApproach := approach,
                 condOutletTemp := outlet, condInletTemp := inlet))
  }

  /** The fan speed change in percent of the current speed (75% each when absent); 0 when the current speed is 0. */
  function ApproachSpeedChangePct(a: ControlAction): (pct: real)
    ensures a.currentSpeedPct.GetOr(75.0) != 0.0 ==>
              pct * a.currentSpeedPct.GetOr(75.0) == 100.0 * (a.recommendedSpeedPct.GetOr(75.0) - a.currentSpeedPct.GetOr(75.0))
  {
    var current := a.currentSpeedPct.GetOr(75.0);
    var next := a.recommendedSpeedPct.GetOr(75.0);
    if current != 0.0 then ((next - current) / current) * 100.0 else 0.0
  }

  /** Speeding a running fan up cannot raise the approach, except to the 2-degree floor. */
  lemma FasterFanNoWorseApproach(current: real, next: real, approach: real)
    requires current != 0.0
    ensures next >= current > 0.0 ==>
              Max(2.0, approach - 0.03 * (((next - current) / current) * 100.0)) <= Max(2.0, approach)
  {
    if next >= current > 0.0 {
      var q := (next - current) / current;
      assert q * current == next - current;
      assert q >= 0.0;
    }
  }

  // ---------------------------------------------------------------- metric recalculation

  function TotalPower(s: PlantState): real {
    s.chillerPower.GetOr(0.0) + s.chwPumpPower.GetOr(0.0) + s.cwPumpPower.GetOr(0.0) + s.towerFanPower.GetOr(0.0)
  }

  /**
   * Recomputes the derived figures of a predicted state: the load and capacity when flow and both chilled-water
   * temperatures are present, the total power (absent powers count as zero), kW/TR when the capacity is
   * positive, COP when load and chiller power are positive, and the lift from supply and condenser inlet.
   * A figure whose inputs are missing keeps its old value; delta-T is never recomputed.
   */
  function RecalculateMetrics(s: PlantState): (r: PlantState)
    ensures r.totalPlantPower == Some(TotalPower(s))
    ensures s.chwFlowRate.Some? && s.chwSupplyTemp.Some? && s.chwReturnTemp.Some? ==>
              && r.coolingLoadKw == Some(4.186 * s.chwFlowRate.value * (s.chwReturnTemp.value - s.chwSupplyTemp.value))
              && r.coolingCapacityTr.Some? && r.coolingCapacityTr.value * 3.517 == r.coolingLoadKw.value
    ensures !(s.chwFlowRate.Some? && s.chwSupplyTemp.Some? && s.chwReturnTemp.Some?) ==>
              r.coolingLoadKw == s.coolingLoadKw && r.coolingCapacityTr == s.coolingCapacityTr
    ensures s.chwSupplyTemp.Some? && s.condInletTemp.Some? ==>
              r.compressorLift == Some(s.condInletTemp.value - s.chwSupplyTemp.value)
    ensures !(s.chwSupplyTemp.Some? && s.condInletTemp.Some?) ==> r.compressorLift == s.compressorLift
  {
    var full := s.chwFlowRate.Some? && s.chwSupplyTemp.Some? && s.chwReturnTemp.Some?;
    var freshLoad := if full then 4.186 * s.chwFlowRate.value * (s.chwReturnTemp.value - s.chwSupplyTemp.value) else 0.0;
    var loadKw := if full then Some(freshLoad) else s.coolingLoadKw;
    var capacityTr := if full then Some(freshLoad / 3.517) else s.coolingCapacityTr;
    var total := TotalPower(s);
    var capacity := capacityTr.GetOr(0.0);
    var chiller := s.chillerPower.GetOr(0.0);
    var plantKwPerTr := if capacity > 0.0 then Some(total / capacity) else s.plantKwPerTr;
    var chillerKwPerTr := if capacity > 0.0 then Some(chiller / capacity) else s.chillerKwPerTr;
    var load := loadKw.GetOr(0.0);
    var copNow := load > 0.0 && chiller > 0.0;
    var cop := if copNow then Some(load / chiller) else s.cop;
    var plantCop := if copNow then Some(if total > 0.0 then load / total else 0.0) else s.plantCop;
    var lift :=
      if s.chwSupplyTemp.Some? && s.condInletTemp.Some? then
        Some(AdvancedCalculations.CalculateCompressorLift(s.chwSupplyTemp.value, s.condInletTemp.value).lift)
      else s.compressorLift;
    s.(coolingLoadKw := loadKw, coolingCapacityTr := capacityTr, totalPlantPower := Some(total),
       plantKwPerTr := plantKwPerTr, chillerKwPerTr := chillerKwPerTr, cop := cop, plantCop := plantCop,
       compressorLift := lift)
  }

  /** Only the derived figures change: the measured values, and delta-T, are kept as they were. */
  lemma RecalculateKeepsMeasurements(s: PlantState)
    ensures var r := RecalculateMetrics(s);
            r.(coolingLoadKw := s.coolingLoadKw, coolingCapacityTr := s.coolingCapacityTr,
               totalPlantPower := s.totalPlantPower, plantKwPerTr := s.plantKwPerTr,
               chillerKwPerTr := s.chillerKwPerTr, cop := s.cop, plantCop := s.plantCop,
               compressorLift := s.compressorLift) == s
  {
  }

  /**
   * With a positive capacity kW/TR is power over capacity; otherwise the old kW/TR stays. With a positive
   * load and chiller power COP is load over chiller power, and plant COP load over total power (zero when
   * the total is not positive); otherwise the old COPs stay.
   */
  lemma RecalculatedEfficiency(s: PlantState)
    ensures var r := RecalculateMetrics(s);
            && (r.coolingCapacityTr.GetOr(0.0) > 0.0 ==>
                  && r.plantKwPerTr.Some? && r.plantKwPerTr.value * r.coolingCapacityTr.value == TotalPower(s)
                  && r.chillerKwPerTr.Some?
                  && r.chillerKwPerTr.value * r.coolingCapacityTr.value == s.chillerPower.GetOr(0.0))
            && (r.coolingCapacityTr.GetOr(0.0) <= 0.0 ==>
                  r.plantKwPerTr == s.plantKwPerTr && r.chillerKwPerTr == s.chillerKwPerTr)
            && (r.coolingLoadKw.GetOr(0.0) > 0.0 && s.chillerPower.GetOr(0.0) > 0.0 ==>
                  && r.cop.Some? && r.cop.value * s.chillerPower.value == r.coolingLoadKw.value
                  && r.plantCop.Some?
                  && (TotalPower(s) > 0.0 ==> r.plantCop.value * TotalPower(s) == r.coolingLoadKw.value)
                  && (TotalPower(s) <= 0.0 ==> r.plantCop.value == 0.0))
            && (!(r.coolingLoadKw.GetOr(0.0) > 0.0 && s.chillerPower.GetOr(0.0) > 0.0) ==>
                  r.cop == s.cop && r.plantCop == s.plantCop)
  {
    var r := RecalculateMetrics(s);
    var capacity := r.coolingCapacityTr.GetOr(0.0);
    if capacity > 0.0 {
      assert (TotalPower(s) / capacity) * capacity == TotalPower(s);
      assert (s.chillerPower.GetOr(0.0) / capacity) * capacity == s.chillerPower.GetOr(0.0);
    }
  }

  /** Recalculating a recalculated state changes nothing. */
  lemma RecalculateIdempotent(s: PlantState)
    ensures RecalculateMetrics(RecalculateMetrics(s)) == RecalculateMetrics(s)
  {
    var r := RecalculateMetrics(s);
    RecalculateKeepsMeasurements(s);
    assert r.chwFlowRate == s.chwFlowRate && r.chwSupplyTemp == s.chwSupplyTemp && r.chwReturnTemp == s.chwReturnTemp;
    assert r.chillerPower == s.chillerPower && r.condInletTemp == s.condInletTemp;
    assert TotalPower(r) == TotalPower(s);
    var rr := RecalculateMetrics(r);
    RecalculateKeepsMeasurements(r);
    assert rr.coolingLoadKw == r.coolingLoadKw && rr.coolingCapacityTr == r.coolingCapacityTr;
    assert rr.totalPlantPower == r.totalPlantPower;
    assert rr.plantKwPerTr == r.plantKwPerTr && rr.chillerKwPerTr == r.chillerKwPerTr;
    assert rr.cop == r.cop && rr.plantCop == r.plantCop;
    assert rr.compressorLift == r.compressorLift;
  }

  // ---------------------------------------------------------------- simulate and compare

  /**
   * The predicted state after an action: the effect of its control type (none for an unknown or missing
   * type), then the recalculation of every derived figure.
   */
  function SimulateControlAction(s: PlantState, a: ControlAction): (r: Result<PlantState, TwinError>)
    ensures r.Failure? <==>
              (a.controlType == Some(PumpVfd) && SimulatePumpAdjustment(s, a).Failure?)
              || (a.controlType == Some(TowerFan) && SimulateFanAdjustment(s, a).Failure?)
    ensures r.Success? ==> r.value.totalPlantPower.Some? && RecalculateMetrics(r.value) == r.value
    ensures a.controlType.None? ==> r == Success(RecalculateMetrics(s))
    ensures a.controlType == Some(ChillerSequencing) ==> r == Success(RecalculateMetrics(SimulateSequencing(s, a)))
    ensures a.controlType == Some(ChwSupplyReset) ==> r == Success(RecalculateMetrics(SimulateSupplyReset(s, a)))
    ensures a.controlType == Some(PumpVfd) && SimulatePumpAdjustment(s, a).Success? ==>
              r == Success(RecalculateMetrics(SimulatePumpAdjustment(s, a).value))
    ensures a.controlType == Some(TowerFan) && SimulateFanAdjustment(s, a).Success? ==>
              r == Success(RecalculateMetrics(SimulateFanAdjustment(s, a).value))
    ensures r.Failure? ==> r.error == (if a.controlType == Some(PumpVfd) then PumpSpeedRatioZero else FanCurrentSpeedZero)
  {
    var effect :=
      match a.controlType
      case Some(ChillerSequencing) => Success(SimulateSequencing(s, a))
      case Some(ChwSupplyReset) => Success(SimulateSupplyReset(s, a))
      case Some(PumpVfd) => SimulatePumpAdjustment(s, a)
      case Some(TowerFan) => SimulateFanAdjustment(s, a)
      case None => Success(s);
    if effect.Failure? then Failure(effect.error)
    else
      RecalculateIdempotent(effect.value);
      Success(RecalculateMetrics(effect.value))
  }

  /** The figures a comparison reads from a state, each zero when absent. */
  datatype Figures = Figures(
    plantKwPerTr: real,
    chillerKwPerTr: real,
    deltaT: real,
    towerApproach: real,
    totalPlantPower: real,
    cop: real)

  function FiguresOf(s: PlantState): Figures {
    Figures(s.plantKwPerTr.GetOr(0.0), s.chillerKwPerTr.GetOr(0.0), s.deltaT.GetOr(0.0),
            s.towerApproach.GetOr(0.0), s.totalPlantPower.GetOr(0.0), s.cop.GetOr(0.0))
  }

  datatype Improvements = Improvements(
    plantKwPerTrChange: real,
    plantKwPerTrPct: real,
    powerSavingsKw: real,
    powerSavingsPct: real,
    copImprovement: real,
    deltaTChange: real,
    approachImprovement: real)

  /** Changes from live to twin: kW/TR and delta-T as twin less live, savings and approach as live less twin. */
  function ImprovementsOf(live: Figures, twin: Figures): (i: Improvements)
    ensures i.plantKwPerTrChange + live.plantKwPerTr == twin.plantKwPerTr
    ensures i.powerSavingsKw + twin.totalPlantPower == live.totalPlantPower
    ensures live.plantKwPerTr > 0.0 ==> i.plantKwPerTrPct * live.plantKwPerTr == 100.0 * i.plantKwPerTrChange
    ensures live.plantKwPerTr <= 0.0 ==> i.plantKwPerTrPct == 0.0
    ensures live.totalPlantPower > 0.0 ==> i.powerSavingsPct * live.totalPlantPower == 100.0 * i.powerSavingsKw
    ensures live.totalPlantPower <= 0.0 ==> i.powerSavingsPct == 0.0
    ensures i.copImprovement + live.cop == twin.cop
    ensures i.deltaTChange + live.deltaT == twin.deltaT
    ensures i.approachImprovement + twin.towerApproach == live.towerApproach
    ensures live == twin ==> i == Improvements(0.0, 0.0, 0.0, 0.0, 0.0, 0.0, 0.0)
  {
    var change := twin.plantKwPerTr - live.plantKwPerTr;
    var savings := live.totalPlantPower - twin.totalPlantPower;
    Improvements(
      change,
      if live.plantKwPerTr > 0.0 then change / live.plantKwPerTr * 100.0 else 0.0,
      savings,
      if live.totalPlantPower > 0.0 then savings / live.totalPlantPower * 100.0 else 0.0,
      twin.cop - live.cop,
      twin.deltaT - live.deltaT,
      live.towerApproach - twin.towerApproach)
  }

  datatype Verdict = Recommended | NotRecommended | Neutral

  /** Recommended when power falls and kW/TR falls; not recommended when power rises by more than 5 kW. */
  function VerdictOf(i: Improvements): (v: Verdict)
    ensures v == Recommended <==> i.powerSavingsKw > 0.0 && i.plantKwPerTrChange < 0.0
    ensures v == NotRecommended <==> !(i.powerSavingsKw > 0.0 && i.plantKwPerTrChange < 0.0) && i.powerSavingsKw < -5.0
    ensures v == Neutral <==> !(i.powerSavingsKw > 0.0 && i.plantKwPerTrChange < 0.0) && i.powerSavingsKw >= -5.0
  {
    if i.powerSavingsKw > 0.0 && i.plantKwPerTrChange < 0.0 then Recommended
    else if i.powerSavingsKw < -5.0 then NotRecommended
    else Neutral
  }

  datatype Comparison = Comparison(
    action: ControlAction,
    liveState: Figures,
    twinState: Figures,
    improvements: Improvements,
    recommendation: Verdict)

  /** Simulates the action and compares the predicted figures with the live ones. */
  function CompareLiveVsTwin(live: PlantState, a: ControlAction): (r: Result<Comparison, TwinError>)
    ensures r.Failure? <==> SimulateControlAction(live, a).Failure?
    ensures r.Success? ==>
              && r.value.action == a
              && r.value.liveState == FiguresOf(live)
              && r.value.twinState == FiguresOf(SimulateControlAction(live, a).value)
              && r.value.improvements == ImprovementsOf(r.value.liveState, r.value.twinState)
              && r.value.recommendation == VerdictOf(r.value.improvements)
  {
    var twin := SimulateControlAction(live, a);
    if twin.Failure? then Failure(twin.error)
    else
      var liveFigures := FiguresOf(live);
      var twinFigures := FiguresOf(twin.value);
      var improvements := ImprovementsOf(liveFigures, twinFigures);
      Success(Comparison(a, liveFigures, twinFigures, improvements, VerdictOf(improvements)))
  }

  /** A prediction identical to the live figures is neutral. */
  lemma NoChangeIsNeutral(f: Figures)
    ensures VerdictOf(ImprovementsOf(f, f)) == Neutral
  {
    assert ImprovementsOf(f, f).powerSavingsKw == 0.0;
  }

  // ---------------------------------------------------------------- scenario matrix

  datatype Scenario = Scenario(action: ControlAction, comparison: Comparison, score: real, rank: nat)

  /** Ten points per kW saved, a hundred per unit of kW/TR reduced, twenty per unit of COP, five per degree of approach. */
  function Score(i: Improvements): (score: real)
    ensures (i.powerSavingsKw >= 0.0 && i.plantKwPerTrChange <= 0.0 && i.copImprovement >= 0.0
             && i.approachImprovement >= 0.0) ==> score >= 0.0
    ensures i == Improvements(0.0, 0.0, 0.0, 0.0, 0.0, 0.0, 0.0) ==> score == 0.0
  {
    i.powerSavingsKw * 10.0 + i.plantKwPerTrChange * -100.0 + i.copImprovement * 20.0 + i.approachImprovement * 5.0
  }

  /** The unranked scenario for one action, or the simulation's failure. */
  function Evaluate(s: PlantState, a: ControlAction): (r: Result<Scenario, TwinError>)
    ensures r.Failure? <==> CompareLiveVsTwin(s, a).Failure?
    ensures r.Success? ==>
              r.value.action == a && r.value.rank == 0 && r.value.comparison == CompareLiveVsTwin(s, a).value
              && r.value.score == Score(r.value.comparison.improvements)
  {
    var c := CompareLiveVsTwin(s, a);
    if c.Failure? then Failure(c.error) else Success(Scenario(a, c.value, Score(c.value.improvements), 0))
  }

  predicate AllEvaluate(s: PlantState, actions: seq<ControlAction>) {
    forall k :: 0 <= k < |actions| ==> Evaluate(s, actions[k]).Success?
  }

  function Evaluations(s: PlantState, actions: seq<ControlAction>): (r: seq<Scenario>)
    requires AllEvaluate(s, actions)
    ensures |r| == |actions|
    ensures forall k :: 0 <= k < |r| ==> r[k] == Evaluate(s, actions[k]).value
  {
    seq(|actions|, k requires 0 <= k < |actions| => Evaluate(s, actions[k]).value)
  }

  predicate SortedByScore(xs: seq<Scenario>) {
    forall i, j :: 0 <= i < j < |xs| ==> xs[i].score >= xs[j].score
  }

  /** Inserts before the first scenario that scores lower, so equal scores keep their order. */
  function InsertByScore(x: Scenario, ys: seq<Scenario>): (r: seq<Scenario>)
    ensures |r| == |ys| + 1
    ensures multiset(r) == multiset(ys) + multiset{x}
    ensures r[0] == x || (ys != [] && r[0] == ys[0])
    ensures forall z :: z in r <==> z == x || z in ys
  {
    if ys == [] || x.score >= ys[0].score then [x] + ys
    else
      var rest := InsertByScore(x, ys[1..]);
      assert ys == [ys[0]] + ys[1..];
      [ys[0]] + rest
  }

  /** Inserting into a list ordered by score keeps it ordered. */
  lemma {:induction false} InsertKeepsOrder(x: Scenario, ys: seq<Scenario>)
    requires SortedByScore(ys)
    ensures SortedByScore(InsertByScore(x, ys))
  {
    if ys != [] && x.score < ys[0].score {
      var rest := InsertByScore(x, ys[1..]);
      InsertKeepsOrder(x, ys[1..]);
      forall z | z in rest
        ensures ys[0].score >= z.score
      {
        if z != x {
          var k :| 0 <= k < |ys[1..]| && ys[1..][k] == z;
          assert ys[k + 1] == z;
        }
      }
      ConsSorted(ys[0], rest);
    }
  }

  /** A scenario scoring at least every member of an ordered list can go in front of it. */
  lemma ConsSorted(h: Scenario, rest: seq<Scenario>)
    requires SortedByScore(rest)
    requires forall z :: z in rest ==> h.score >= z.score
    ensures SortedByScore([h] + rest)
  {
    var r := [h] + rest;
    forall i, j | 0 <= i < j < |r|
      ensures r[i].score >= r[j].score
    {
      assert r[j] == rest[j - 1];
      if i > 0 {
        assert r[i] == rest[i - 1];
      }
    }
  }

  /** Highest score first; a stable sort by score, highest first. */
  function SortByScore(xs: seq<Scenario>): (r: seq<Scenario>)
    ensures |r| == |xs|
    ensures multiset(r) == multiset(xs)
    ensures SortedByScore(r)
  {
    if xs == [] then []
    else
      assert xs == [xs[0]] + xs[1..];
      InsertKeepsOrder(xs[0], SortByScore(xs[1..]));
      InsertByScore(xs[0], SortByScore(xs[1..]))
  }

  function Unranked(xs: seq<Scenario>): (r: seq<Scenario>)
    ensures |r| == |xs|
  {
    seq(|xs|, k requires 0 <= k < |xs| => xs[k].(rank := 0))
  }

  datatype ScenarioMatrix = ScenarioMatrix(scenariosTested: nat, bestAction: Option<ControlAction>, allScenarios: seq<Scenario>)

  /** Evaluates every action in order, stopping at the first that cannot be simulated. */
  method EvaluateAll(s: PlantState, actions: seq<ControlAction>) returns (r: Result<seq<Scenario>, TwinError>)
    ensures r.Failure? <==> !AllEvaluate(s, actions)
    ensures r.Success? ==> r.value == Evaluations(s, actions)
  {
    var scenarios: seq<Scenario> := [];
    for i := 0 to |actions|
      invariant |scenarios| == i
      invariant forall k :: 0 <= k < i ==> Evaluate(s, actions[k]).Success? && scenarios[k] == Evaluate(s, actions[k]).value
    {
      var e := Evaluate(s, actions[i]);
      if e.Failure? {
        return Failure(e.error);
      }
      scenarios := scenarios + [e.value];
    }
    return Success(scenarios);
  }

  /** Numbers the scenarios 1, 2, ... in their order. */
  method AssignRanks(sorted: seq<Scenario>) returns (ranked: seq<Scenario>)
    ensures |ranked| == |sorted|
    ensures forall k :: 0 <= k < |ranked| ==> ranked[k] == sorted[k].(rank := k + 1)
  {
    ranked := sorted;
    for i := 0 to |ranked|
      invariant |ranked| == |sorted|
      invariant forall k :: 0 <= k < i ==> ranked[k] == sorted[k].(rank := k + 1)
      invariant forall k :: i <= k < |ranked| ==> ranked[k] == sorted[k]
    {
      ranked := ranked[i := ranked[i].(rank := i + 1)];
    }
  }

  /** Orders unranked scenarios from the highest score down and numbers them 1, 2, ... . */
  method RankByScore(scenarios: seq<Scenario>) returns (ranked: seq<Scenario>)
    requires forall k :: 0 <= k < |scenarios| ==> scenarios[k].rank == 0
    ensures |ranked| == |scenarios|
    ensures multiset(Unranked(ranked)) == multiset(scenarios)
    ensures SortedByScore(ranked)
    ensures forall k :: 0 <= k < |ranked| ==> ranked[k].rank == k + 1
  {
    var sorted := SortByScore(scenarios);
    forall k | 0 <= k < |sorted|
      ensures sorted[k].rank == 0
    {
      assert sorted[k] in multiset(scenarios);
    }
    ranked := AssignRanks(sorted);
    assert Unranked(ranked) == sorted;
  }

  /**
   * Evaluates every action (stopping at the first that cannot be simulated), orders the scenarios from the
   * highest score down and ranks them 1, 2, ... . The best action is the first scenario's.
   */
  method GenerateScenarioMatrix(s: PlantState, actions: seq<ControlAction>) returns (r: Result<ScenarioMatrix, TwinError>)
    ensures r.Failure? <==> !AllEvaluate(s, actions)
    ensures r.Success? ==>
              var all := r.value.allScenarios;
              && r.value.scenariosTested == |all| == |actions|
              && multiset(Unranked(all)) == multiset(Evaluations(s, actions))
              && SortedByScore(all)
              && (forall k :: 0 <= k < |all| ==> all[k].rank == k + 1)
              && (r.value.bestAction.Some? <==> |actions| > 0)
              && (r.value.bestAction.Some? ==>
                    r.value.bestAction.value == all[0].action
                    && forall k :: 0 <= k < |all| ==> all[k].score <= all[0].score)
  {
    var evaluated := EvaluateAll(s, actions);
    if evaluated.Failure? {
      return Failure(evaluated.error);
    }
    var ranked := RankByScore(evaluated.value);
    var best := if |ranked| > 0 then Some(ranked[0].action) else None;
    r := Success(ScenarioMatrix(|ranked|, best, ranked));
  }
}

=== FILE: manual_audit.dfy ===
/**
 * The manual audit calculator: the same formulas as the metric calculator applied to hand-entered values,
 * with no rejection (degenerate divisors fall back to infinity or zero), status bands, the energy and cost
 * chain, a diagnostic message and a list of recommendations.
 */
module ManualAudit {
  import opened Util
  import opened SensorData
  import Thermodynamics

  const SpecificHeatWater: real := 4.186
  const KwPerTon: real := 3.517
  const Co2Factor: real := 0.82
  const ChillerExcellent: real := 0.6
  const ChillerAverage: real := 0.8
  const PlantExcellent: real := 0.75
  const PlantAverage: real := 0.95
  const BaselinePlantKwPerTr: real := 0.85

  /** The values an auditor enters; the pump and fan powers may be left empty. */
  datatype ManualAuditInput = ManualAuditInput(
    chwSupplyTemp: real,
    chwReturnTemp: real,
    chwFlowRate: real,
    chillerPower: real,
    chwPumpPower: Option<real>,
    cwPumpPower: Option<real>,
    towerFanPower: Option<real>,
    condInletTemp: real,
    condOutletTemp: real,
    wetBulbTemp: real,
    operatingHoursPerDay: real,
    operatingDaysPerYear: real,
    electricityTariff: real)

  datatype DeltaTStatus = LowDeltaT | HealthyDeltaT | AcceptableDeltaT

  datatype TowerStatus = TowerCritical | TowerWarning | TowerExcellent

  datatype AuditRecommendation =
    | ReduceChwFlow
    | RaiseSupplySetpoint(byDegrees: real)
    | CleanTowerFill
    | CheckTowerFan
    | MaintainConditions
    | ContinueMonitoring
    | MonitorTrends
    | ScheduleTubeCleaning
    | InvestigateRefrigerant
    | CheckTowerRange(range: real)

  datatype DiagnosticPart =
    | HighPlantKwPerTr(plantKwPerTr: Extended)
    | ExpectedSavings(inrPerDay: real)
    | WorldClassPlant(plantKwPerTr: Extended)
    | GoodPlant(plantKwPerTr: Extended)

  /** The joined diagnostic parts, or the fallback message when there are none. */
  datatype DiagnosticMessage = Parts(parts: seq<DiagnosticPart>) | OperatingNormally

  datatype ManualAuditResult = ManualAuditResult(
    inputs: ManualAuditInput,
    coolingLoadKw: real,
    coolingCapacityTr: real,
    chillerKwPerTr: Extended,
    plantKwPerTr: Extended,
    cop: real,
    plantCop: real,
    deltaT: real,
    deltaTStatus: DeltaTStatus,
    towerRange: real,
    towerApproach: real,
    towerStatus: TowerStatus,
    chillerEfficiencyStatus: EfficiencyStatus,
    plantEfficiencyStatus: EfficiencyStatus,
    totalPlantPower: real,
    energyKwhPerDay: real,
    energyKwhPerMonth: real,
    energyKwhPerYear: real,
    costPerDay: real,
    costPerMonth: real,
    costPerYear: real,
    co2KgPerYear: real,
    diagnosticMessage: DiagnosticMessage,
    recommendations: seq<AuditRecommendation>,
    estimatedSavingsInrPerDay: Option<real>)

  /** Chiller band over a possibly infinite kW/TR: the metric calculator's band, and poor at infinity. */
  function ChillerBand(kwPerTr: Extended): (s: EfficiencyStatus)
    ensures kwPerTr.Finite? ==> s == Thermodynamics.ChillerStatus(kwPerTr.v)
    ensures kwPerTr.Infinity? ==> s == Poor
  {
    if kwPerTr.Below(ChillerExcellent) then Excellent
    else if kwPerTr.Below(ChillerAverage) then Average
    else Poor
  }

  /** Plant band over a possibly infinite kW/TR: the metric calculator's band, and poor at infinity. */
  function PlantBand(kwPerTr: Extended): (s: EfficiencyStatus)
    ensures kwPerTr.Finite? ==> s == Thermodynamics.PlantStatus(kwPerTr.v)
    ensures kwPerTr.Infinity? ==> s == Poor
  {
    if kwPerTr.Below(PlantExcellent) then Excellent
    else if kwPerTr.Below(PlantAverage) then Average
    else Poor
  }

  /** Below 4 degrees is low; 4 to 7 inclusive is healthy; above 7 is acceptable. */
  function DeltaTStatusOf(deltaT: real): (s: DeltaTStatus)
    ensures s == LowDeltaT <==> deltaT < 4.0
    ensures s == HealthyDeltaT <==> 4.0 <= deltaT <= 7.0
    ensures s == AcceptableDeltaT <==> deltaT > 7.0
  {
    if deltaT < 4.0 then LowDeltaT
    else if 4.0 <= deltaT <= 7.0 then HealthyDeltaT
    else AcceptableDeltaT
  }

  /** Above 6 degrees of approach is critical, above 4 a warning, otherwise excellent. */
  function TowerStatusOf(approach: real): (s: TowerStatus)
    ensures s == TowerCritical <==> approach > 6.0
    ensures s == TowerWarning <==> 4.0 < approach <= 6.0
    ensures s == TowerExcellent <==> approach <= 4.0
  {
    if approach > 6.0 then TowerCritical
    else if approach > 4.0 then TowerWarning
    else TowerExcellent
  }

  function TotalPlantPower(input: ManualAuditInput): real {
    input.chillerPower + input.chwPumpPower.GetOr(0.0) + input.cwPumpPower.GetOr(0.0) + input.towerFanPower.GetOr(0.0)
  }

  /** Advice that only the plant band gives. */
  predicate IsBandAdvice(rec: AuditRecommendation) {
    !(rec.ScheduleTubeCleaning? || rec.InvestigateRefrigerant? || rec.CheckTowerRange?)
  }

  /** A ratio that becomes infinite when the divisor is not positive. */
  function RatioOrInfinity(num: real, den: real): (r: Extended)
    ensures r.Infinity? <==> den <= 0.0
    ensures r.Finite? ==> r.v * den == num
  {
    if den > 0.0 then Finite(num / den) else Infinity
  }

  /** A ratio that becomes zero when the divisor is not positive. */
  function RatioOrZero(num: real, den: real): (r: real)
    ensures den <= 0.0 ==> r == 0.0
    ensures den > 0.0 ==> r * den == num
  {
    if den > 0.0 then num / den else 0.0
  }

  /** The daily saving if the plant ran at the 0.85 kW/TR baseline for the same capacity. */
  function SavingsPerDay(total: real, tr: real, hours: real, tariff: real): real {
    (total - BaselinePlantKwPerTr * tr) * hours * tariff
  }

  /** What the audit concludes from the plant figures: a diagnostic message, advice and the daily saving. */
  datatype Advice = Advice(message: DiagnosticMessage, recommendations: seq<AuditRecommendation>, savings: Option<real>)

  /**
   * The advice of the plant band, in the calculator's order. Above 0.95 kW/TR: reduce the flow below 4
   * degrees of delta-T, raise the supply setpoint to 7 degrees when supply is below 6, and clean the tower
   * fill and check the tower fan above 4 degrees of approach. Below 0.75: keep the conditions and keep
   * monitoring. Otherwise: monitor the trends.
   */
  function BandAdvice(plantKwPerTr: Extended, deltaT: real, supplyTemp: real, approach: real)
    : seq<AuditRecommendation>
  {
    if plantKwPerTr.Above(PlantAverage) then HighBandAdvice(deltaT, supplyTemp, approach)
    else if plantKwPerTr.Below(PlantExcellent) then
      [MaintainConditions, ContinueMonitoring]
    else
      [MonitorTrends]
  }

  /**
   * The diagnostic parts of the plant band, in the calculator's order: above 0.95 kW/TR the high-kW/TR
   * warning, followed by the daily saving when the plant is also above the 0.85 baseline; below 0.75 the
   * world-class note; otherwise the good note. Only the first band reads the saving.
   */
  function BandMessage(plantKwPerTr: Extended, perDay: real): seq<DiagnosticPart> {
    if plantKwPerTr.Above(PlantAverage) then
      if plantKwPerTr.Above(BaselinePlantKwPerTr) then [HighPlantKwPerTr(plantKwPerTr), ExpectedSavings(perDay)]
      else [HighPlantKwPerTr(plantKwPerTr)]
    else if plantKwPerTr.Below(PlantExcellent) then
      [WorldClassPlant(plantKwPerTr)]
    else
      [GoodPlant(plantKwPerTr)]
  }

  /**
   * Each band writes its own tag first, about the plant kW/TR, and the saving is the second and last part
   * exactly above 0.95.
   */
  lemma BandMessageExactly(plantKwPerTr: Extended, perDay: real)
    ensures var ps := BandMessage(plantKwPerTr, perDay);
            && 1 <= |ps| <= 2
            && (ps[0].HighPlantKwPerTr? <==> plantKwPerTr.Above(PlantAverage))
            && (ps[0].WorldClassPlant? <==> plantKwPerTr.Below(PlantExcellent))
            && (ps[0].GoodPlant? <==> !plantKwPerTr.Above(PlantAverage) && !plantKwPerTr.Below(PlantExcellent))
            && !ps[0].ExpectedSavings? && ps[0].plantKwPerTr == plantKwPerTr
            && (|ps| == 2 <==> plantKwPerTr.Above(PlantAverage))
            && (|ps| == 2 ==> ps[1] == ExpectedSavings(perDay))
  {
    if plantKwPerTr.Above(PlantAverage) {
      assert plantKwPerTr.Above(BaselinePlantKwPerTr);
      assert !plantKwPerTr.Below(PlantExcellent);
    }
  }

  /** The advice above 0.95 kW/TR: flow, then setpoint, then the tower fill and fan. */
  function HighBandAdvice(deltaT: real, supplyTemp: real, approach: real): seq<AuditRecommendation> {
    (if deltaT < 4.0 then [ReduceChwFlow] else [])
    + (if supplyTemp < 6.0 then [RaiseSupplySetpoint(7.0 - supplyTemp)] else [])
    + (if approach > 4.0 then [CleanTowerFill, CheckTowerFan] else [])
  }

  lemma HighBandAdviceExactly(deltaT: real, supplyTemp: real, approach: real)
    ensures var rs := HighBandAdvice(deltaT, supplyTemp, approach);
            && (ReduceChwFlow in rs <==> deltaT < 4.0)
            && (forall deg :: RaiseSupplySetpoint(deg) in rs <==> supplyTemp < 6.0 && deg == 7.0 - supplyTemp)
            && (CleanTowerFill in rs <==> approach > 4.0)
            && (CheckTowerFan in rs <==> approach > 4.0)
            && MaintainConditions !in rs && ContinueMonitoring !in rs && MonitorTrends !in rs
            && (forall x :: x in rs ==> IsBandAdvice(x))
  {
  }

  /**
   * The advice that follows the band advice: tube cleaning above 0.8 chiller kW/TR, a refrigerant check
   * below a COP of 4, and a tower range check when the range is outside 4 to 8 degrees.
   */
  function FollowingAdvice(chillerKwPerTr: Extended, cop: real, range: real): seq<AuditRecommendation>
  {
    (if chillerKwPerTr.Above(ChillerAverage) then [ScheduleTubeCleaning] else [])
    + (if cop < 4.0 then [InvestigateRefrigerant] else [])
    + (if range < 4.0 || range > 8.0 then [CheckTowerRange(range)] else [])
  }

  /** Each item of the band advice is given exactly when its band and its condition hold. */
  lemma BandAdviceExactly(plantKwPerTr: Extended, deltaT: real, supplyTemp: real, approach: real)
    ensures var rs := BandAdvice(plantKwPerTr, deltaT, supplyTemp, approach);
            && (ReduceChwFlow in rs <==> plantKwPerTr.Above(PlantAverage) && deltaT < 4.0)
            && (forall deg :: RaiseSupplySetpoint(deg) in rs <==>
                  plantKwPerTr.Above(PlantAverage) && supplyTemp < 6.0 && deg == 7.0 - supplyTemp)
            && (CleanTowerFill in rs <==> plantKwPerTr.Above(PlantAverage) && approach > 4.0)
            && (CheckTowerFan in rs <==> plantKwPerTr.Above(PlantAverage) && approach > 4.0)
            && (MaintainConditions in rs <==> plantKwPerTr.Below(PlantExcellent))
            && (ContinueMonitoring in rs <==> plantKwPerTr.Below(PlantExcellent))
            && (MonitorTrends in rs <==> !plantKwPerTr.Above(PlantAverage) && !plantKwPerTr.Below(PlantExcellent))
            && (plantKwPerTr.Below(PlantExcellent) ==> rs[..2] == [MaintainConditions, ContinueMonitoring])
            && (forall x :: x in rs ==> IsBandAdvice(x))
  {
    var rs := BandAdvice(plantKwPerTr, deltaT, supplyTemp, approach);
    if plantKwPerTr.Above(PlantAverage) {
      HighBandAdviceExactly(deltaT, supplyTemp, approach);
      assert !plantKwPerTr.Below(PlantExcellent);
    } else if plantKwPerTr.Below(PlantExcellent) {
      assert rs == [MaintainConditions, ContinueMonitoring];
    } else {
      assert rs == [MonitorTrends];
    }
  }

  /** Each item of the chiller and range advice is given exactly when its condition holds. */
  lemma FollowingAdviceExactly(chillerKwPerTr: Extended, cop: real, range: real)
    ensures var rs := FollowingAdvice(chillerKwPerTr, cop, range);
            && (ScheduleTubeCleaning in rs <==> chillerKwPerTr.Above(ChillerAverage))
            && (InvestigateRefrigerant in rs <==> cop < 4.0)
            && (forall x :: CheckTowerRange(x) in rs <==> (range < 4.0 || range > 8.0) && x == range)
            && (forall x :: x in rs ==> !IsBandAdvice(x))
  {
  }

  /**
   * The audit's advice is the band advice followed by the chiller and range advice: each item is given
   * exactly when its condition holds, and the band advice comes first.
   */
  lemma AuditAdviceExactly(plantKwPerTr: Extended, chillerKwPerTr: Extended, cop: real, deltaT: real,
                           supplyTemp: real, approach: real, range: real)
    ensures var band := BandAdvice(plantKwPerTr, deltaT, supplyTemp, approach);
            var rs := band + FollowingAdvice(chillerKwPerTr, cop, range);
            && (ReduceChwFlow in rs <==> plantKwPerTr.Above(PlantAverage) && deltaT < 4.0)
            && (forall deg :: RaiseSupplySetpoint(deg) in rs <==>
                  plantKwPerTr.Above(PlantAverage) && supplyTemp < 6.0 && deg == 7.0 - supplyTemp)
            && (CleanTowerFill in rs <==> plantKwPerTr.Above(PlantAverage) && approach > 4.0)
            && (CheckTowerFan in rs <==> plantKwPerTr.Above(PlantAverage) && approach > 4.0)
            && (MaintainConditions in rs <==> plantKwPerTr.Below(PlantExcellent))
            && (ContinueMonitoring in rs <==> plantKwPerTr.Below(PlantExcellent))
            && (MonitorTrends in rs <==> !plantKwPerTr.Above(PlantAverage) && !plantKwPerTr.Below(PlantExcellent))
            && (ScheduleTubeCleaning in rs <==> chillerKwPerTr.Above(ChillerAverage))
            && (InvestigateRefrigerant in rs <==> cop < 4.0)
            && (forall x :: CheckTowerRange(x) in rs <==> (range < 4.0 || range > 8.0) && x == range)
            && (plantKwPerTr.Below(PlantExcellent) ==> rs[..2] == [MaintainConditions, ContinueMonitoring])
  {
    var band := BandAdvice(plantKwPerTr, deltaT, supplyTemp, approach);
    var rest := FollowingAdvice(chillerKwPerTr, cop, range);
    FollowingAdviceExactly(chillerKwPerTr, cop, range);
    BandItemsOfAudit(plantKwPerTr, deltaT, supplyTemp, approach, rest);
    BandAdviceExactly(plantKwPerTr, deltaT, supplyTemp, approach);
    FollowingItemsOfAudit(band, chillerKwPerTr, cop, range);
  }

  /** The band items of the audit list are those of the band advice, whatever follows it. */
  lemma BandItemsOfAudit(plantKwPerTr: Extended, deltaT: real, supplyTemp: real, approach: real,
                         rest: seq<AuditRecommendation>)
    requires forall x :: x in rest ==> !IsBandAdvice(x)
    ensures var rs := BandAdvice(plantKwPerTr, deltaT, supplyTemp, approach) + rest;
            && (ReduceChwFlow in rs <==> plantKwPerTr.Above(PlantAverage) && deltaT < 4.0)
            && (forall deg :: RaiseSupplySetpoint(deg) in rs <==>
                  plantKwPerTr.Above(PlantAverage) && supplyTemp < 6.0 && deg == 7.0 - supplyTemp)
            && (CleanTowerFill in rs <==> plantKwPerTr.Above(PlantAverage) && approach > 4.0)
            && (CheckTowerFan in rs <==> plantKwPerTr.Above(PlantAverage) && approach > 4.0)
            && (MaintainConditions in rs <==> plantKwPerTr.Below(PlantExcellent))
            && (ContinueMonitoring in rs <==> plantKwPerTr.Below(PlantExcellent))
            && (MonitorTrends in rs <==> !plantKwPerTr.Above(PlantAverage) && !plantKwPerTr.Below(PlantExcellent))
            && (plantKwPerTr.Below(PlantExcellent) ==> rs[..2] == [MaintainConditions, ContinueMonitoring])
  {
    var band := BandAdvice(plantKwPerTr, deltaT, supplyTemp, approach);
    BandAdviceExactly(plantKwPerTr, deltaT, supplyTemp, approach);
    if plantKwPerTr.Below(PlantExcellent) {
      assert (band + rest)[..2] == band[..2];
    }
  }

  /** The chiller and range items of the audit list are those of the following advice. */
  lemma FollowingItemsOfAudit(band: seq<AuditRecommendation>, chillerKwPerTr: Extended, cop: real, range: real)
    requires forall x :: x in band ==> IsBandAdvice(x)
    ensures var rs := band + FollowingAdvice(chillerKwPerTr, cop, range);
            && (ScheduleTubeCleaning in rs <==> chillerKwPerTr.Above(ChillerAverage))
            && (InvestigateRefrigerant in rs <==> cop < 4.0)
            && (forall x :: CheckTowerRange(x) in rs <==> (range < 4.0 || range > 8.0) && x == range)
  {
    FollowingAdviceExactly(chillerKwPerTr, cop, range);
  }

  /**
   * The advice that depends on the plant band: above 0.95 kW/TR the flow, setpoint and tower advice and the
   * daily saving against the baseline; below 0.75 the advice to keep things as they are; otherwise to
   * monitor trends. Each band writes exactly one diagnostic part, plus the saving above 0.95.
   */
  method PlantBandAdvice(plantKwPerTr: Extended, deltaT: real, supplyTemp: real, approach: real,
                         total: real, tr: real, hours: real, tariff: real)
    returns (parts: seq<DiagnosticPart>, recommendations: seq<AuditRecommendation>, savings: Option<real>)
    ensures 1 <= |parts| <= 2
    ensures savings.Some? <==> plantKwPerTr.Above(PlantAverage)
    ensures savings.Some? ==> savings.value == SavingsPerDay(total, tr, hours, tariff)
    ensures recommendations == BandAdvice(plantKwPerTr, deltaT, supplyTemp, approach)
    ensures parts == BandMessage(plantKwPerTr, SavingsPerDay(total, tr, hours, tariff))
    ensures parts[0] == (if plantKwPerTr.Above(PlantAverage) then HighPlantKwPerTr(plantKwPerTr)
                         else if plantKwPerTr.Below(PlantExcellent) then WorldClassPlant(plantKwPerTr)
                         else GoodPlant(plantKwPerTr))
    ensures |parts| == 2 <==> savings.Some?
    ensures savings.Some? ==> parts[1] == ExpectedSavings(savings.value)
  {
    recommendations := [];
    savings := None;
    parts := [];
    if plantKwPerTr.Above(PlantAverage) {
      parts := parts + [HighPlantKwPerTr(plantKwPerTr)];
      if deltaT < 4.0 {
        recommendations := recommendations + [ReduceChwFlow];
      }
      if supplyTemp < 6.0 {
        recommendations := recommendations + [RaiseSupplySetpoint(7.0 - supplyTemp)];
      }
      if approach > 4.0 {
        recommendations := recommendations + [CleanTowerFill];
        recommendations := recommendations + [CheckTowerFan];
      }
      if plantKwPerTr.Above(BaselinePlantKwPerTr) {
        var perDay := SavingsPerDay(total, tr, hours, tariff);
        savings := Some(perDay);
        parts := parts + [ExpectedSavings(perDay)];
      }
    } else if plantKwPerTr.Below(PlantExcellent) {
      parts := parts + [WorldClassPlant(plantKwPerTr)];
      recommendations := recommendations + [MaintainConditions];
      recommendations := recommendations + [ContinueMonitoring];
    } else {
      parts := parts + [GoodPlant(plantKwPerTr)];
      recommendations := recommendations + [MonitorTrends];
    }
  }

  /**
   * The diagnosis and advice. Every plant band writes a diagnostic part, so the fallback message never
   * appears; a daily saving is computed only above the 0.95 plant band and is dropped when it is zero.
   * The tube-cleaning, refrigerant and tower-range advice follow the band advice.
   */
  method Advise(plantKwPerTr: Extended, chillerKwPerTr: Extended, cop: real, deltaT: real, supplyTemp: real,
                approach: real, range: real, total: real, tr: real, hours: real, tariff: real)
    returns (a: Advice)
    ensures a.savings.Some? ==>
              && plantKwPerTr.Above(PlantAverage)
              && a.savings.value != 0.0
              && a.savings.value == SavingsPerDay(total, tr, hours, tariff)
    ensures plantKwPerTr.Above(PlantAverage) && SavingsPerDay(total, tr, hours, tariff) != 0.0 ==>
              a.savings.Some?
    ensures a.message.Parts? && |a.message.parts| >= 1
    ensures !plantKwPerTr.Above(PlantAverage) ==> a.message == Parts(BandMessage(plantKwPerTr, 0.0))
    ensures plantKwPerTr.Above(PlantAverage) ==>
              a.message == Parts(BandMessage(plantKwPerTr, SavingsPerDay(total, tr, hours, tariff)))
    ensures a.recommendations == BandAdvice(plantKwPerTr, deltaT, supplyTemp, approach)
                                 + FollowingAdvice(chillerKwPerTr, cop, range)
  {
    var parts, recommendations, savings := PlantBandAdvice(plantKwPerTr, deltaT, supplyTemp, approach,
                                                           total, tr, hours, tariff);
    var extra := ChillerAndRangeAdvice(chillerKwPerTr, cop, range);
    var all := recommendations + extra;

    var message := if |parts| > 0 then Parts(parts) else OperatingNormally;
    var reported := if savings.Some? && savings.value != 0.0 then savings else None;
    a := Advice(message, all, reported);
  }

  /** The advice that follows the band advice: tube cleaning, a refrigerant check and the tower range. */
  method ChillerAndRangeAdvice(chillerKwPerTr: Extended, cop: real, range: real)
    returns (recommendations: seq<AuditRecommendation>)
    ensures recommendations == FollowingAdvice(chillerKwPerTr, cop, range)
  {
    recommendations := [];
    if chillerKwPerTr.Above(ChillerAverage) {
      recommendations := recommendations + [ScheduleTubeCleaning];
    }
    if cop < 4.0 {
      recommendations := recommendations + [InvestigateRefrigerant];
    }
    if range < 4.0 || range > 8.0 {
      recommendations := recommendations + [CheckTowerRange(range)];
    }
  }

  /** The chiller power plus each auxiliary power that was entered and is non-zero. */
  method AccumulateTotalPower(input: ManualAuditInput) returns (total: real)
    ensures total == TotalPlantPower(input)
  {
    total := input.chillerPower;
    if Truthy(input.chwPumpPower) {
      total := total + input.chwPumpPower.value;
    }
    if Truthy(input.cwPumpPower) {
      total := total + input.cwPumpPower.value;
    }
    if Truthy(input.towerFanPower) {
      total := total + input.towerFanPower.value;
    }
  }

  /**
   * The audit of one set of inputs. No input is rejected: a non-positive capacity gives an infinite kW/TR and
   * non-positive powers give a zero COP. The auxiliary powers count only when present and non-zero.
   */
  method CalculateAudit(input: ManualAuditInput) returns (res: ManualAuditResult)
    ensures res.inputs == input
    ensures res.deltaT == input.chwReturnTemp - input.chwSupplyTemp
    ensures res.coolingLoadKw == SpecificHeatWater * input.chwFlowRate * res.deltaT
    ensures res.coolingCapacityTr * KwPerTon == res.coolingLoadKw
    ensures res.chillerKwPerTr.Infinity? <==> res.coolingCapacityTr <= 0.0
    ensures res.chillerKwPerTr.Finite? ==> res.chillerKwPerTr.v * res.coolingCapacityTr == input.chillerPower
    ensures res.plantKwPerTr.Infinity? <==> res.coolingCapacityTr <= 0.0
    ensures res.plantKwPerTr.Finite? ==> res.plantKwPerTr.v * res.coolingCapacityTr == res.totalPlantPower
    ensures input.chillerPower <= 0.0 ==> res.cop == 0.0
    ensures input.chillerPower > 0.0 ==> res.cop * input.chillerPower == res.coolingLoadKw
    ensures res.totalPlantPower <= 0.0 ==> res.plantCop == 0.0
    ensures res.totalPlantPower > 0.0 ==> res.plantCop * res.totalPlantPower == res.coolingLoadKw
    ensures res.totalPlantPower == TotalPlantPower(input)
    ensures res.chillerEfficiencyStatus == ChillerBand(res.chillerKwPerTr)
    ensures res.plantEfficiencyStatus == PlantBand(res.plantKwPerTr)
    ensures res.deltaTStatus == DeltaTStatusOf(res.deltaT)
    ensures res.towerRange == input.condInletTemp - input.condOutletTemp
    ensures res.towerApproach == input.condOutletTemp - input.wetBulbTemp
    ensures res.towerStatus == TowerStatusOf(res.towerApproach)
    ensures res.energyKwhPerDay == res.totalPlantPower * input.operatingHoursPerDay
    ensures res.energyKwhPerMonth == res.energyKwhPerDay * 30.0
    ensures res.energyKwhPerYear == res.energyKwhPerDay * input.operatingDaysPerYear
    ensures res.costPerDay == res.energyKwhPerDay * input.electricityTariff
    ensures res.costPerMonth == res.costPerDay * 30.0
    ensures res.costPerYear == res.energyKwhPerYear * input.electricityTariff
    ensures res.co2KgPerYear == res.energyKwhPerYear * Co2Factor
    ensures res.estimatedSavingsInrPerDay.Some? ==>
              && res.plantKwPerTr.Above(PlantAverage)
              && res.estimatedSavingsInrPerDay.value
                 == SavingsPerDay(res.totalPlantPower, res.coolingCapacityTr,
                                  input.operatingHoursPerDay, input.electricityTariff)
    ensures res.plantKwPerTr.Above(PlantAverage) && res.plantKwPerTr.Finite?
            && input.operatingHoursPerDay > 0.0 && input.electricityTariff > 0.0 ==>
              res.estimatedSavingsInrPerDay.Some? && res.estimatedSavingsInrPerDay.value > 0.0
    ensures res.diagnosticMessage.Parts? && |res.diagnosticMessage.parts| >= 1
    ensures !res.plantKwPerTr.Above(PlantAverage) ==> res.diagnosticMessage == Parts(BandMessage(res.plantKwPerTr, 0.0))
    ensures res.plantKwPerTr.Above(PlantAverage) ==>
              res.diagnosticMessage
              == Parts(BandMessage(res.plantKwPerTr, SavingsPerDay(res.totalPlantPower, res.coolingCapacityTr,
                                                                   input.operatingHoursPerDay, input.electricityTariff)))
    ensures res.recommendations == BandAdvice(res.plantKwPerTr, res.deltaT, input.chwSupplyTemp, res.towerApproach)
                                   + FollowingAdvice(res.chillerKwPerTr, res.cop, res.towerRange)
  {
    var deltaT := input.chwReturnTemp - input.chwSupplyTemp;
    var load := SpecificHeatWater * input.chwFlowRate * deltaT;
    var tr := load / KwPerTon;

    var chillerKwPerTr := RatioOrInfinity(input.chillerPower, tr);
    var cop := RatioOrZero(load, input.chillerPower);

    var total := AccumulateTotalPower(input);
    var plantKwPerTr := RatioOrInfinity(total, tr);
    var plantCop := RatioOrZero(load, total);

    var range := input.condInletTemp - input.condOutletTemp;
    var approach := input.condOutletTemp - input.wetBulbTemp;

    var energyPerDay := total * input.operatingHoursPerDay;
    var energyPerYear := energyPerDay * input.operatingDaysPerYear;
    var costPerDay := energyPerDay * input.electricityTariff;

    var advice := Advise(plantKwPerTr, chillerKwPerTr, cop, deltaT, input.chwSupplyTemp, approach, range,
                         total, tr, input.operatingHoursPerDay, input.electricityTariff);
    SavingsReported(plantKwPerTr, total, tr, input.operatingHoursPerDay, input.electricityTariff, advice.savings);

    res := ManualAuditResult(
      input, load, tr, chillerKwPerTr, plantKwPerTr, cop, plantCop, deltaT, DeltaTStatusOf(deltaT),
      range, approach, TowerStatusOf(approach), ChillerBand(chillerKwPerTr), PlantBand(plantKwPerTr),
      total, energyPerDay, energyPerDay * 30.0, energyPerYear, costPerDay, costPerDay * 30.0,
      energyPerYear * input.electricityTariff, energyPerYear * Co2Factor,
      advice.message, advice.recommendations, advice.savings);
  }

  /** A saving reported above the 0.95 band, with positive hours and tariff, is positive. */
  lemma SavingsReported(plantKwPerTr: Extended, total: real, tr: real, hours: real, tariff: real,
                        reported: Option<real>)
    requires plantKwPerTr.Finite? ==> tr > 0.0 && plantKwPerTr.v * tr == total
    requires plantKwPerTr.Above(PlantAverage) && SavingsPerDay(total, tr, hours, tariff) != 0.0 ==> reported.Some?
    requires reported.Some? ==> reported.value == SavingsPerDay(total, tr, hours, tariff)
    ensures plantKwPerTr.Above(PlantAverage) && plantKwPerTr.Finite? && hours > 0.0 && tariff > 0.0 ==>
              reported.Some? && reported.value > 0.0
  {
    if plantKwPerTr.Finite? {
      SavingsPositive(total, tr, plantKwPerTr.v, hours, tariff);
    }
  }

  /** Above the 0.95 band the plant draws more than the 0.85 baseline would, so the daily saving is positive. */
  lemma SavingsPositive(total: real, tr: real, plantKwPerTr: real, hours: real, tariff: real)
    requires tr > 0.0 && plantKwPerTr * tr == total
    ensures plantKwPerTr > PlantAverage && hours > 0.0 && tariff > 0.0 ==>
              SavingsPerDay(total, tr, hours, tariff) > 0.0
  {
    if plantKwPerTr > PlantAverage && hours > 0.0 && tariff > 0.0 {
      Thermodynamics.AboveRatio(total, tr, BaselinePlantKwPerTr);
      var gap := total - BaselinePlantKwPerTr * tr;
      assert gap > 0.0;
      assert gap * hours > 0.0;
    }
  }
}

=== FILE: ml_engine.dfy ===
/**
 * The glue around the learned models: which batch records become training samples, the trained/untrained gate,
 * the z-score anomaly decision, the COP derived from a predicted kW/TR and the rule-based optimisation advice.
 * The regressors, the isolation forest and the feature scaler are outside the model: their outputs (the R2
 * scores, the predictions, the isolation label and score, the standard deviation) are parameters.
 */
module MachineLearning {
  import opened Util
  import opened SensorData
  import opened Thermodynamics

  const MinimumTrainingSamples: nat := 20
  const ZScoreThreshold: real := 3.0
  const XgbConfidence: real := 0.85
  const ForestConfidence: real := 0.80
  const KwPerTon: real := 3.517

  /** The five model inputs of a sample, in the order the models see them. */
  datatype FeatureRow = FeatureRow(
    chwSupplyTemp: real,
    chwReturnTemp: real,
    chwFlowRate: real,
    ambientTemp: real,
    coolingLoadKw: real)

  /** A record is a training sample when the calculator accepted it and its kW/TR is positive. */
  predicate Usable(r: BatchRecord) {
    r.ValidRecord? && r.metrics.kwPerTr > 0.0
  }

  function RowOf(r: BatchRecord): FeatureRow
    requires r.ValidRecord?
  {
    FeatureRow(r.reading.chwSupplyTemp, r.reading.chwReturnTemp, r.reading.chwFlowRate, r.reading.ambientTemp,
               r.metrics.coolingLoadKw)
  }

  /** The usable records, in their original order. */
  function UsableRecords(data: seq<BatchRecord>): (u: seq<BatchRecord>)
    ensures |u| <= |data|
    ensures forall k :: 0 <= k < |u| ==> Usable(u[k])
  {
    if |data| == 0 then []
    else
      var last := data[|data| - 1];
      UsableRecords(data[..|data| - 1]) + (if Usable(last) then [last] else [])
  }

  /** Exactly the usable records survive the filter: every survivor comes from the data, and no usable record is lost. */
  lemma {:induction false} UsableRecordsExactly(data: seq<BatchRecord>, r: BatchRecord)
    ensures r in UsableRecords(data) <==> r in data && Usable(r)
  {
    if |data| > 0 {
      var init := data[..|data| - 1];
      UsableRecordsExactly(init, r);
      assert data == init + [data[|data| - 1]];
    }
  }

  /** The kW/TR targets paired, position by position, with the usable records. */
  function TargetsOf(data: seq<BatchRecord>): (t: seq<real>)
    ensures |t| == |UsableRecords(data)|
    ensures forall k :: 0 <= k < |t| ==> t[k] > 0.0
  {
    var u := UsableRecords(data);
    seq(|u|, k requires 0 <= k < |u| => u[k].metrics.kwPerTr)
  }

  /**
   * Builds the feature rows and the targets: one pair per usable record, in input order, the row holding the
   * record's temperatures, flow, ambient and cooling load and the target its kW/TR.
   */
  method PrepareFeatures(data: seq<BatchRecord>) returns (features: seq<FeatureRow>, targets: seq<real>)
    ensures |features| == |UsableRecords(data)|
    ensures targets == TargetsOf(data)
    ensures forall k :: 0 <= k < |features| ==> features[k] == RowOf(UsableRecords(data)[k])
  {
    features := [];
    targets := [];
    for i := 0 to |data|
      invariant |features| == |targets| == |UsableRecords(data[..i])|
      invariant forall k :: 0 <= k < |features| ==>
                  features[k] == RowOf(UsableRecords(data[..i])[k])
                  && targets[k] == UsableRecords(data[..i])[k].metrics.kwPerTr
    {
      assert data[..i + 1][..i] == data[..i];
      if Usable(data[i]) {
        features := features + [RowOf(data[i])];
        targets := targets + [data[i].metrics.kwPerTr];
      }
    }
    assert data[..|data|] == data;
  }

  function Sum(xs: seq<real>): real {
    if |xs| == 0 then 0.0 else Sum(xs[..|xs| - 1]) + xs[|xs| - 1]
  }

  /** The arithmetic mean; zero for no values. */
  function Mean(xs: seq<real>): real {
    if |xs| == 0 then 0.0 else Sum(xs) / |xs| as real
  }

  function SquaredDeviations(xs: seq<real>, m: real): real {
    if |xs| == 0 then 0.0
    else SquaredDeviations(xs[..|xs| - 1], m) + (xs[|xs| - 1] - m) * (xs[|xs| - 1] - m)
  }

  /** The population variance (the square of the standard deviation the training statistics keep). */
  function Variance(xs: seq<real>): real {
    if |xs| == 0 then 0.0 else SquaredDeviations(xs, Mean(xs)) / |xs| as real
  }

  lemma {:induction false} SumOfPositives(xs: seq<real>)
    requires |xs| > 0
    requires forall k :: 0 <= k < |xs| ==> xs[k] > 0.0
    ensures Sum(xs) > 0.0
  {
    if |xs| > 1 {
      SumOfPositives(xs[..|xs| - 1]);
    }
  }

  /** The mean of positive targets is positive. */
  lemma MeanOfPositives(xs: seq<real>)
    requires |xs| > 0
    requires forall k :: 0 <= k < |xs| ==> xs[k] > 0.0
    ensures Mean(xs) > 0.0
  {
    SumOfPositives(xs);
  }

  lemma {:induction false} SquaredDeviationsNonNegative(xs: seq<real>, m: real)
    ensures SquaredDeviations(xs, m) >= 0.0
  {
    if |xs| > 0 {
      SquaredDeviationsNonNegative(xs[..|xs| - 1], m);
      var d := xs[|xs| - 1] - m;
      assert d * d >= 0.0;
    }
  }

  /** The variance is never negative, so it has a real standard deviation. */
  lemma VarianceNonNegative(xs: seq<real>)
    ensures Variance(xs) >= 0.0
  {
    if |xs| > 0 {
      SquaredDeviationsNonNegative(xs, Mean(xs));
    }
  }

  /** What training keeps for the z-score test. */
  datatype TrainingStats = TrainingStats(kwPerTrMean: real, kwPerTrStd: real, sampleCount: nat)

  /** What a training run reports; the R2 scores come from the fitted regressors. */
  datatype TrainingSummary = TrainingSummary(xgbR2Score: real, forestR2Score: real, trainingSamples: nat,
                                             meanKwPerTr: real)

  datatype MLError = InsufficientTrainingData | ModelsNotTrained

  /** How many standard deviations a kW/TR lies from the training mean; zero when the deviation is zero. */
  function ZScoreOf(kwPerTr: real, stats: TrainingStats): (z: real)
    ensures z >= 0.0
  {
    if stats.kwPerTrStd > 0.0 then Abs((kwPerTr - stats.kwPerTrMean) / stats.kwPerTrStd) else 0.0
  }

  function Abs(x: real): real {
    if x < 0.0 then -x else x
  }

  /**
   * A z-score above 3 means a kW/TR more than three standard deviations above or below the training mean; a plant
   * with no spread in its training targets never raises a z-score anomaly.
   */
  lemma ZScoreBeyondThree(kwPerTr: real, stats: TrainingStats)
    ensures ZScoreOf(kwPerTr, stats) > ZScoreThreshold <==>
              stats.kwPerTrStd > 0.0
              && (kwPerTr > stats.kwPerTrMean + 3.0 * stats.kwPerTrStd
                  || kwPerTr < stats.kwPerTrMean - 3.0 * stats.kwPerTrStd)
  {
    var s := stats.kwPerTrStd;
    if s > 0.0 {
      var d := kwPerTr - stats.kwPerTrMean;
      QuotientAboveThree(d, s);
      QuotientBelowMinusThree(d, s);
    }
  }

  /** For a positive divisor, a quotient above 3 means a numerator above three divisors. */
  lemma QuotientAboveThree(d: real, s: real)
    requires s > 0.0
    ensures d / s > 3.0 <==> d > 3.0 * s
  {
    assert (d / s) * s == d;
    if d / s > 3.0 {
      assert (d / s - 3.0) * s > 0.0;
    }
    if d > 3.0 * s {
      assert (d / s - 3.0) * s > 0.0;
    }
  }

  /** For a positive divisor, a quotient below -3 means a numerator below minus three divisors. */
  lemma QuotientBelowMinusThree(d: real, s: real)
    requires s > 0.0
    ensures d / s < -3.0 <==> d < -3.0 * s
  {
    assert (d / s) * s == d;
    if d / s < -3.0 {
      assert (-3.0 - d / s) * s > 0.0;
    }
    if d < -3.0 * s {
      assert (-3.0 - d / s) * s > 0.0;
    }
  }

  /** A kW/TR at the training mean is never a z-score anomaly. */
  lemma AtTheMeanNoZScore(stats: TrainingStats)
    ensures ZScoreOf(stats.kwPerTrMean, stats) == 0.0
  {
  }

  /** The COP implied by a predicted kW/TR at a cooling load; zero when the implied power is not positive. */
  function PredictedCop(loadKw: real, kwPerTr: real): (cop: real)
    ensures kwPerTr * loadKw <= 0.0 ==> cop == 0.0
  {
    var coolingTr := loadKw / KwPerTon;
    var predictedPower := kwPerTr * coolingTr;
    if predictedPower > 0.0 then loadKw / predictedPower else 0.0
  }

  /** Whenever the implied power is positive, the predicted COP and kW/TR are reciprocal up to 3.517. */
  lemma PredictedCopInverse(loadKw: real, kwPerTr: real)
    requires kwPerTr * loadKw > 0.0
    ensures PredictedCop(loadKw, kwPerTr) * kwPerTr == KwPerTon
  {
    var power := kwPerTr * (loadKw / KwPerTon);
    assert power == (kwPerTr * loadKw) / KwPerTon;
    assert power > 0.0;
    assert (loadKw / power) * kwPerTr == (kwPerTr * loadKw) / power;
    assert (kwPerTr * loadKw) / power == KwPerTon;
  }

  /** The verdict on one operating point given the isolation forest's label and score. */
  function AnomalyVerdict(kwPerTr: real, stats: TrainingStats, isolationOutlier: bool, isolationScore: real)
    : (r: AnomalyDetectionResponse)
    ensures r.isAnomaly <==> isolationOutlier || ZScoreOf(kwPerTr, stats) > ZScoreThreshold
    ensures r.detectionMethod == ZScore <==> ZScoreOf(kwPerTr, stats) > ZScoreThreshold
    ensures r.detectionMethod == IsolationForest <==>
              isolationOutlier && ZScoreOf(kwPerTr, stats) <= ZScoreThreshold
    ensures r.detectionMethod == Combined <==> !r.isAnomaly
    ensures r.anomalyScore >= 0.0 && (r.anomalyScore == isolationScore || r.anomalyScore == -isolationScore)
  {
    var z := ZScoreOf(kwPerTr, stats);
    var isAnomaly := isolationOutlier || z > ZScoreThreshold;
    var detectionMethod := if !isAnomaly then Combined else if z > ZScoreThreshold then ZScore else IsolationForest;
    AnomalyDetectionResponse(isAnomaly, Abs(isolationScore), detectionMethod)
  }

  /** The operating point handed to anomaly detection and optimisation; kW/TR may be missing and reads as zero. */
  datatype OperatingPoint = OperatingPoint(
    chwSupplyTemp: real,
    chwReturnTemp: real,
    chwFlowRate: real,
    ambientTemp: real,
    coolingLoadKw: real,
    kwPerTr: Option<real>)

  /** The prediction once the chosen regressor has produced its kW/TR. */
  function PredictionResponse(req: MLPredictionRequest, useXgb: bool, xgbOutput: real, forestOutput: real)
    : (r: MLPredictionResponse)
    ensures r.modelUsed == (if useXgb then XGBoost else RandomForest)
    ensures r.predictedKwPerTr == (if useXgb then xgbOutput else forestOutput)
    ensures r.confidenceScore == (if useXgb then XgbConfidence else ForestConfidence)
    ensures r.predictedKwPerTr * req.loadKw > 0.0 ==> r.predictedCop * r.predictedKwPerTr == KwPerTon
    ensures r.predictedKwPerTr * req.loadKw <= 0.0 ==> r.predictedCop == 0.0
  {
    var kw := if useXgb then xgbOutput else forestOutput;
    var response := MLPredictionResponse(kw, PredictedCop(req.loadKw, kw), if useXgb then XGBoost else RandomForest,
                                         if useXgb then XgbConfidence else ForestConfidence);
    if kw * req.loadKw > 0.0 then
      PredictedCopInverse(req.loadKw, kw);
      response
    else response
  }

  /** The engine: untrained until a training run with enough samples succeeds. */
  class MLEngine {
    var isTrained: bool
    var trainingStats: Option<TrainingStats>

    /** The engine is trained exactly when it holds training statistics. */
    ghost predicate Valid()
      reads this
    {
      isTrained <==> trainingStats.Some?
    }

    constructor()
      ensures Valid()
      ensures !isTrained && trainingStats == None
    {
      isTrained := false;
      trainingStats := None;
    }

    /**
     * Trains on the usable records. Fewer than 20 leaves the engine exactly as it was; otherwise it becomes
     * trained and keeps the targets' mean and standard deviation (`std`, the non-negative root of their
     * variance) and their count.
     */
    method TrainModels(data: seq<BatchRecord>, std: real, xgbR2: real, forestR2: real)
      returns (r: Result<TrainingSummary, MLError>)
      requires Valid()
      requires std >= 0.0 && std * std == Variance(TargetsOf(data))
      modifies this
      ensures Valid()
      ensures r.Failure? <==> |UsableRecords(data)| < MinimumTrainingSamples
      ensures r.Failure? ==>
                r.error == InsufficientTrainingData
                && isTrained == old(isTrained) && trainingStats == old(trainingStats)
      ensures r.Success? ==>
                isTrained
                && trainingStats == Some(TrainingStats(Mean(TargetsOf(data)), std, |UsableRecords(data)|))
                && r.value == TrainingSummary(xgbR2, forestR2, |UsableRecords(data)|, Mean(TargetsOf(data)))
                && r.value.meanKwPerTr > 0.0
    {
      var features, targets := PrepareFeatures(data);
      if |features| < MinimumTrainingSamples {
        return Failure(InsufficientTrainingData);
      }
      MeanOfPositives(targets);
      var mean := Mean(targets);
      trainingStats := Some(TrainingStats(mean, std, |features|));
      isTrained := true;
      r := Success(TrainingSummary(xgbR2, forestR2, |features|, mean));
    }

    /** Refused until trained; then the chosen regressor's kW/TR and the COP it implies. */
    function PredictEfficiency(req: MLPredictionRequest, useXgb: bool, xgbOutput: real, forestOutput: real)
      : (r: Result<MLPredictionResponse, MLError>)
      reads this
      ensures r.Failure? <==> !isTrained
      ensures r.Failure? ==> r.error == ModelsNotTrained
      ensures r.Success? ==> r.value == PredictionResponse(req, useXgb, xgbOutput, forestOutput)
    {
      if !isTrained then Failure(ModelsNotTrained)
      else Success(PredictionResponse(req, useXgb, xgbOutput, forestOutput))
    }

    /** Refused until trained; then the combined isolation-forest and z-score verdict. */
    function DetectAnomalies(point: OperatingPoint, isolationOutlier: bool, isolationScore: real)
      : (r: Result<AnomalyDetectionResponse, MLError>)
      requires Valid()
      reads this
      ensures r.Failure? <==> !isTrained
      ensures r.Failure? ==> r.error == ModelsNotTrained
      ensures r.Success? ==>
                r.value == AnomalyVerdict(point.kwPerTr.GetOr(0.0), trainingStats.value, isolationOutlier,
                                          isolationScore)
    {
      if !isTrained then Failure(ModelsNotTrained)
      else Success(AnomalyVerdict(point.kwPerTr.GetOr(0.0), trainingStats.value, isolationOutlier,
                                  isolationScore))
    }
  }

  /** The position of each kind of advice in the list. */
  function Position(p: OptimizationParameter): nat {
    match p
    case ChwSupplyTemperature => 0
    case ChwFlowRate => 1
    case OverallSystemEfficiency => 2
  }

  /** Raise a supply below 8 degrees to 8, for 2.5% per degree. */
  function SupplyTemperatureAdvice(p: OperatingPoint): (a: Option<OptimizationRecommendation>)
    ensures a.Some? <==> p.chwSupplyTemp < 8.0
    ensures a.Some? ==>
              a.value.parameter == ChwSupplyTemperature && a.value.currentValue == p.chwSupplyTemp
              && a.value.recommendedValue == 8.0 && a.value.recommendedValue > a.value.currentValue
              && a.value.estimatedSavingsPercent == 2.5 * (a.value.recommendedValue - a.value.currentValue) > 0.0
  {
    if p.chwSupplyTemp < 8.0 then
      var increase := 8.0 - p.chwSupplyTemp;
      Some(OptimizationRecommendation(ChwSupplyTemperature, p.chwSupplyTemp, 8.0, increase * 2.5))
    else None
  }

  /** A delta-T below 4 degrees: cut the flow in proportion so that the delta-T would reach 5. */
  function FlowAdvice(p: OperatingPoint): (a: Option<OptimizationRecommendation>)
    ensures a.Some? <==> p.chwReturnTemp - p.chwSupplyTemp < 4.0
    ensures a.Some? ==>
              a.value.parameter == ChwFlowRate && a.value.currentValue == p.chwFlowRate
              && a.value.estimatedSavingsPercent > 7.0
    ensures a.Some? ==>
              a.value.estimatedSavingsPercent == 5.0 + (5.0 - (p.chwReturnTemp - p.chwSupplyTemp)) * 2.0
              && a.value.recommendedValue * 5.0 == p.chwFlowRate * (p.chwReturnTemp - p.chwSupplyTemp)
  {
    var deltaT := p.chwReturnTemp - p.chwSupplyTemp;
    if deltaT < 4.0 then
      Some(OptimizationRecommendation(ChwFlowRate, p.chwFlowRate, p.chwFlowRate * (deltaT / 5.0),
                                      5.0 + (5.0 - deltaT) * 2.0))
    else None
  }

  /** The recommended flow carries the current flow-times-delta-T at a 5-degree delta-T, so it is lower. */
  lemma FlowAdviceKeepsCooling(p: OperatingPoint)
    requires p.chwReturnTemp - p.chwSupplyTemp < 4.0
    ensures FlowAdvice(p).value.recommendedValue * 5.0 == p.chwFlowRate * (p.chwReturnTemp - p.chwSupplyTemp)
    ensures p.chwFlowRate > 0.0 && p.chwReturnTemp > p.chwSupplyTemp ==>
              FlowAdvice(p).value.recommendedValue < p.chwFlowRate * 0.8
  {
    var deltaT := p.chwReturnTemp - p.chwSupplyTemp;
    var flow := p.chwFlowRate;
    assert FlowAdvice(p).value.recommendedValue == flow * (deltaT / 5.0);
    assert flow * (deltaT / 5.0) * 5.0 == flow * deltaT;
    if flow > 0.0 && deltaT > 0.0 {
      assert deltaT / 5.0 < 0.8;
      assert flow * (deltaT / 5.0) < flow * 0.8;
    }
  }

  /** A kW/TR above 0.8 (a missing one reads as zero): aim for 0.65. */
  function EfficiencyAdvice(p: OperatingPoint): (a: Option<OptimizationRecommendation>)
    ensures a.Some? <==> p.kwPerTr.GetOr(0.0) > 0.8
    ensures a.Some? ==>
              a.value.parameter == OverallSystemEfficiency && a.value.currentValue == p.kwPerTr.value
              && a.value.recommendedValue == 0.65
  {
    var kw := p.kwPerTr.GetOr(0.0);
    if kw > 0.8 then
      Some(OptimizationRecommendation(OverallSystemEfficiency, kw, 0.65, ((kw - 0.65) / kw) * 100.0))
    else None
  }

  /** The efficiency advice promises the share of kW/TR that reaching 0.65 would remove: above 18.75%, below 100%. */
  lemma EfficiencySavingsShare(p: OperatingPoint)
    requires p.kwPerTr.GetOr(0.0) > 0.8
    ensures 18.75 < EfficiencyAdvice(p).value.estimatedSavingsPercent < 100.0
    ensures EfficiencyAdvice(p).value.estimatedSavingsPercent * p.kwPerTr.value
            == (p.kwPerTr.value - 0.65) * 100.0
  {
    var kw := p.kwPerTr.value;
    var share := (kw - 0.65) / kw;
    assert share * kw == kw - 0.65;
    assert share == 1.0 - 0.65 / kw;
    assert 0.65 / kw < 0.65 / 0.8;
  }

  function AdviceFor(p: OperatingPoint, parameter: OptimizationParameter): Option<OptimizationRecommendation> {
    match parameter
    case ChwSupplyTemperature => SupplyTemperatureAdvice(p)
    case ChwFlowRate => FlowAdvice(p)
    case OverallSystemEfficiency => EfficiencyAdvice(p)
  }

  function Present(a: Option<OptimizationRecommendation>): seq<OptimizationRecommendation> {
    if a.Some? then [a.value] else []
  }

  /** Appends a piece of advice when there is one. */
  method AppendAdvice(recs: seq<OptimizationRecommendation>, a: Option<OptimizationRecommendation>)
    returns (out: seq<OptimizationRecommendation>)
    ensures out == recs + Present(a)
  {
    out := recs;
    if a.Some? {
      out := out + [a.value];
    }
  }

  /**
   * At most three pieces of advice, each parameter at most once and in the fixed order supply temperature,
   * flow, overall efficiency; a parameter is advised on exactly when its rule fires, with that rule's advice.
   */
  method GenerateOptimizationRecommendations(p: OperatingPoint) returns (recs: seq<OptimizationRecommendation>)
    ensures |recs| <= 3
    ensures forall k :: 0 <= k < |recs| - 1 ==> Position(recs[k].parameter) < Position(recs[k + 1].parameter)
    ensures forall k :: 0 <= k < |recs| ==> AdviceFor(p, recs[k].parameter) == Some(recs[k])
    ensures forall parameter ::
              AdviceFor(p, parameter).Some? <==> exists k :: 0 <= k < |recs| && recs[k].parameter == parameter
  {
    var supply := SupplyTemperatureAdvice(p);
    var flow := FlowAdvice(p);
    var efficiency := EfficiencyAdvice(p);
    recs := [];
    recs := AppendAdvice(recs, supply);
    recs := AppendAdvice(recs, flow);
    recs := AppendAdvice(recs, efficiency);
    var before := [0, |Present(supply)|, |Present(supply)| + |Present(flow)|];
    assert recs == Present(supply) + Present(flow) + Present(efficiency);
    forall parameter | AdviceFor(p, parameter).Some?
      ensures exists k :: 0 <= k < |recs| && recs[k].parameter == parameter
    {
      assert recs[before[Position(parameter)]].parameter == parameter;
    }
  }
}

=== FILE: plant_state.dfy ===
/**
 * The plant-state dictionary that the control logic, the digital twin, the diagnostic engine and the advanced
 * calculator read and write: every key is optional, so every field is an `Option`.
 * `compressorLift` holds the lift in degrees, whether the dictionary stored a number or a lift-result record.
 */
module PlantStates {
  import opened Util

  datatype PlantState = PlantState(
    plr: Option<real>,
    numChillersRunning: Option<int>,
    coolingLoadKw: Option<real>,
    coolingCapacityTr: Option<real>,
    ratedCapacityTr: Option<real>,
    chwSupplyTemp: Option<real>,
    chwReturnTemp: Option<real>,
    chwFlowRate: Option<real>,
    deltaT: Option<real>,
    chwPumpSpeedPct: Option<real>,
    wetBulbTemp: Option<real>,
    condInletTemp: Option<real>,
    condOutletTemp: Option<real>,
    towerApproach: Option<real>,
    towerRange: Option<real>,
    towerFanSpeed: Option<real>,
    compressorLift: Option<real>,
    chillerPower: Option<real>,
    chwPumpPower: Option<real>,
    cwPumpPower: Option<real>,
    towerFanPower: Option<real>,
    totalPlantPower: Option<real>,
    plantKwPerTr: Option<real>,
    chillerKwPerTr: Option<real>,
    cop: Option<real>,
    plantCop: Option<real>)

  /** The empty dictionary, which Python treats as false. */
  function EmptyState(): PlantState {
    PlantState(None, None, None, None, None, None, None, None, None, None, None, None, None,
               None, None, None, None, None, None, None, None, None, None, None, None, None)
  }
}

=== FILE: sensor_data.dfy ===
/** The record shapes of the plant: raw readings, the metrics record, the simulation configuration and its bounds. */
module SensorData {
  import opened Util

  /**
   * One snapshot of plant sensors. Timestamps are whole minutes on the plant's UTC clock.
   * `humidity` is the only optional field the record declares; the calculator also reads a wet-bulb temperature
   * and three auxiliary powers that the record does not declare, modelled here as optional fields.
   */
  datatype SensorReading = SensorReading(
    timestamp: int,
    chwSupplyTemp: real,
    chwReturnTemp: real,
    chwFlowRate: real,
    condInletTemp: real,
    condOutletTemp: real,
    condFlowRate: real,
    chillerPower: real,
    ambientTemp: real,
    humidity: Option<real>,
    wetBulbTemp: Option<real>,
    chwPumpPower: Option<real>,
    cwPumpPower: Option<real>,
    towerFanPower: Option<real>)

  datatype EfficiencyStatus = Excellent | Average | Poor

  /** The declared fields of the metrics record; any other field handed to it is dropped. */
  datatype CalculatedMetrics = CalculatedMetrics(
    timestamp: int,
    coolingLoadKw: real,
    coolingCapacityTr: real,
    kwPerTr: real,
    cop: real,
    deltaT: real,
    efficiencyStatus: EfficiencyStatus)

  datatype SimulationConfig = SimulationConfig(
    durationHours: int,
    timestepMinutes: int,
    chwSupplySetpoint: real,
    chwReturnSetpoint: real,
    ambientTempBase: real,
    loadFactor: real,
    includeFouling: bool,
    foulingRate: real)

  /** The field bounds the configuration record enforces on construction. */
  predicate ValidConfig(c: SimulationConfig) {
    && 1 <= c.durationHours <= 168
    && 1 <= c.timestepMinutes <= 60
    && 4.0 <= c.chwSupplySetpoint <= 12.0
    && 8.0 <= c.chwReturnSetpoint <= 16.0
    && 20.0 <= c.ambientTempBase <= 45.0
    && 0.3 <= c.loadFactor <= 1.0
    && 0.0 <= c.foulingRate <= 0.1
  }

  /** Constructing a configuration: accepted exactly when every field lies within its bounds. */
  function NewConfig(c: SimulationConfig): (r: Option<SimulationConfig>)
    ensures r.Some? <==> ValidConfig(c)
    ensures r.Some? ==> r.value == c
  {
    if ValidConfig(c) then Some(c) else None
  }

  /** The configuration built when no field is given. */
  function DefaultConfig(): (c: SimulationConfig)
    ensures ValidConfig(c)
  {
    SimulationConfig(24, 5, 7.0, 12.0, 32.0, 0.75, false, 0.01)
  }

  /** The two setpoint bounds are independent: a valid configuration may put the return setpoint below the supply. */
  lemma SetpointsUnordered()
    ensures exists c :: ValidConfig(c) && c.chwReturnSetpoint < c.chwSupplySetpoint
  {
    var c := SimulationConfig(1, 1, 12.0, 8.0, 20.0, 0.3, false, 0.0);
    assert ValidConfig(c);
  }

  datatype OptimizationParameter = ChwSupplyTemperature | ChwFlowRate | OverallSystemEfficiency

  datatype OptimizationRecommendation = OptimizationRecommendation(
    parameter: OptimizationParameter,
    currentValue: real,
    recommendedValue: real,
    estimatedSavingsPercent: real)

  datatype MLPredictionRequest = MLPredictionRequest(
    chwSupplyTemp: real,
    chwReturnTemp: real,
    chwFlowRate: real,
    ambientTemp: real,
    loadKw: real)

  datatype ModelKind = XGBoost | RandomForest

  datatype MLPredictionResponse = MLPredictionResponse(
    predictedKwPerTr: real,
    predictedCop: real,
    modelUsed: ModelKind,
    confidenceScore: real)

  datatype AnomalyMethod = ZScore | IsolationForest | Combined

  datatype AnomalyDetectionResponse = AnomalyDetectionResponse(
    isAnomaly: bool,
    anomalyScore: real,
    detectionMethod: AnomalyMethod)
}

=== FILE: simulation_engine.dfy ===
/**
 * The synthetic data generator: a time series of sensor readings with a daily ambient cycle, business-hours
 * load, optional fouling and noise. The clock and every random draw are inputs: the start minute, and one
 * record of draws per step holding the normal noises, the uniform load draw and the two sine values of the
 * step's hour.
 */
module SimulationEngine {
  import opened Util
  import opened SensorData
  import Thermodynamics

  const NoiseFactor: real := 0.02
  const BaseFlow: real := 70.0
  const ApproachTemp: real := 3.0
  const BaseKwPerTr: real := 0.58
  const MinimumDeltaT: real := 3.0
  const MinimumChillerPower: real := 10.0
  const MinutesPerDay: int := 1440

  /**
   * The random values of one step: `loadRandom` is the uniform draw in [0, 1); `powerNoise` is a standard
   * normal draw scaled by 2% of the chiller power; the other noises are the normal draws themselves.
   * `ambientSine` and `humiditySine` are the sines of the step's hour angle.
   */
  datatype StepDraws = StepDraws(
    ambientNoise: real,
    loadRandom: real,
    supplyNoise: real,
    flowNoise: real,
    condInletNoise: real,
    condOutletNoise: real,
    condFlowNoise: real,
    powerNoise: real,
    humidityNoise: real,
    ambientSine: real,
    humiditySine: real)

  /** What the random sources can produce: a uniform draw below one and sines between -1 and 1. */
  predicate ValidDraws(d: StepDraws) {
    0.0 <= d.loadRandom < 1.0 && -1.0 <= d.ambientSine <= 1.0 && -1.0 <= d.humiditySine <= 1.0
  }

  /** Whole steps that fit in the run; at least one for a valid configuration. */
  function TotalSteps(c: SimulationConfig): (n: int)
    requires c.timestepMinutes > 0
    ensures ValidConfig(c) ==> 1 <= n <= 10080
    ensures n * c.timestepMinutes <= c.durationHours * 60 < (n + 1) * c.timestepMinutes
  {
    (c.durationHours * 60) / c.timestepMinutes
  }

  /** The hour of the day, with minutes as a fraction, of a UTC minute count. */
  function HourOfDay(minute: int): (h: real)
    ensures 0.0 <= h < 24.0
  {
    (minute % MinutesPerDay) as real / 60.0
  }

  predicate BusinessHours(hour: real) {
    8.0 <= hour < 18.0
  }

  /** The share of the load factor a step runs at: 80-100% in business hours, 40-50% otherwise. */
  function DayShare(hour: real, loadRandom: real): real {
    if BusinessHours(hour) then 0.8 + 0.2 * loadRandom else 0.4 + 0.1 * loadRandom
  }

  function LoadMultiplier(loadFactor: real, hour: real, loadRandom: real): real {
    loadFactor * DayShare(hour, loadRandom)
  }

  /** In business hours a step runs at 80-100% of the load factor. */
  lemma BusinessHoursLoad(loadFactor: real, hour: real, loadRandom: real)
    requires loadFactor > 0.0 && 0.0 <= loadRandom < 1.0 && BusinessHours(hour)
    ensures loadFactor * 0.8 <= LoadMultiplier(loadFactor, hour, loadRandom) < loadFactor
  {
    var share := DayShare(hour, loadRandom);
    assert LoadMultiplier(loadFactor, hour, loadRandom) == loadFactor * share;
    assert 0.8 <= share < 1.0;
    ScaleWithin(loadFactor, share, 0.8, 1.0);
  }

  /** Outside business hours a step runs at 40-50% of the load factor. */
  lemma OffHoursLoad(loadFactor: real, hour: real, loadRandom: real)
    requires loadFactor > 0.0 && 0.0 <= loadRandom < 1.0 && !BusinessHours(hour)
    ensures loadFactor * 0.4 <= LoadMultiplier(loadFactor, hour, loadRandom) < loadFactor * 0.5
  {
    var share := DayShare(hour, loadRandom);
    assert LoadMultiplier(loadFactor, hour, loadRandom) == loadFactor * share;
    assert 0.4 <= share < 0.5;
    ScaleWithin(loadFactor, share, 0.4, 0.5);
  }

  /** Scaling by a positive factor keeps a value inside the scaled interval. */
  lemma ScaleWithin(k: real, x: real, lo: real, hi: real)
    requires k > 0.0 && lo <= x < hi
    ensures k * lo <= k * x < k * hi
  {
    assert k * x - k * lo == k * (x - lo);
    assert k * hi - k * x == k * (hi - x);
  }

  /** With fouling on, efficiency degrades linearly over the run up to the fouling rate; off, not at all. */
  function FoulingFactor(c: SimulationConfig, step: int, totalSteps: int): (f: real)
    requires totalSteps > 0
    ensures !c.includeFouling ==> f == 1.0
  {
    if c.includeFouling then 1.0 + c.foulingRate * (step as real / totalSteps as real) else 1.0
  }

  /** Fouling never improves as the run goes on. */
  lemma FoulingNeverImproves(c: SimulationConfig, i: int, j: int, totalSteps: int)
    requires totalSteps > 0 && c.foulingRate >= 0.0 && i <= j
    ensures FoulingFactor(c, i, totalSteps) <= FoulingFactor(c, j, totalSteps)
  {
    if c.includeFouling {
      var n := totalSteps as real;
      assert i as real / n <= j as real / n;
      assert c.foulingRate * (i as real / n) <= c.foulingRate * (j as real / n);
    }
  }

  /** Over a run the fouling factor stays at or above 1 and below one plus a positive fouling rate. */
  lemma FoulingBounded(c: SimulationConfig, step: int, totalSteps: int)
    requires totalSteps > 0 && c.foulingRate >= 0.0 && 0 <= step < totalSteps
    ensures 1.0 <= FoulingFactor(c, step, totalSteps) <= 1.0 + c.foulingRate
    ensures c.foulingRate > 0.0 ==> FoulingFactor(c, step, totalSteps) < 1.0 + c.foulingRate
  {
    if c.includeFouling {
      var progress := step as real / totalSteps as real;
      assert FoulingFactor(c, step, totalSteps) == 1.0 + c.foulingRate * progress;
      assert progress * totalSteps as real == step as real;
      assert 0.0 <= progress < 1.0;
      if c.foulingRate > 0.0 {
        ScaleWithin(c.foulingRate, progress, 0.0, 1.0);
      }
    }
  }

  /**
   * One reading of the run: the chilled-water temperatures at least 3 degrees apart, flows and chiller power
   * never negative, humidity within 30-90%, and no wet bulb or auxiliary powers.
   */
  function StepReading(c: SimulationConfig, totalSteps: int, step: int, minute: int, d: StepDraws): (r: SensorReading)
    requires totalSteps > 0
    ensures r.timestamp == minute
    ensures r.chwReturnTemp - r.chwSupplyTemp >= MinimumDeltaT
    ensures r.chwSupplyTemp == c.chwSupplySetpoint + d.supplyNoise
    ensures r.chwFlowRate >= 0.0 && r.condFlowRate >= 0.0 && r.chillerPower >= 0.0
    ensures r.ambientTemp == c.ambientTempBase + 5.0 * d.ambientSine + d.ambientNoise
    ensures r.humidity.Some? && 30.0 <= r.humidity.value <= 90.0
    ensures r.wetBulbTemp.None? && r.chwPumpPower.None? && r.cwPumpPower.None? && r.towerFanPower.None?
    ensures Thermodynamics.Validate(r) != Some(Thermodynamics.DeltaTTooLow)
    ensures var m := LoadMultiplier(c.loadFactor, HourOfDay(minute), d.loadRandom);
            var deltaT := Max(MinimumDeltaT, (c.chwReturnSetpoint - c.chwSupplySetpoint) * m);
            var p := BasePower(c, r.ambientTemp, m, FoulingFactor(c, step, totalSteps), BaseFlow * m + d.flowNoise, deltaT);
            && r.chwReturnTemp == r.chwSupplyTemp + deltaT
            && r.chwFlowRate == Max(0.0, BaseFlow * m + d.flowNoise)
            && r.condInletTemp == r.ambientTemp + ApproachTemp + d.condInletNoise
            && r.condOutletTemp == r.condInletTemp + 5.0 * m + d.condOutletNoise
            && r.condFlowRate == Max(0.0, BaseFlow * 1.2 * m + d.condFlowNoise)
            && r.chillerPower == Max(0.0, NoisyPower(p, d.powerNoise))
            && r.humidity == Some(Max(30.0, Min(90.0, 60.0 + 20.0 * d.humiditySine + d.humidityNoise)))
  {
    var hour := HourOfDay(minute);
    var ambient := c.ambientTempBase + 5.0 * d.ambientSine + d.ambientNoise;
    var multiplier := LoadMultiplier(c.loadFactor, hour, d.loadRandom);
    var fouling := FoulingFactor(c, step, totalSteps);
    var supply := c.chwSupplySetpoint + d.supplyNoise;
    var deltaT := Max(MinimumDeltaT, (c.chwReturnSetpoint - c.chwSupplySetpoint) * multiplier);
    var chwReturn := supply + deltaT;
    var flow := BaseFlow * multiplier + d.flowNoise;
    var condInlet := ambient + ApproachTemp + d.condInletNoise;
    var condOutlet := condInlet + 5.0 * multiplier + d.condOutletNoise;
    var condFlow := BaseFlow * 1.2 * multiplier + d.condFlowNoise;
    var power := BasePower(c, ambient, multiplier, fouling, flow, deltaT);
    var noisyPower := NoisyPower(power, d.powerNoise);
    var humidity := Max(30.0, Min(90.0, 60.0 + 20.0 * d.humiditySine + d.humidityNoise));
    SensorReading(minute, supply, chwReturn, Max(0.0, flow), condInlet, condOutlet, Max(0.0, condFlow),
                  Max(0.0, noisyPower), ambient, Some(humidity), None, None, None, None)
  }

  /** A power plus noise whose standard deviation is 2% of it; the draw is a standard-normal value. */
  function NoisyPower(p: real, noise: real): real {
    p + noise * (p * NoiseFactor)
  }

  /**
   * Chiller power before noise: the cooling delivered times a kW/TR that rises 1% per degree of ambient above
   * 25 and with fouling, never under 10 kW.
   */
  function BasePower(c: SimulationConfig, ambient: real, multiplier: real, fouling: real, flow: real, deltaT: real)
    : (p: real)
    ensures p >= MinimumChillerPower
  {
    var coolingKw := 4.186 * flow * deltaT;
    var coolingTr := coolingKw / 3.517;
    var kwPerTr := (BaseKwPerTr + 0.01 * (ambient - 25.0)) * fouling;
    Max(coolingTr * kwPerTr, MinimumChillerPower)
  }

  /**
   * Without noise, a step of a valid run is a reading the metric calculator accepts: delta-T of at least 3
   * degrees, a positive flow and at least 10 kW of chiller power.
   */
  lemma QuietReadingIsAccepted(c: SimulationConfig, totalSteps: int, step: int, minute: int, d: StepDraws)
    requires ValidConfig(c) && totalSteps > 0 && ValidDraws(d)
    requires d.flowNoise == 0.0 && d.powerNoise == 0.0
    ensures Thermodynamics.Validate(StepReading(c, totalSteps, step, minute, d)).None?
    ensures StepReading(c, totalSteps, step, minute, d).chillerPower >= MinimumChillerPower
  {
    var multiplier := LoadMultiplier(c.loadFactor, HourOfDay(minute), d.loadRandom);
    if BusinessHours(HourOfDay(minute)) {
      BusinessHoursLoad(c.loadFactor, HourOfDay(minute), d.loadRandom);
    } else {
      OffHoursLoad(c.loadFactor, HourOfDay(minute), d.loadRandom);
    }
    assert multiplier > 0.0;
    assert BaseFlow * multiplier > 0.0;
  }

  /**
   * The run: one reading per step, the k-th stamped k timesteps after the start, built from the k-th draws.
   */
  method GenerateData(c: SimulationConfig, startMinute: int, draws: seq<StepDraws>) returns (readings: seq<SensorReading>)
    requires ValidConfig(c)
    requires |draws| >= TotalSteps(c)
    ensures |readings| == TotalSteps(c)
    ensures forall k :: 0 <= k < |readings| ==>
              readings[k] == StepReading(c, TotalSteps(c), k, startMinute + k * c.timestepMinutes, draws[k])
    ensures forall k :: 0 <= k < |readings| ==> readings[k].timestamp == startMinute + k * c.timestepMinutes
    ensures forall k :: 0 <= k < |readings| ==>
              Thermodynamics.Validate(readings[k]) != Some(Thermodynamics.DeltaTTooLow)
  {
    var totalSteps := (c.durationHours * 60) / c.timestepMinutes;
    readings := [];
    var i := 0;
    while i < totalSteps
      invariant 0 <= i <= totalSteps
      invariant |readings| == i
      invariant forall k :: 0 <= k < i ==>
                  readings[k] == StepReading(c, totalSteps, k, startMinute + k * c.timestepMinutes, draws[k])
    {
      var minute := startMinute + i * c.timestepMinutes;
      readings := readings + [StepReading(c, totalSteps, i, minute, draws[i])];
      i := i + 1;
    }
  }

  datatype ConfigError = InvalidConfiguration

  /**
   * A single reading for one hour at 60-minute steps with the given ambient base and load factor; the
   * configuration bounds refuse an ambient base outside 20-45 degrees or a load factor outside 0.3-1.
   */
  method GenerateSingleReading(ambientTemp: real, loadFactor: real, startMinute: int, d: StepDraws)
    returns (r: Result<SensorReading, ConfigError>)
    ensures r.Failure? <==> !(20.0 <= ambientTemp <= 45.0 && 0.3 <= loadFactor <= 1.0)
    ensures r.Success? ==>
              r.value == StepReading(SimulationConfig(1, 60, 7.0, 12.0, ambientTemp, loadFactor, false, 0.01), 1, 0,
                                     startMinute, d)
              && r.value.timestamp == startMinute
  {
    var config := NewConfig(SimulationConfig(1, 60, 7.0, 12.0, ambientTemp, loadFactor, false, 0.01));
    if config.None? {
      return Failure(InvalidConfiguration);
    }
    var readings := GenerateData(config.value, startMinute, [d]);
    return Success(readings[0]);
  }
}

=== FILE: thermodynamics.dfy ===
/**
 * The metric calculator: validation of a reading, cooling load, tons of refrigeration, kW/TR and COP, the
 * cooling-tower and plant-level figures, cost, CO2 and savings, and the batch run over many readings.
 */
module Thermodynamics {
  import opened Util
  import opened SensorData

  const SpecificHeatWater: real := 4.186
  const KwPerTon: real := 3.517

  const ExcellentThreshold: real := 0.6
  const AverageThreshold: real := 0.8
  const PlantExcellentThreshold: real := 0.75
  const PlantAverageThreshold: real := 0.95

  const ElectricityTariff: real := 8.0
  const OperatingHoursPerDay: real := 16.0
  const OperatingDaysPerYear: real := 300.0
  const Co2Factor: real := 0.82
  const BaselinePlantKwPerTr: real := 0.85

  /** Why a reading was rejected; the calculator reports the first failing check only. */
  datatype ValidationError = DeltaTTooLow | NonPositiveFlow | NonPositivePower | InvalidCoolingLoad

  function DeltaT(r: SensorReading): real {
    r.chwReturnTemp - r.chwSupplyTemp
  }

  /** The three checks, in the order the calculator runs them. A difference of exactly 2 degrees passes. */
  function Validate(r: SensorReading): (e: Option<ValidationError>)
    ensures e.None? <==> DeltaT(r) >= 2.0 && r.chwFlowRate > 0.0 && r.chillerPower > 0.0
    ensures e == Some(DeltaTTooLow) <==> DeltaT(r) < 2.0
    ensures e == Some(NonPositiveFlow) <==> DeltaT(r) >= 2.0 && r.chwFlowRate <= 0.0
    ensures e == Some(NonPositivePower) <==> DeltaT(r) >= 2.0 && r.chwFlowRate > 0.0 && r.chillerPower <= 0.0
  {
    if DeltaT(r) < 2.0 then Some(DeltaTTooLow)
    else if r.chwFlowRate <= 0.0 then Some(NonPositiveFlow)
    else if r.chillerPower <= 0.0 then Some(NonPositivePower)
    else None
  }

  /** Cooling load in kW: specific heat times flow times the chilled-water temperature difference. */
  function CoolingLoad(r: SensorReading): (load: real)
    ensures Validate(r).None? ==> load > 0.0
  {
    SpecificHeatWater * r.chwFlowRate * DeltaT(r)
  }

  /** Chiller efficiency band: the upper bound of each band is exclusive. */
  function ChillerStatus(kwPerTr: real): (s: EfficiencyStatus)
    ensures s == Excellent <==> kwPerTr < 0.6
    ensures s == Average <==> 0.6 <= kwPerTr < 0.8
    ensures s == Poor <==> 0.8 <= kwPerTr
  {
    if kwPerTr < ExcellentThreshold then Excellent
    else if kwPerTr < AverageThreshold then Average
    else Poor
  }

  /** Plant efficiency band, with all auxiliaries included: the upper bound of each band is exclusive. */
  function PlantStatus(plantKwPerTr: real): (s: EfficiencyStatus)
    ensures s == Excellent <==> plantKwPerTr < 0.75
    ensures s == Average <==> 0.75 <= plantKwPerTr < 0.95
    ensures s == Poor <==> 0.95 <= plantKwPerTr
  {
    if plantKwPerTr < PlantExcellentThreshold then Excellent
    else if plantKwPerTr < PlantAverageThreshold then Average
    else Poor
  }

  /** An auxiliary power counts only when present and non-zero. */
  function AuxPower(o: Option<real>): real {
    if Truthy(o) then o.value else 0.0
  }

  predicate AuxNonNegative(r: SensorReading) {
    r.chwPumpPower.GetOr(0.0) >= 0.0 && r.cwPumpPower.GetOr(0.0) >= 0.0 && r.towerFanPower.GetOr(0.0) >= 0.0
  }

  /**
   * Chiller power plus every auxiliary power that is present and non-zero. Skipping a zero adds nothing, so
   * the total equals the sum with absent powers counted as zero.
   */
  function TotalPlantPower(r: SensorReading): (total: real)
    ensures total == r.chillerPower + r.chwPumpPower.GetOr(0.0) + r.cwPumpPower.GetOr(0.0) + r.towerFanPower.GetOr(0.0)
    ensures AuxNonNegative(r) ==> total >= r.chillerPower
    ensures !Truthy(r.chwPumpPower) && !Truthy(r.cwPumpPower) && !Truthy(r.towerFanPower) ==> total == r.chillerPower
  {
    r.chillerPower + AuxPower(r.chwPumpPower) + AuxPower(r.cwPumpPower) + AuxPower(r.towerFanPower)
  }

  /** The savings percentage: nothing unless plant kW/TR exceeds the 0.85 baseline. */
  function SavingsPercent(plantKwPerTr: real): (pct: real)
    ensures plantKwPerTr <= 0.85 ==> pct == 0.0
    ensures plantKwPerTr > 0.85 ==> 0.0 < pct < 100.0
  {
    if plantKwPerTr > BaselinePlantKwPerTr then
      (plantKwPerTr - BaselinePlantKwPerTr) / plantKwPerTr * 100.0
    else 0.0
  }

  /** Every value the calculator computes for a valid reading, before it builds the metrics record. */
  datatype Derived = Derived(
    deltaT: real,
    coolingLoadKw: real,
    coolingCapacityTr: real,
    kwPerTr: real,
    cop: real,
    efficiencyStatus: EfficiencyStatus,
    towerRange: Option<real>,
    towerApproach: Option<real>,
    heatRejectedKw: Option<real>,
    totalPlantPower: real,
    plantKwPerTr: real,
    plantCop: real,
    plantEfficiencyStatus: EfficiencyStatus,
    energyCostPerHour: real,
    potentialSavingsPercent: real,
    potentialSavingsInrPerYear: real,
    co2EmissionsKgPerHour: real)

  /** Tower range, set only when both condenser temperatures are non-zero. */
  function TowerRange(r: SensorReading): (rg: Option<real>)
    ensures rg.Some? <==> r.condInletTemp != 0.0 && r.condOutletTemp != 0.0
    ensures rg.Some? ==> r.condOutletTemp + rg.value == r.condInletTemp
  {
    if r.condInletTemp != 0.0 && r.condOutletTemp != 0.0 then Some(r.condInletTemp - r.condOutletTemp) else None
  }

  /** Heat rejected at the condenser: needs a range, a non-zero condenser flow and a positive range. */
  function HeatRejected(r: SensorReading): (h: Option<real>)
    ensures h.Some? <==> r.condInletTemp != 0.0 && r.condOutletTemp != 0.0 && r.condFlowRate != 0.0
                         && r.condInletTemp - r.condOutletTemp > 0.0
    ensures h.Some? ==> (h.value > 0.0 <==> r.condFlowRate > 0.0)
  {
    var range := TowerRange(r);
    if range.Some? && r.condFlowRate != 0.0 && range.value > 0.0 then
      Some(SpecificHeatWater * r.condFlowRate * range.value)
    else None
  }

  /** Tower approach, set only when the condenser outlet temperature is non-zero and a wet bulb is present. */
  function TowerApproach(r: SensorReading): (a: Option<real>)
    ensures a.Some? <==> r.condOutletTemp != 0.0 && r.wetBulbTemp.Some?
    ensures a.Some? ==> r.condOutletTemp == r.wetBulbTemp.value + a.value
  {
    if r.condOutletTemp != 0.0 && r.wetBulbTemp.Some? then Some(r.condOutletTemp - r.wetBulbTemp.value) else None
  }

  /**
   * The plant figures of a valid reading. With non-negative auxiliaries the plant draws at least the chiller's
   * power, so plant kW/TR is at least chiller kW/TR. Savings are zero unless plant kW/TR exceeds the baseline;
   * above it the percentage lies strictly between 0 and 100 and the yearly rupee figure is positive.
   */
  function Derive(r: SensorReading): (d: Derived)
    requires Validate(r).None?
    ensures d.coolingCapacityTr > 0.0 && d.coolingCapacityTr * KwPerTon == d.coolingLoadKw
    ensures AuxNonNegative(r) ==> d.totalPlantPower >= r.chillerPower && d.plantKwPerTr >= d.kwPerTr
    ensures d.plantKwPerTr <= BaselinePlantKwPerTr ==>
              d.potentialSavingsPercent == 0.0 && d.potentialSavingsInrPerYear == 0.0
    ensures d.plantKwPerTr > BaselinePlantKwPerTr ==>
              && 0.0 < d.potentialSavingsPercent < 100.0
              && d.potentialSavingsInrPerYear
                 == (d.totalPlantPower - BaselinePlantKwPerTr * d.coolingCapacityTr) * 16.0 * 300.0 * 8.0
              && d.potentialSavingsInrPerYear > 0.0
    ensures d.energyCostPerHour == 8.0 * d.totalPlantPower && d.co2EmissionsKgPerHour == 0.82 * d.totalPlantPower
    ensures d.deltaT == DeltaT(r) && d.coolingLoadKw == CoolingLoad(r)
    ensures d.kwPerTr == PerTon(r.chillerPower, d.coolingCapacityTr) && d.cop == CopOf(d.coolingLoadKw, r.chillerPower)
    ensures d.efficiencyStatus == ChillerStatus(d.kwPerTr)
    ensures d.towerRange == TowerRange(r) && d.towerApproach == TowerApproach(r) && d.heatRejectedKw == HeatRejected(r)
    ensures d.totalPlantPower == TotalPlantPower(r) && d.plantKwPerTr == PerTon(d.totalPlantPower, d.coolingCapacityTr)
    ensures d.plantCop == CopOf(d.coolingLoadKw, d.totalPlantPower)
    ensures d.plantEfficiencyStatus == PlantStatus(d.plantKwPerTr)
    ensures d.potentialSavingsPercent == SavingsPercent(d.plantKwPerTr)
  {
    var load := CoolingLoad(r);
    var tr := load / KwPerTon;
    var kwPerTr := PerTon(r.chillerPower, tr);
    var total := TotalPlantPower(r);
    var plantKwPerTr := PerTon(total, tr);
    DivisionMonotone(r.chillerPower, total, tr);
    Derived(
      DeltaT(r), load, tr, kwPerTr, CopOf(load, r.chillerPower), ChillerStatus(kwPerTr),
      TowerRange(r), TowerApproach(r), HeatRejected(r),
      total, plantKwPerTr, CopOf(load, total), PlantStatus(plantKwPerTr),
      total * ElectricityTariff,
      SavingsPercent(plantKwPerTr),
      YearlySavings(total, tr),
      total * Co2Factor)
  }

  /** Power per ton of refrigeration. */
  function PerTon(power: real, tr: real): (k: real)
    requires tr > 0.0
    ensures k * tr == power
  {
    power / tr
  }

  /** A coefficient of performance: load over power, zero when the power is not positive. */
  function CopOf(load: real, power: real): (c: real)
    ensures power > 0.0 ==> c * power == load
    ensures power <= 0.0 ==> c == 0.0
  {
    if power > 0.0 then load / power else 0.0
  }

  /**
   * The yearly rupee savings of bringing the plant to the baseline: the excess power over 16 hours a day,
   * 300 days a year, at the tariff, and zero at or below the baseline.
   */
  function YearlySavings(total: real, tr: real): (inr: real)
    requires tr > 0.0
    ensures PerTon(total, tr) <= BaselinePlantKwPerTr ==> inr == 0.0
    ensures PerTon(total, tr) > BaselinePlantKwPerTr ==>
              inr == (total - BaselinePlantKwPerTr * tr) * 16.0 * 300.0 * 8.0 && inr > 0.0
  {
    AboveRatio(total, tr, BaselinePlantKwPerTr);
    if PerTon(total, tr) > BaselinePlantKwPerTr then
      (total - BaselinePlantKwPerTr * tr) * (OperatingHoursPerDay * OperatingDaysPerYear) * ElectricityTariff
    else 0.0
  }

  /** A ratio above a bound means the numerator exceeds the bound times the (positive) denominator. */
  lemma AboveRatio(num: real, den: real, bound: real)
    requires den > 0.0
    ensures num / den > bound <==> num > bound * den
  {
    assert num == (num / den) * den;
  }

  lemma DivisionMonotone(a: real, b: real, den: real)
    requires den > 0.0
    ensures a <= b ==> a / den <= b / den
  {
    assert b / den - a / den == (b - a) / den;
  }

  /** The metrics record keeps only its declared fields. */
  function ToMetrics(timestamp: int, d: Derived): CalculatedMetrics {
    CalculatedMetrics(timestamp, d.coolingLoadKw, d.coolingCapacityTr, d.kwPerTr, d.cop, d.deltaT, d.efficiencyStatus)
  }

  /**
   * The calculator's verdict on one reading: rejected with the first failing check, or the metrics record.
   * The cooling-load check after validation never fires.
   */
  function CalculateMetrics(r: SensorReading): (res: Result<CalculatedMetrics, ValidationError>)
    ensures res.Failure? <==> DeltaT(r) < 2.0 || r.chwFlowRate <= 0.0 || r.chillerPower <= 0.0
    ensures res.Failure? ==> Validate(r) == Some(res.error) && res.error != InvalidCoolingLoad
    ensures res.Success? ==> res.value.timestamp == r.timestamp && res.value.deltaT == DeltaT(r)
    ensures res.Success? ==> res.value.coolingLoadKw > 0.0 && res.value.coolingCapacityTr > 0.0
    ensures res.Success? ==> res.value.coolingCapacityTr * KwPerTon == res.value.coolingLoadKw
    ensures res.Success? ==> res.value.kwPerTr * res.value.cop == KwPerTon
    ensures res.Success? ==>
              && res.value.coolingLoadKw == CoolingLoad(r)
              && res.value.kwPerTr * res.value.coolingCapacityTr == r.chillerPower
              && res.value.cop * r.chillerPower == res.value.coolingLoadKw
              && res.value.efficiencyStatus == ChillerStatus(res.value.kwPerTr)
  {
    match Validate(r)
    case Some(e) => Failure(e)
    case None =>
      if CoolingLoad(r) <= 0.0 then Failure(InvalidCoolingLoad)
      else
        KwPerTrTimesCop(r.chillerPower, CoolingLoad(r));
        Success(ToMetrics(r.timestamp, Derive(r)))
  }

  /** Before rounding, kW/TR and COP are reciprocal up to the kW-per-ton constant. */
  lemma KwPerTrTimesCop(power: real, load: real)
    requires power > 0.0 && load > 0.0
    ensures (power / (load / KwPerTon)) * (load / power) == KwPerTon
  {
    var tr := load / KwPerTon;
    assert tr > 0.0;
    assert power / tr == power * KwPerTon / load by {
      assert tr * load == load * load / KwPerTon;
    }
    calc {
      (power / tr) * (load / power);
      (power * KwPerTon / load) * (load / power);
      KwPerTon * ((power / load) * (load / power));
      { assert (power / load) * (load / power) == 1.0; }
      KwPerTon;
    }
  }

  /** One entry of a batch run: the reading with its metrics, or the reading with the reason it was rejected. */
  datatype BatchRecord =
    | ValidRecord(reading: SensorReading, metrics: CalculatedMetrics)
    | InvalidRecord(reading: SensorReading, error: ValidationError)
  {
    predicate IsValid() {
      ValidRecord?
    }
  }

  /** The entry the batch run produces for one reading. */
  function RecordFor(r: SensorReading): BatchRecord {
    match CalculateMetrics(r)
    case Success(m) => ValidRecord(r, m)
    case Failure(e) => InvalidRecord(r, e)
  }

  /**
   * Runs the calculator over every reading, keeping the rejected ones: one entry per reading, in input order,
   * valid exactly when the calculator accepts the reading, carrying its metrics or its error.
   */
  method BatchCalculate(readings: seq<SensorReading>) returns (results: seq<BatchRecord>)
    ensures |results| == |readings|
    ensures forall i :: 0 <= i < |readings| ==> results[i].reading == readings[i]
    ensures forall i :: 0 <= i < |readings| ==> (results[i].IsValid() <==> Validate(readings[i]).None?)
    ensures forall i :: 0 <= i < |readings| && results[i].IsValid() ==>
              Success(results[i].metrics) == CalculateMetrics(readings[i])
    ensures forall i :: 0 <= i < |readings| && !results[i].IsValid() ==>
              Some(results[i].error) == Validate(readings[i])
  {
    results := [];
    for i := 0 to |readings|
      invariant |results| == i
      invariant forall k :: 0 <= k < i ==> results[k] == RecordFor(readings[k])
    {
      var record: BatchRecord;
      var outcome := CalculateMetrics(readings[i]);
      if outcome.Success? {
        record := ValidRecord(readings[i], outcome.value);
      } else {
        record := InvalidRecord(readings[i], outcome.error);
      }
      results := results + [record];
    }
  }
}

=== FILE: util.dfy ===
/** Small value types shared by every module of the model. */
module Util {

  /** A value that may be absent: a missing dictionary key, an unset optional field, Python's `None`. */
  datatype Option<T> = None | Some(value: T) {
    function GetOr(default: T): T {
      match this
      case Some(v) => v
      case None => default
    }
  }

  /** The outcome of an operation that the source either completes or abandons with an error. */
  datatype Result<T, E> = Success(value: T) | Failure(error: E)

  /** A float that may be the `float('inf')` sentinel the calculators fall back to when a divisor is not positive. */
  datatype Extended = Finite(v: real) | Infinity {
    /** `x < bound` on Python floats: infinity is below no bound. */
    predicate Below(bound: real) {
      Finite? && v < bound
    }
    /** `x > bound` on Python floats: infinity exceeds every bound. */
    predicate Above(bound: real) {
      Infinity? || v > bound
    }
  }

  /** Python truthiness of an optional float: present and not zero. */
  predicate Truthy(o: Option<real>) {
    o.Some? && o.value != 0.0
  }

  function Max(a: real, b: real): real {
    if a >= b then a else b
  }

  function Min(a: real, b: real): real {
    if a <= b then a else b
  }

  function Cube(x: real): real {
    x * x * x
  }

  /** The cube is strictly increasing: below 1 exactly when its argument is. */
  lemma CubeBelowOne(x: real)
    requires x < 1.0
    ensures Cube(x) < 1.0
  {
    if x < 0.0 {
      assert x * x >= 0.0;
      assert x * x * x <= 0.0;
    } else {
      assert x * x <= x;
      assert x * x * x <= x * x;
    }
  }

  /** Above 1 exactly when its argument is. */
  lemma CubeAboveOne(x: real)
    requires x > 1.0
    ensures Cube(x) > 1.0
  {
    assert x * x > x;
    assert x * x * x > x * x;
  }

  /** The cube of a quotient is the quotient of the cubes. */
  lemma CubeOfQuotient(a: real, b: real)
    requires b != 0.0
    ensures Cube(a / b) * Cube(b) == Cube(a)
  {
    var r := a / b;
    assert r * b == a;
    calc {
      Cube(r) * Cube(b);
      (r * r * r) * (b * b * b);
      (r * b) * (r * b) * (r * b);
      a * a * a;
    }
  }
}
